=== FILE: README.md ===
# Handenheit attendee directory: a Dafny model

Handenheit is a browser directory of conference attendees. Each attendee is a LinkedIn profile pasted as JSON. The page
(`AttendeesDatabase` in app.js) does the following:

- stores the profiles;
- filters and sorts them;
- sends them to an AI search;
- ranks the matches that come back and decorates each card with "Match" badges.

Four Python handlers sit behind it:

- the search endpoint (api/search.py);
- the local proxy (proxy-server.py);
- the vector search over the cloud copy (api/vector-search.py);
- the sync that writes that copy (api/sync-attendees.py).

An edge middleware (middleware.js) and a password endpoint (api/auth.py) guard the site. The middleware only runs for the paths its `config.matcher` selects: the framework assets under `/_next`, `/favicon.ico` and the login page `/login.html` are never gated.

This project models those parts as pure Dafny functions over immutable data and proves what they promise. The modules are:

- `Profiles`: the attendee record.
- `Store`: add, delete, import and clear.
- `Browse`: the list filter, sort and school drop-down.
- `Highlights`: the badge decisions of an AI match card.
- `Schools`: school styling and logos.
- `AiResults`: the browser's half of an AI search, with key checks, reply reading and score ranking.
- `LlmResponse`: how each handler turns a model reply into one JSON text block.
- `Routing`: request validation, model choice and upstream error mapping.
- `Rows`: the database rows written by the sync and read by the vector search.
- `Sync`: the embedding text and the batch tally.
- `Access`: the middleware gate and the password check.

Some modules are generic infrastructure:

- `Common`: Option, Result and filtering.
- `Text`: trim, lower-case, split, join and search.
- `Sorting`: a stable insertion sort with its uniqueness theorem.
- `JsonData`: decoded JSON values with Python `dict.get` semantics.

Library behaviour the code relies on is passed in as a function parameter, and nothing about it is assumed beyond its type. That covers `JSON.parse`, `json.loads`, `json.dumps`, `localeCompare` as a collation key, base64 decoding, the newline-repair regex and the embedding/database write.

Both JavaScript sorts are stable (ES2019), so each is modelled by one stable sort keyed by a sequence of integers compared lexicographically.

## Model

| member | source | states |
|---|---|---|
| Store.Add | app.js:257-310 | a blank paste is refused, unparsable text is invalid, and a URL already stored is a duplicate, each exactly when that condition holds; an accepted record is appended with the fresh id and time, the school input overriding and the image input only filling a missing image, and nothing else of the pasted record changes |
| Store.AddKeepsUrlsUnique | app.js:286-294 | a successful add keeps every URL in the store distinct |
| Store.SecondAddWithSameUrlRejected | app.js:286-291 | once a record is added, a later paste with the same URL is a duplicate whatever the form inputs |
| Store.Delete | app.js:857-869 | a declined delete changes nothing; a confirmed one keeps exactly the records with another id, each as often as it was stored, in their order |
| Store.DeleteAbsentIsNoop | app.js:863-864 | deleting an id no record has leaves the store unchanged |
| Store.DeleteIdempotent | app.js:863-864 | deleting the same id twice equals deleting it once |
| Store.DeleteKeepsUrlsUnique | app.js:863-864 | deleting never creates a repeated URL |
| Store.Import | app.js:1149-1191 | read and format errors and a declined confirmation are told apart; on import the store keeps its prefix and gains, in file order, exactly the records whose URL was not stored before, each as often as the file holds it, and `added` counts them |
| Store.ImportIntoEmptyRestoresSnapshot | app.js:1172-1177 | importing an exported array into an empty store restores it exactly |
| Store.ImportAppendsRepeatedUrls | app.js:1174-1177 | as written, two records of one file with the same URL are both appended, breaking URL uniqueness |
| Store.AppendUnseen | app.js:1174-1177 | corrected merge: the store is a prefix of the result and each appended record is a new-URL item of the file |
| Store.AppendUnseenKeepsUrlsUnique | app.js:1174-1177 | the corrected merge keeps URLs distinct |
| Store.AppendUnseenCoversUrls | app.js:1174-1177 | after the corrected merge every URL of the file is stored |
| Store.ImportDeduplicated | app.js:1149-1191 | corrected import: same outcomes as the original, the store stays URL-unique and every imported URL ends up stored |
| Store.Clear | app.js:1193-1209 | the store empties only after both confirmations and is otherwise unchanged |
| Browse.Visible | app.js:339-359 | a record is shown iff the lower-cased query is empty or occurs in its name, headline, school or an experience company or title, and the school filter is empty or equals its school; store order and repeated records are kept |
| Browse.VisibleRecordsContainQuery | app.js:344-359 | for a non-empty query each shown record contains it, ignoring case, in one of the searched fields, and has the filtered school |
| Browse.VisibleIgnoresQueryCase | app.js:339-355 | the query's case does not change what is shown |
| Browse.Browse | app.js:338-371 | the shown records are a permutation of the filtered ones, ordered by the chosen key with ties in store order; an unknown sort key keeps store order |
| Browse.BrowseRecentNewestFirst | app.js:368-369 | "recent" lists the newest record first |
| Browse.BrowseByNameOrSchoolCollates | app.js:363-367 | "name" and "school" order the records by the collation of that field |
| Browse.Distinct | app.js:812 | the set conversion keeps every value and repeats none |
| Browse.SchoolValues | app.js:812 | the non-empty stored schools are exactly the collected values |
| Browse.SchoolOptions | app.js:811-819 | the drop-down lists each distinct non-empty stored school once, ordered by UTF-16 code units as the default `sort()` compares them |
| Browse.SelectionAfterRefresh | app.js:814-824 | the selection survives exactly when it is "All Schools" or a stored school; otherwise it resets to "All Schools" |
| Sorting.Sort | app.js:362-371 | the sort is a permutation, ordered by key, and keeps the original order among equal keys |
| Sorting.StableSortUnique | app.js:1023 | two key-ordered sequences that agree on the elements of every key, in order, are equal, so the stable result is unique |
| Sorting.SortConstantKeyIsIdentity | app.js:369-370 | a comparator that always answers 0 leaves the order unchanged |
| Highlights.BuildMap | app.js:505-512 | the map has a key exactly for each highlight's `section:index:field` (or bare section) |
| Highlights.BuildMapHoldsLastReason | app.js:507-511 | each key holds the reason of the last highlight with that key |
| Highlights.LaterHighlightOverwrites | app.js:507-511 | a highlight appended last decides its key's entry |
| Highlights.Lookup | app.js:563-568 | a lookup yields only non-empty reasons |
| Highlights.LookupFindsLastHighlight | app.js:563-568 | a lookup finds a reason iff the last highlight with that key gave a non-empty reason, and then returns it |
| Highlights.FirstHit | app.js:587-590 | the entry's badge reason is the first field in priority order whose lookup succeeds, and none iff no field matches |
| Highlights.ExperienceBadgePriority | app.js:583-591 | an experience title match outranks a company match, which outranks a description match |
| Highlights.MakeBadge | app.js:570-580 | a reason longer than 30 UTF-16 code units gets a popup, and a shorter one the inline title |
| Highlights.BadgeCountsCodeUnits | app.js:572 | sixteen characters outside the Basic Multilingual Plane make a popup, while thirty below U+10000 stay inline |
| Highlights.BadgeOf | app.js:570-590 | a badge exists iff a reason was found; it carries that reason, and it is a popup exactly when the reason is longer than 30 UTF-16 code units |
| Highlights.EntryBadges | app.js:627-715 | one decision per entry; an entry has a badge iff some priority field matches, carrying the first such reason, as a popup exactly when that reason is longer than 30 UTF-16 code units |
| Highlights.Decide | app.js:606-743 | the headline badge shows iff the headline matches and the school does not; the school badge needs a school and a match; both badges carry their reason, as a popup exactly when it is longer than 30 UTF-16 code units; every list gets its per-entry badges; three experiences and eight skills are shown, with the rest counted as "more" |
| Highlights.AutoExpandIffHighlightHidden | app.js:1075-1090 | the experience list auto-expands exactly when entries are hidden and an experience highlight points past the shown ones |
| Schools.SchoolClass | app.js:763-784 | no school gives no class, a name containing "harvard" in any case is Harvard, and the class is one of the eleven recognised ones or '' |
| Schools.FirstRule | app.js:768-781 | the rule found matches, and no earlier rule does |
| Schools.SchoolClassFirstMatch | app.js:763-784 | a school gets the k-th class exactly when the k-th test matches its lower-cased name and no earlier test does |
| Schools.SchoolClassNoMatch | app.js:763-784 | no class exactly when the name is missing or empty or none of the eleven tests matches |
| Schools.SchoolLogo | app.js:787-808 | no school gives no logo; which logo a school gets is stated by `Schools.LogoFollowsClass` |
| Schools.LogoOfClass | app.js:787-808 | only the eleven recognised classes have a logo |
| Schools.LogoFollowsClass | app.js:763-808 | the logo chain and the class chain agree: a logo exists iff a class does, and it is that class's logo |
| Schools.SchoolClassIgnoresCase | app.js:766 | only the lower-cased name decides the class |
| AiResults.FindById | app.js:997 | the lookup fails iff no record has the id, and otherwise returns the first record with it |
| AiResults.ScoreOf | app.js:1005 | a missing score counts as 0, and a present one is used |
| AiResults.Resolve | app.js:996-1015 | matches with an unknown id are dropped; the rest keep their order, their record and their score |
| AiResults.PassingKeepsTies | app.js:1019 | the threshold filter does not reorder the matches of any passing score |
| AiResults.Rank | app.js:1017-1023 | exactly the matches scoring 25 or more, as a permutation, highest score first, with equal scores in the model's order |
| AiResults.RankIsTheStableOrder | app.js:1019-1023 | any ordering by score that keeps ties in the model's order is the ranking |
| AiResults.Classify | app.js:1050 | high iff the score is at least 75, medium iff 60 to 74, low iff below 60 |
| AiResults.ClassifyMonotone | app.js:1050 | a higher score never gets a lower class |
| AiResults.FirstTextBlock | app.js:956 | finds the first block of type "text", and none iff there is none |
| AiResults.FirstTruthy | app.js:947 | the first non-empty of the details, the error and the status text |
| AiResults.ReplyText | app.js:956-957 | the text block when one exists, else the first block; nothing iff there are no blocks |
| AiResults.Ranked | app.js:994-1023 | every ranked match scores at least 25 and carries its store record, highest score first |
| AiResults.Judge | app.js:984-1045 | "no matches" exactly when `matches` is missing or empty; otherwise "below the threshold" or non-empty results, all known, scoring at least 25 and ordered by score |
| AiResults.Interpret | app.js:943-1045 | failure iff the reply is not ok, with its message; a crash iff there is no content; an ok reply with text shows that raw text exactly when it has no brace span or the span does not parse, and otherwise is the judgement of the parsed answer; ranked results are non-empty, all known and scoring at least 25, and ordered by score |
| AiResults.ParsedAnswerShowsEveryGoodMatch | app.js:984-1045 | for a parsed answer, "no matches" iff `matches` is missing or empty; when anything passes, the results are the ranking of all resolved matches, and every known match scoring 25 or more is among them |
| AiResults.GoodMatchesRanked | app.js:994-1023 | every known match scoring 25 or more has a place in the ranking |
| AiResults.ResolvedAreKnown | app.js:996-1015 | resolution keeps exactly the known matches, with their scores |
| AiResults.RankEmptyIffNoGoodKnownMatch | app.js:1017-1030 | nothing survives the ranking iff no known match scored 25 or more |
| AiResults.AllBelowThresholdMeansNoGoodKnownMatch | app.js:1030-1037 | the "below the threshold" message appears iff the model named matches but no known match reached 25 |
| AiResults.ProviderFor | app.js:885-908 | the Anthropic key iff the name is claude-sonnet; the Google key iff it is another gemini name; the OpenAI key iff it is neither and starts with gpt; no key iff none of these |
| AiResults.Check | app.js:873-914 | each outcome as an iff: a blank query is refused first, then a missing provider key, then an empty store, and every other request is sent; a request carries the trimmed query and the provider's key |
| AiResults.SaveApiKey | app.js:84-110 | refused as blank iff the trimmed key is empty or the mask; refused naming the provider's prefix iff it is neither and lacks that prefix; an accepted key is stored for that provider and no other provider's key changes |
| AiResults.SavedKeyUnblocksSearch | app.js:84-110 | after a successful save the search no longer stops for that provider's key |
| LlmResponse.StripFences | api/search.py:304-312 | the stripped text has no surrounding whitespace |
| LlmResponse.StripFencesIsSlice | api/search.py:304-312 | stripping only cuts: the result is a contiguous piece of the trimmed reply |
| LlmResponse.StripFencesKeepsFenceFreeText | proxy-server.py:270-277 | a reply with no fence comes out as its trimmed self |
| LlmResponse.StripFencesIdempotentOnFenceFree | api/vector-search.py:371-378 | on fence-free text stripping twice equals stripping once |
| LlmResponse.StripFencesUnwrapsJsonBlock | api/search.py:305-312 | a "```json" block yields its trimmed body |
| LlmResponse.StripFencesUnwrapsPlainBlock | api/search.py:305-312 | a plain "```" block whose body starts neither with a backtick nor with "json" yields its trimmed body |
| LlmResponse.SorryOnlyRefusedBySearch | api/search.py:299-302 | a reply opening with "sorry" is refused by the search handler and not by the vector search |
| LlmResponse.BraceSpan | api/search.py:329-332 | the span runs from the first '{' to the last '}' and exists iff some '{' precedes some '}' |
| LlmResponse.GeminiText | api/search.py:269-297 | no candidates gives the API error, the block reason or "no candidates", in that order; MAX_TOKENS and SAFETY, and for search RECITATION, are errors; otherwise the text is the first part |
| LlmResponse.ParseWithFallback | api/search.py:314-337 | a direct parse wins; without fallback it is the only try; with fallback, when the direct parse fails and the repaired text parses, the repaired parse is the result; any result is some parse |
| LlmResponse.FallbackUsesBraceSpan | api/search.py:327-337 | once the direct and repaired parses fail, the result is exactly the brace span's parse |
| LlmResponse.DecodeText | api/search.py:299-337 | a refusal is never parsed and reports a 200-character excerpt; otherwise the result succeeds iff the stripped text parses with the reader's fallbacks |
| LlmResponse.FencedReplyDecodes | api/vector-search.py:366-380 | a fenced, parseable reply that is not a refusal decodes to its body's value |
| LlmResponse.Normalise | api/search.py:340-346 | the reply is one text block holding the re-serialised JSON |
| LlmResponse.ParseGemini | api/search.py:267-348 | success iff there is reply text and it decodes, giving the normalised block; a text failure is passed on unchanged |
| LlmResponse.ParseChat | api/search.py:350-376 | a missing path is malformed; otherwise success iff the stripped text parses |
| JsonData.Get | api/search.py:387-389 | `get` fails iff no member has the key, and otherwise returns a value stored under it |
| Common.FilterCounts | app.js:863-864 | filtering keeps every copy of a passing element and no copy of a failing one |
| Text.SplitJoin | api/sync-attendees.py:108 | joining separator-free pieces and splitting again gives the pieces back |
| Text.CharUnits | app.js:572 | a character below U+10000 is one code unit; any other is a surrogate pair that decodes back to it |
| JsonData.GetUnshadowed | api/search.py:387-389 | a member no later member shadows is what `get` returns |
| Routing.SearchRoute | api/search.py:379-423 | an unreadable body crashes and a falsy query is a 400; claude-sonnet is called iff it is named and keyed; Gemini gets only the two preview ids; with a truthy query, a claude-sonnet request without the Anthropic key and a gemini name (the default included) without the Google key are the 500 "not configured on server", a model that is not text crashes, and any other name is the 400 naming it |
| Routing.SearchGeminiNames | api/search.py:405-419 | with a Google key, a missing model or gemini-3-flash reaches the Flash preview, and gemini-3-pro reaches the Pro preview |
| Routing.SearchUnknownModelRefused | api/search.py:399-422 | any other model name is a 400 naming it, unless it starts with "gemini" and no Google key is set |
| Routing.ProxyModel | proxy-server.py:356-367 | exactly the five known names map to an upstream call: claude-sonnet to Claude Sonnet 4, gemini-pro and gemini-flash to the Gemini 1.5 pro and flash models, gpt-4o and gpt-4o-mini to the OpenAI models of those names |
| Routing.ProxyRoute | proxy-server.py:320-367 | OPTIONS is the preflight; any verb other than POST and OPTIONS is the 405 "Method Not Allowed"; for POST an unreadable body crashes; a call is made iff the key and query are present and the model is known, and it is that model's call; a truthy query that cannot be sliced crashes; otherwise a falsy key is the 400 "API key is required", then a falsy query the 400 for the query, then an unknown model the 400 naming it |
| Routing.ProxyChecksKeyFirst | proxy-server.py:345-351 | a request lacking both key and query is refused for the key |
| Routing.VectorGeminiModel | api/vector-search.py:221-230 | gemini-pro maps to the 2.5 Pro preview and every other hashable name to gemini-2.0-flash; a list or object name fails |
| Routing.VectorValidate | api/vector-search.py:409-423 | a falsy query is the 400; a request passes iff its body is an object with a truthy query, the database and the Google key are configured and, for "claude", the Anthropic key is set; an unreadable body crashes; with a truthy query, a missing database configuration, then a missing Google key, then a missing Anthropic key for "claude" are each a 500 in that order |
| Routing.VectorStepFor | api/vector-search.py:395-455 | refusals come first; no similar rows gives the fixed empty answer; otherwise "claude" sends the formatted rows to the Anthropic model, a hashable other name to that name's Gemini model, and a list or object name crashes |
| Routing.EmptySimilarityAsksNoModel | api/vector-search.py:431-441 | with no similar rows no model is asked |
| Routing.ClassifyUpstreamError | api/search.py:432-463 | the status is 401 or the upstream code, and 401 only for "Invalid API key"; an unreadable body gives "API request failed: code" with the raw body |
| Routing.ApiErrorTextDiffers | api/search.py:449-458 | an "API error (type)" message never reads as the invalid-key message |
| Routing.ClassifyReadableError | api/search.py:438-458 | a readable error is 401 iff its type mentions "authentication" or its message "auth" |
| Routing.GeminiAuthOnlyFromMessage | api/search.py:442-444 | for Gemini only the message can make an error an invalid-key error |
| Routing.VectorUpstreamError | api/vector-search.py:458-463 | every vector-search upstream error keeps its status and raw body |
| Rows.DecodeField | api/vector-search.py:202-209 | a text field is decoded when it parses and kept as it is otherwise |
| Rows.GetOptionalMembers | api/vector-search.py:199-214 | a key is added iff its value is truthy |
| Rows.FormatAttendee | api/vector-search.py:189-214 | the eight scalar keys come first, null when missing |
| Rows.FormatAttendeeEncoded | api/vector-search.py:199-209 | a JSON-text field is present iff truthy, decoded when it parses |
| Rows.FormatAttendeeList | api/vector-search.py:211-214 | a list field is present iff truthy, unchanged |
| Rows.FormatAttendees | api/vector-search.py:185-219 | one formatted row per row, in order |
| Rows.FlatAbout | api/sync-attendees.py:114-117 | an object `about` is flattened to its text |
| Rows.UpsertHead | api/sync-attendees.py:121-128 | the first eight members: the id as text; name, headline, location, school, url and image as given, null when absent; the flattened `about` |
| Rows.UpsertTail | api/sync-attendees.py:129-137 | the remaining members: each entry list serialised, the skills, languages and interests lists as given, and the embedding last |
| Rows.UpsertRow | api/sync-attendees.py:110-138 | the row has the fixed keys in order, the id as text, the flattened `about`, and each entry list serialised at its own key |
| Rows.UpsertRowValues | api/sync-attendees.py:120-138 | in the row, name, headline, location, school, url and image are as given (null when absent), the skills, languages and interests lists are as given, and the embedding is the one computed |
| Rows.UpsertKeysDistinct | api/sync-attendees.py:120-138 | each key of the row is written once |
| Rows.UpsertRowReads | api/sync-attendees.py:120-138 | reading the row back gives the id text, the flattened `about` and the serialised lists |
| Rows.UpsertKeyReads | api/sync-attendees.py:120-138 | in a row laid out with the upsert keys, reading any of those keys gives the value at its position |
| Rows.UpsertRowStoresEmbedding | api/sync-attendees.py:137 | reading "embedding" back from the row gives the embedding it was built with |
| Rows.LayoutScalarsFormatBack | api/vector-search.py:189-198 | formatting a row laid out with the upsert keys gives back its first eight entries unchanged |
| Rows.LayoutListFormatsBack | api/vector-search.py:211-214 | formatting such a row keeps a skills, languages or interests value iff it is truthy, unchanged |
| Rows.SyncedScalarsFormatBack | api/vector-search.py:189-198 | the vector search reads back the id, name, headline, location, school, url, image and `about` exactly as the sync wrote them |
| Rows.SyncedListFormatsBack | api/vector-search.py:211-214 | a skills, languages or interests list written by the sync is read back as that list when it is non-empty, and is absent when empty |
| Rows.SyncedFieldFormatsBack | api/vector-search.py:199-209 | a synced list read back by the vector search is the decoded list |
| Rows.SyncedRowFormatsBack | api/vector-search.py:185-219 | when parsing inverts serialising, the vector search reads back every list the sync wrote |
| Sync.AboutBody | api/sync-attendees.py:50-55 | a text `about` is used when non-empty, and an object one as its text when it has a key |
| Sync.PresentFrom | api/sync-attendees.py:37-106 | lists the present sections in order, all of them |
| Sync.LineNamesSection | api/sync-attendees.py:37-106 | a line's label names its section: no two labels begin alike |
| Sync.LinesIn | api/sync-attendees.py:37-106 | a section has a "Label: body" line iff it is present, every line is a present section's, and lines follow the label order |
| Sync.Lines | api/sync-attendees.py:37-106 | a section has a "Label: body" line iff it is present, every line is a present section's, and lines follow the label order |
| Sync.AttendeeText | api/sync-attendees.py:108 | the text starts with its first line and ends with its last; it contains every line; its length is the lines' total length plus one newline between each two; one line is the whole text |
| Text.JoinLengthAndEnd | api/sync-attendees.py:108 | a join of pieces is as long as the pieces plus one separator between each two, and ends with the last piece |
| Sync.AttendeeTextSplitsIntoLines | api/sync-attendees.py:108 | when no body contains a newline, splitting the text at newlines gives back exactly its lines |
| Sync.ExperienceListed | api/sync-attendees.py:57-66 | each experience entry appears as "title at company", with " - description" when it has one |
| Sync.EducationListed | api/sync-attendees.py:68-74 | each education entry appears as "degree from school" |
| Sync.SkillsAndInterestsListed | api/sync-attendees.py:76-84 | each skill and each interest appears in its line |
| Sync.ProjectsListed | api/sync-attendees.py:86-95 | each project appears by name, with " - description" when it has one |
| Sync.OrganizationsListed | api/sync-attendees.py:97-106 | each organisation appears by name, with its role in parentheses when it has one |
| Sync.EmptyTextIffNothingPresent | api/sync-attendees.py:33-108 | the text is empty iff no section is present |
| Sync.NameComesFirst | api/sync-attendees.py:37-38 | a present name is the first line |
| Sync.EveryRecordCounted | api/sync-attendees.py:184-201 | every record counts once, as a success or a failure |
| Sync.SyncAll | api/sync-attendees.py:156-208 | the three refusals come in order; otherwise successes plus failures equal the batch size, with one error entry per failure in order |
| Access.SitePassword | middleware.js:5 | the configured password is used when set and non-empty; otherwise the password is "changeme" |
| Access.CredentialAsWritten | middleware.js:24-25 | as written, the header is unreadable iff it has no space, and a read password never contains ':' |
| Access.ColonPasswordRejectedAsWritten | middleware.js:24-27 | as written, a password containing ':' can never match |
| Access.ReadCredential | middleware.js:24-25 | corrected reading: the header is unreadable iff it has no space; the password is everything after the first ':' |
| Access.CredentialRoundTrip | middleware.js:24-27 | any password, colons included, is read back from "Basic token" |
| Access.Read | middleware.js:24-25 | under either reading, the header is unreadable iff it has no space |
| Access.Gate | middleware.js:3-45 | under either credential reading: it passes iff the right cookie or a login POST, or else no readable matching credential on the login page itself; it crashes iff not admitted and the header has no space; it sets the cookie with the site password for seven days iff not admitted and the read password matches; it rewrites to the login page exactly in the remaining cases off that page |
| Access.MatcherExclusions | middleware.js:47-49 | the matcher leaves out every path starting "/_next", "/favicon.ico" or "/login.html", and keeps "/" and "/login" |
| Access.Middleware | middleware.js:3-49 | behind the matcher: an ungated path passes untouched and the login page is never gated; a gated path passes iff admitted, crashes iff not admitted with an unreadable header, sets the cookie iff not admitted and the credential matches, and is rewritten to the login page in every other case |
| Access.BasicWords | middleware.js:24 | "Basic token" splits at spaces into the scheme and the token |
| Access.AsWrittenReadsSecondPiece | middleware.js:24-25 | as written, the password read is the piece between the first and second colon |
| Access.ExtraColonAdmittedAsWritten | middleware.js:24-35 | as written, a credential decoding to "u:changeme:x" signs in with the default password |
| Access.ExtraColonRefused | middleware.js:24-35 | read after the first colon, that credential's password is "changeme:x" and sets no cookie |
| Access.SetCookieAdmits | middleware.js:28-35 | the cookie set at sign-in admits every later request |
| Access.DefaultPasswordSignsIn | middleware.js:5-35 | with no password configured, Basic "changeme" signs in whatever the user name |
| Access.Authenticate | api/auth.py:12-36 | "not configured" iff the password is unset; success iff the body is an object whose password equals it; failure iff the body is unreadable or not an object; 401 iff the object's password is missing or different |
| Access.MissingPasswordRefused | api/auth.py:27-33 | a body without a password is refused with 401 |

## Left out
- `Access.Middleware`: the matcher pattern is read as a regular expression matched from the first character after the leading '/', where '.' matches any character. The framework's own handling of locale prefixes, data routes and trailing slashes before matching is not modelled.
- Markup, styling, animation, status messages, timers and event wiring. Only the decisions behind them are modelled.
- localStorage, `fetch` and every HTTP call. These are the boundaries the model sits between; the network replies are inputs.
- The upstream API calls, the prompts and the token counter. They are network I/O and text templates.
- The profile extractor scripts and the PDF extraction endpoint. They are not part of the modelled core.
- Id generation (`Date.now() + Math.random()`) and the clock. Both are parameters of `Store.Add`.
- Floating point. Scores, ids and times are integers, so a fractional score from the model is not represented.
- Trim removes the six ASCII whitespace characters (tab, line feed, vertical tab, form feed, carriage return, space), which is what JavaScript's `trim()` removes from ASCII text. Python's `str.strip()` in api/search.py and api/vector-search.py also removes the separators U+001C to U+001F, and both languages also remove non-ASCII whitespace (U+00A0, U+2028 and others); none of these is modelled. Lower-case covers ASCII only; Unicode case mapping is not modelled.
- A late reply of a superseded search, and any other concurrency.
- `Content-Length` reading. A body that fails to decode is the `None` body.
- `match_count` and the similarity threshold of the vector search. They only shape the database call.
- The text of an exception that a handler returns as a 500. `Routing.Crash` and `AiResults.Crashed` carry no message.
- `AiResults.SaveApiKey`: a provider other than the three known ones is stored under its own name in the source. The model's key record has only the three.
- `Browse.Visible`: an experience entry without `company` or `title` makes the source's filter throw. The model reads such a field as ''.
- `Rows.UpsertRow`: the source serialises the browser's entry objects as they are. The model serialises the modelled fields only.
- `Store.Import`: the model's import file is an array of profiles. In the source an array may also hold `null`, which makes the merge throw and shows the read error, or numbers and text, which have no `url` and are appended as they are; neither kind of element is representable here.
- `Sync.SyncAll`: the model's batch is a list of attendee objects. In the source an element that is not an object makes the per-attendee error handler raise, so the whole request fails with a 500, and a truthy `attendees` that is not a list fails the same way; neither is representable here.
- `Sync.AboutBody`: a dict `about` with keys other than `title` and `text` counts as present in the source. The model knows only those two keys.

## Findings

| source | as written | input that shows it | evidently intended | confidence | as-written member | corrected member |
|---|---|---|---|---|---|---|
| middleware.js:24-27 | the Basic password is the second piece of the decoded credential split at every ':' | site password "a:b" with header "Basic dTphOmI=" (the token of "u:a:b"): the password read is "a", so sign-in fails | the password is everything after the first ':' (section 2 of RFC 7617) | not executed | Access.ColonPasswordRejectedAsWritten | Access.CredentialRoundTrip |
| middleware.js:25-35 | text after a second ':' in the decoded credential is ignored | default password, header "Basic dTpjaGFuZ2VtZTp4" (the token of "u:changeme:x"): the password read is "changeme", so the gate signs in and sets the cookie | the password is "changeme:x", which does not match, so no cookie is set | not executed | Access.ExtraColonAdmittedAsWritten | Access.ExtraColonRefused |
| app.js:1174-1177 | imported records are checked for repeated URLs only against the records stored before the import | an import file holding two records with the same URL into an empty store: both are appended | the merge keeps URLs unique, as `addProfile` does | not executed | Store.ImportAppendsRepeatedUrls | Store.ImportDeduplicated |

=== FILE: access.dfy ===
/** The site gate: the edge `middleware` (middleware.js) that lets a request through or
    sends it to the login page, and the password check of api/auth.py. Base64
    decoding is the parameter `decode`. */
module Access {
  import opened Common
  import opened Text
  import opened JsonData

  // ---- middleware.js ----

  /** The parts of a request the gate reads. `cookie` is the `site-auth` cookie and
      `authorization` the header of that name, each None when absent. */
  datatype Request = Request(cookie: Option<string>, path: string, verb: string, authorization: Option<string>)

  /** `Pass` lets the request through; `Crash` is an exception thrown by the gate. */
  datatype Decision =
    | Pass
    | PassAndSetCookie(value: string, maxAge: int)
    | RewriteToLogin
    | Crash

  const DefaultPassword := "changeme"
  /** Seven days, in seconds. */
  const CookieMaxAge := 60 * 60 * 24 * 7

  /** `SITE_PASSWORD`: the configured value, "changeme" when unset or empty. */
  function SitePassword(configured: Option<string>): (r: string)
    ensures r != ""
    ensures Truthy(configured) ==> r == configured.value
    ensures !Truthy(configured) ==> r == DefaultPassword
  {
    if Truthy(configured) then configured.value else DefaultPassword
  }

  /** Reading a Basic credential: `Unreadable` when the header has no space, so that
      there is no second word to decode (the decoder then throws). */
  datatype Reading = Unreadable | Credential(password: Option<string>)

  /** The credential as the gate reads it: the second space-separated word decoded,
      split at every ':', and its second piece taken as the password. */
  function CredentialAsWritten(header: string, decode: string -> string): (r: Reading)
    ensures r.Unreadable? <==> ' ' !in header
    ensures r.Credential? && r.password.Some? ==> ':' !in r.password.value
  {
    var words := Split(header, ' ');
    if |words| < 2 then
      assert ' ' !in header by {
        assert Join(words, [' ']) == header;
      }
      Unreadable
    else
      assert ' ' in header by {
        JoinHasSeparator(words, ' ');
      }
      var pieces := Split(decode(words[1]), ':');
      Credential(if |pieces| >= 2 then Some(pieces[1]) else None)
  }

  lemma JoinHasSeparator(parts: seq<string>, c: char)
    requires |parts| >= 2
    ensures c in Join(parts, [c])
  {
    assert Join(parts, [c]) == parts[0] + [c] + Join(parts[1..], [c]);
    assert Join(parts, [c])[|parts[0]|] == c;
  }

  /** As written, a password with a colon never matches, whatever the header: the
      reading stops at the password's first colon. For the password "a:b" and the
      header "Basic dTphOmI=" (the token of "u:a:b") the reading is "a". */
  lemma ColonPasswordRejectedAsWritten(header: string, decode: string -> string, password: string)
    requires ':' in password
    ensures CredentialAsWritten(header, decode) != Credential(Some(password))
  {
  }

  /** The credential as Basic authentication defines it (section 2 of RFC 7617): the
      user-id ends at the first colon and the password is everything after it. */
  function ReadCredential(header: string, decode: string -> string): (r: Reading)
    ensures r.Unreadable? <==> ' ' !in header
  {
    var words := Split(header, ' ');
    if |words| < 2 then
      assert ' ' !in header by {
        assert Join(words, [' ']) == header;
      }
      Unreadable
    else
      assert ' ' in header by {
        JoinHasSeparator(words, ' ');
      }
      var text := decode(words[1]);
      var colon := IndexOf(text, ':');
      Credential(if colon < 0 then None else Some(text[colon + 1..]))
  }

  /** Any password, colons included, is read back from "Basic <token>" when the token
      decodes to a colon-free user-id, a colon and the password. */
  lemma CredentialRoundTrip(token: string, user: string, password: string, decode: string -> string)
    requires ' ' !in token && ':' !in user
    requires decode(token) == user + ":" + password
    ensures ReadCredential("Basic " + token, decode) == Credential(Some(password))
  {
    var header := "Basic " + token;
    assert IndexOf(header, ' ') == 5 by {
      assert header[5] == ' ' && ' ' !in header[..5];
    }
    assert header[6..] == token;
    assert Split(token, ' ') == [token];
    assert Split(header, ' ') == ["Basic", token] by {
      assert header[..5] == "Basic";
    }
    var text := user + ":" + password;
    assert IndexOf(text, ':') == |user| by {
      assert text[..|user|] == user;
      assert text[|user|] == ':';
    }
    assert text[|user| + 1..] == password;
  }

  /** The two ways of reading the password out of a Basic credential. */
  datatype Reader = AsWritten | AfterFirstColon

  function Read(reader: Reader, header: string, decode: string -> string): (r: Reading)
    ensures r.Unreadable? <==> ' ' !in header
  {
    match reader
    case AsWritten => CredentialAsWritten(header, decode)
    case AfterFirstColon => ReadCredential(header, decode)
  }

  /** The cookie holds the site password, or the request is the login form's POST. */
  predicate Admitted(req: Request, password: string) {
    req.cookie == Some(password) || (req.path == "/login" && req.verb == "POST")
  }

  /** A non-empty Authorization header with no second word to decode. */
  predicate HeaderUnreadable(req: Request) {
    Truthy(req.authorization) && ' ' !in req.authorization.value
  }

  /** A non-empty Authorization header whose password is the site password. */
  predicate HeaderSignsIn(req: Request, password: string, decode: string -> string, reader: Reader) {
    Truthy(req.authorization) && Read(reader, req.authorization.value, decode) == Credential(Some(password))
  }

  /** `middleware`: the cookie, then a login POST, then a Basic credential, then the
      rewrite to the login page for any other path. `reader` chooses how the
      credential is read: `AsWritten` is the source's reading, `AfterFirstColon` the
      corrected one the rest of the model uses. */
  function Gate(req: Request, configured: Option<string>, decode: string -> string, reader: Reader): (r: Decision)
    ensures r == Pass <==>
              || Admitted(req, SitePassword(configured))
              || (&& !HeaderUnreadable(req)
                  && !HeaderSignsIn(req, SitePassword(configured), decode, reader)
                  && req.path == "/login.html")
    ensures r == Crash <==> !Admitted(req, SitePassword(configured)) && HeaderUnreadable(req)
    ensures r.PassAndSetCookie? <==>
              !Admitted(req, SitePassword(configured)) && HeaderSignsIn(req, SitePassword(configured), decode, reader)
    ensures r.PassAndSetCookie? ==> r == PassAndSetCookie(SitePassword(configured), CookieMaxAge)
    ensures r == RewriteToLogin <==>
              && !Admitted(req, SitePassword(configured))
              && !HeaderUnreadable(req)
              && !HeaderSignsIn(req, SitePassword(configured), decode, reader)
              && req.path != "/login.html"
  {
    var password := SitePassword(configured);
    if req.cookie == Some(password) then Pass
    else if req.path == "/login" && req.verb == "POST" then Pass
    else if Truthy(req.authorization) && Read(reader, req.authorization.value, decode).Unreadable? then Crash
    else if Truthy(req.authorization) && Read(reader, req.authorization.value, decode) == Credential(Some(password)) then
      PassAndSetCookie(password, CookieMaxAge)
    else if req.path != "/login.html" then RewriteToLogin
    else Pass
  }

  /** The path prefixes `config.matcher` keeps away from the middleware, read as the
      regular expression they are in: a '.' stands for any one character. */
  const Unmatched := ["_next", "favicon.ico", "login.html"]

  /** `text` starts with `pattern`, where a '.' in the pattern matches any character. */
  predicate PatternPrefix(text: string, pattern: string) {
    |pattern| <= |text| && forall k :: 0 <= k < |pattern| ==> pattern[k] == '.' || text[k] == pattern[k]
  }

  /** `config.matcher`: the middleware runs for a path "/rest" unless `rest` starts
      with one of the excluded prefixes. */
  predicate Gated(path: string) {
    |path| > 0 && path[0] == '/' && forall k :: 0 <= k < |Unmatched| ==> !PatternPrefix(path[1..], Unmatched[k])
  }

  /** The matcher leaves out the framework's assets, the icon and the login page
      (and anything that merely starts with them), but keeps the home page and the
      login form's endpoint. */
  lemma MatcherExclusions(rest: string)
    ensures !Gated("/_next" + rest) && !Gated("/favicon.ico" + rest) && !Gated("/login.html" + rest)
    ensures Gated("/") && Gated("/login")
  {
    assert ("/_next" + rest)[1..] == "_next" + rest;
    assert PatternPrefix(("/_next" + rest)[1..], Unmatched[0]);
    assert ("/favicon.ico" + rest)[1..] == "favicon.ico" + rest;
    assert PatternPrefix(("/favicon.ico" + rest)[1..], Unmatched[1]);
    assert ("/login.html" + rest)[1..] == "login.html" + rest;
    assert PatternPrefix(("/login.html" + rest)[1..], Unmatched[2]);
    assert "/login"[1..] == "login" && "login"[0] != Unmatched[0][0];
  }

  /** The deployed gate: `middleware` behind `config.matcher`. A path the matcher
      leaves out is served untouched, and the login page is among them, so in
      deployment the gate never crashes on, rewrites or passes through the login page
      for want of a credential. */
  function Middleware(req: Request, configured: Option<string>, decode: string -> string, reader: Reader): (r: Decision)
    ensures Gated(req.path) ==> req.path != "/login.html"
    ensures r == Pass <==> !Gated(req.path) || Admitted(req, SitePassword(configured))
    ensures r == Crash <==> Gated(req.path) && !Admitted(req, SitePassword(configured)) && HeaderUnreadable(req)
    ensures r.PassAndSetCookie? <==>
              Gated(req.path) && !Admitted(req, SitePassword(configured))
              && HeaderSignsIn(req, SitePassword(configured), decode, reader)
    ensures r.PassAndSetCookie? ==> r == PassAndSetCookie(SitePassword(configured), CookieMaxAge)
    ensures r == RewriteToLogin <==>
              && Gated(req.path)
              && !Admitted(req, SitePassword(configured))
              && !HeaderUnreadable(req)
              && !HeaderSignsIn(req, SitePassword(configured), decode, reader)
  {
    MatcherExclusions("");
    assert "/login.html" + "" == "/login.html";
    if Gated(req.path) then Gate(req, configured, decode, reader) else Pass
  }

  /** The cookie the gate sets lets every later request through, whatever its path,
      method or header. */
  lemma SetCookieAdmits(req: Request, later: Request, configured: Option<string>, decode: string -> string, reader: Reader)
    requires Gate(req, configured, decode, reader).PassAndSetCookie?
    requires later.cookie == Some(Gate(req, configured, decode, reader).value)
    ensures Gate(later, configured, decode, reader) == Pass
  {
  }

  /** With the default password, signing in with it as the Basic password passes and
      sets the cookie, whatever the user name. */
  lemma DefaultPasswordSignsIn(path: string, verb: string, token: string, user: string, decode: string -> string)
    requires ' ' !in token && ':' !in user && decode(token) == user + ":" + DefaultPassword
    requires !(path == "/login" && verb == "POST")
    ensures Gate(Request(None, path, verb, Some("Basic " + token)), None, decode, AfterFirstColon)
              == PassAndSetCookie(DefaultPassword, CookieMaxAge)
  {
    CredentialRoundTrip(token, user, DefaultPassword, decode);
  }

  /** As written, text after a second colon is ignored: a credential decoding to
      "u:changeme:x" signs in with the default password and sets the cookie. */
  lemma ExtraColonAdmittedAsWritten(path: string, verb: string, token: string, user: string, rest: string, decode: string -> string)
    requires ' ' !in token && ':' !in user
    requires decode(token) == user + ":" + DefaultPassword + ":" + rest
    requires !(path == "/login" && verb == "POST")
    ensures Gate(Request(None, path, verb, Some("Basic " + token)), None, decode, AsWritten)
              == PassAndSetCookie(DefaultPassword, CookieMaxAge)
  {
    AsWrittenReadsSecondPiece(token, user, DefaultPassword, rest, decode);
  }

  /** Read after the first colon, the same credential carries the password
      "changeme:x", which is not the site password: no cookie is set. */
  lemma ExtraColonRefused(path: string, verb: string, token: string, user: string, rest: string, decode: string -> string)
    requires ' ' !in token && ':' !in user
    requires decode(token) == user + ":" + DefaultPassword + ":" + rest
    ensures !Gate(Request(None, path, verb, Some("Basic " + token)), None, decode, AfterFirstColon).PassAndSetCookie?
  {
    CredentialRoundTrip(token, user, DefaultPassword + ":" + rest, decode);
    assert DefaultPassword + ":" + rest != DefaultPassword by {
      assert |DefaultPassword + ":" + rest| > |DefaultPassword|;
    }
  }

  /** As written, the password read is the piece between the first and second colon. */
  lemma AsWrittenReadsSecondPiece(token: string, user: string, password: string, rest: string, decode: string -> string)
    requires ' ' !in token && ':' !in user && ':' !in password
    requires decode(token) == user + ":" + password + ":" + rest
    ensures CredentialAsWritten("Basic " + token, decode) == Credential(Some(password))
  {
    BasicWords(token);
    var text := user + ":" + password + ":" + rest;
    assert text == user + [':'] + (password + [':'] + rest);
    SplitCons(user, ':', password + [':'] + rest);
    SplitCons(password, ':', rest);
  }

  /** "Basic <token>" splits at spaces into the scheme and the token. */
  lemma BasicWords(token: string)
    requires ' ' !in token
    ensures Split("Basic " + token, ' ') == ["Basic", token]
  {
    assert "Basic " + token == "Basic" + [' '] + token;
    SplitCons("Basic", ' ', token);
    assert Split(token, ' ') == [token];
  }

  // ---- api/auth.py ----

  datatype AuthReply =
    | Authenticated
    | WrongPassword
    | NotConfigured
    | Failed

  /** The HTTP status of each reply. */
  function AuthStatus(r: AuthReply): int {
    match r
    case Authenticated => 200
    case WrongPassword => 401
    case NotConfigured => 500
    case Failed => 500
  }

  /** `handler.do_POST`: `configured` is the server password ('' when unset); `body` is
      the decoded request, None when it does not decode. A body that is not an object
      cannot be read and fails. */
  function Authenticate(configured: string, body: Option<Json>): (r: AuthReply)
    ensures r == NotConfigured <==> configured == ""
    ensures r == WrongPassword <==> configured != "" && body.Some? && body.value.JObj?
                                    && Get(body.value.members, "password") != Some(JStr(configured))
    ensures r == Authenticated <==> configured != "" && body.Some? && body.value.JObj?
                                    && Get(body.value.members, "password") == Some(JStr(configured))
    ensures r == Failed <==> configured != "" && (body.None? || !body.value.JObj?)
  {
    if configured == "" then NotConfigured
    else match body
      case None => Failed
      case Some(data) =>
        if !data.JObj? then Failed
        else if GetOr(data.members, "password", JStr("")) == JStr(configured) then Authenticated
        else WrongPassword
  }

  /** A body without a password field is refused with 401 once a password is
      configured: the missing field reads as ''. */
  lemma MissingPasswordRefused(configured: string, members: seq<(string, Json)>)
    requires configured != "" && Get(members, "password").None?
    ensures AuthStatus(Authenticate(configured, Some(JObj(members)))) == 401
  {
  }
}

=== FILE: ai_results.dfy ===
/** The browser side of an AI search (`performAISearch` and `saveApiKey` in app.js):
    the checks before a request, the reading of the proxy's reply, and the ranking of
    the returned matches against the store. */
module AiResults {
  import opened Common
  import opened Text
  import opened Sorting
  import opened Profiles
  import opened Highlights
  import opened LlmResponse

  // ---- matches ----

  /** One entry of the model's `matches` array; `score` is `None` when missing. */
  datatype Match = Match(id: Id, score: Option<int>, relevance: string, highlights: seq<Highlight>)

  /** A match resolved against the store, with the score the page uses. */
  datatype Scored = Scored(found: Match, attendee: Profile, score: int)

  /** `attendees.find(a => a.id == id)`: the first record with that id. */
  function FindById(store: seq<Profile>, id: Id): (r: Option<Profile>)
    ensures r.None? <==> forall i :: 0 <= i < |store| ==> store[i].id != id
    ensures r.Some? ==> exists i :: 0 <= i < |store| && store[i] == r.value && r.value.id == id
                                  && forall k :: 0 <= k < i ==> store[k].id != id
  {
    if |store| == 0 then None
    else if store[0].id == id then Some(store[0])
    else
      var r := FindById(store[1..], id);
      assert forall k :: 1 <= k < |store| ==> store[k] == store[1..][k - 1];
      r
  }

  /** `match.score || 0`: a missing or zero score counts as 0. */
  function ScoreOf(m: Match): (r: int)
    ensures r != 0 ==> m.score == Some(r)
    ensures m.score.Some? ==> r == m.score.value
  {
    match m.score
    case Some(s) => s
    case None => 0
  }

  predicate Known(store: seq<Profile>, m: Match) {
    FindById(store, m.id).Some?
  }

  function MatchesOf(xs: seq<Scored>): (r: seq<Match>)
    ensures |r| == |xs| && forall i :: 0 <= i < |xs| ==> r[i] == xs[i].found
  {
    seq(|xs|, i requires 0 <= i < |xs| => xs[i].found)
  }

  /** The first pass over `matches`: a match whose id is not in the store is dropped;
      the others keep their order and carry their record and score. */
  function Resolve(store: seq<Profile>, matches: seq<Match>): (r: seq<Scored>)
    ensures MatchesOf(r) == Filter(matches, (m: Match) => Known(store, m))
    ensures forall i :: 0 <= i < |r| ==> FindById(store, r[i].found.id) == Some(r[i].attendee)
                                         && r[i].score == ScoreOf(r[i].found)
  {
    if |matches| == 0 then []
    else
      var rest := Resolve(store, matches[1..]);
      match FindById(store, matches[0].id)
      case None => rest
      case Some(a) =>
        var r := [Scored(matches[0], a, ScoreOf(matches[0]))] + rest;
        assert MatchesOf(r) == [matches[0]] + MatchesOf(rest);
        r
  }

  const MinimumScore := 25

  /** Higher scores first. */
  function ScoreKey(s: Scored): seq<int> {
    [-s.score]
  }

  function Passing(xs: seq<Scored>): (r: seq<Scored>)
    ensures forall x :: x in r <==> x in xs && x.score >= MinimumScore
  {
    Filter(xs, (s: Scored) => s.score >= MinimumScore)
  }

  /** The elements of score `v`, in order. */
  function WithScore(xs: seq<Scored>, v: int): (r: seq<Scored>)
    ensures forall x :: x in r <==> x in xs && x.score == v
  {
    WithKey(xs, ScoreKey, [-v])
  }

  /** Removing elements of other keys leaves the elements of a kept key alone. */
  lemma {:induction false} PassingKeepsTies(xs: seq<Scored>, v: int)
    requires v >= MinimumScore
    ensures WithKey(Passing(xs), ScoreKey, [-v]) == WithKey(xs, ScoreKey, [-v])
    decreases |xs|
  {
    if |xs| > 0 {
      PassingKeepsTies(xs[1..], v);
      assert xs == [xs[0]] + xs[1..];
      WithKeyCons(xs[0], xs[1..], ScoreKey, [-v]);
      if xs[0].score >= MinimumScore {
        assert Passing(xs) == [xs[0]] + Passing(xs[1..]);
        WithKeyCons(xs[0], Passing(xs[1..]), ScoreKey, [-v]);
      } else {
        assert Passing(xs) == Passing(xs[1..]);
      }
    }
  }

  /** The matches kept for display: scores of at least 25, highest first, equal
      scores in the order the model gave them. */
  function Rank(xs: seq<Scored>): (r: seq<Scored>)
    ensures forall x :: x in r <==> x in xs && x.score >= MinimumScore
    ensures multiset(r) == multiset(Passing(xs))
    ensures forall i, j :: 0 <= i < j < |r| ==> r[i].score >= r[j].score
    ensures forall v :: v >= MinimumScore ==> WithScore(r, v) == WithScore(xs, v)
  {
    var p := Passing(xs);
    var r := Sort(p, ScoreKey);
    SameMembers(r, p);
    forall i, j | 0 <= i < j < |r| ensures r[i].score >= r[j].score {
      assert LexLe(ScoreKey(r[i]), ScoreKey(r[j]));
    }
    forall v | v >= MinimumScore ensures WithScore(r, v) == WithScore(xs, v) {
      PassingKeepsTies(xs, v);
    }
    r
  }

  /** The ranking is the only arrangement of the passing matches that is ordered by
      score and keeps equal scores in the model's order. */
  lemma RankIsTheStableOrder(xs: seq<Scored>, ys: seq<Scored>)
    requires forall i, j :: 0 <= i < j < |ys| ==> ys[i].score >= ys[j].score
    requires forall k :: WithKey(ys, ScoreKey, k) == WithKey(Passing(xs), ScoreKey, k)
    ensures ys == Rank(xs)
  {
    var r := Rank(xs);
    assert SortedBy(ys, ScoreKey) by {
      forall i, j | 0 <= i < j < |ys| ensures LexLe(ScoreKey(ys[i]), ScoreKey(ys[j])) {
        assert ys[i].score >= ys[j].score;
      }
    }
    assert SortedBy(r, ScoreKey) by {
      forall i, j | 0 <= i < j < |r| ensures LexLe(ScoreKey(r[i]), ScoreKey(r[j])) {
        assert r[i].score >= r[j].score;
      }
    }
    forall k ensures WithKey(ys, ScoreKey, k) == WithKey(r, ScoreKey, k) {
      assert WithKey(r, ScoreKey, k) == WithKey(Passing(xs), ScoreKey, k) by {
        assert WithKey(Sort(Passing(xs), ScoreKey), ScoreKey, k) == WithKey(Passing(xs), ScoreKey, k);
      }
    }
    StableSortUnique(ys, r, ScoreKey);
  }

  // ---- score class ----

  datatype ScoreClass = Low | Medium | High

  function Classify(score: int): (c: ScoreClass)
    ensures c == High <==> score >= 75
    ensures c == Medium <==> 60 <= score < 75
    ensures c == Low <==> score < 60
  {
    if score >= 75 then High else if score >= 60 then Medium else Low
  }

  function Level(c: ScoreClass): nat {
    match c
    case Low => 0
    case Medium => 1
    case High => 2
  }

  /** A higher score never gets a lower class. */
  lemma ClassifyMonotone(a: int, b: int)
    requires a <= b
    ensures Level(Classify(a)) <= Level(Classify(b))
  {
  }

  // ---- the proxy's reply as the page reads it ----

  /** The decoded reply: `ok` is the HTTP success flag; `details` and `error` are the
      error fields, `content` the blocks of a successful reply. */
  datatype ProxyReply = ProxyReply(ok: bool, statusText: string, details: Option<string>,
                                   error: Option<string>, content: seq<ContentBlock>)

  /** The model's answer once parsed: `matches` is `None` when missing. */
  datatype AiAnswer = AiAnswer(summary: Option<string>, matches: Option<seq<Match>>)

  /** What the page shows. `Failed` is the error line the `catch` writes; `Crashed` a
      runtime error whose message comes from the engine (no content block at all). */
  datatype Outcome =
    | Failed(message: string)
    | Crashed
    | Unparsed(raw: string)
    | NoMatches(summary: string)
    | AllBelowThreshold(summary: string)
    | Results(summary: string, ranked: seq<Scored>)

  /** `content.find(block => block.type === 'text')`. */
  function FirstTextBlock(blocks: seq<ContentBlock>): (r: Option<ContentBlock>)
    ensures r.None? <==> forall i :: 0 <= i < |blocks| ==> blocks[i].kind != "text"
    ensures r.Some? ==> exists i :: 0 <= i < |blocks| && blocks[i] == r.value && r.value.kind == "text"
                                  && forall k :: 0 <= k < i ==> blocks[k].kind != "text"
  {
    if |blocks| == 0 then None
    else if blocks[0].kind == "text" then Some(blocks[0])
    else
      var r := FirstTextBlock(blocks[1..]);
      assert forall k :: 1 <= k < |blocks| ==> blocks[k] == blocks[1..][k - 1];
      r
  }

  /** `a || b || c` on strings. */
  function FirstTruthy(a: Option<string>, b: Option<string>, c: string): (r: string)
    ensures Truthy(a) ==> r == OrEmpty(a)
    ensures !Truthy(a) && Truthy(b) ==> r == OrEmpty(b)
    ensures !Truthy(a) && !Truthy(b) ==> r == c
  {
    if Truthy(a) then OrEmpty(a) else if Truthy(b) then OrEmpty(b) else c
  }

  const NoMatchesText := "No matches found for your query."
  const NoGoodMatchesText := "No high-quality matches found for your query."
  const FoundText := "Found matching attendees"

  /** The text the page parses: the first text block, else the first block. */
  function ReplyText(blocks: seq<ContentBlock>): (r: Option<string>)
    ensures r.None? <==> |blocks| == 0
    ensures (exists i :: 0 <= i < |blocks| && blocks[i].kind == "text") ==> r == Some(FirstTextBlock(blocks).value.text)
    ensures (forall i :: 0 <= i < |blocks| ==> blocks[i].kind != "text") && |blocks| > 0 ==> r == Some(blocks[0].text)
  {
    match FirstTextBlock(blocks)
    case Some(b) => Some(b.text)
    case None => if |blocks| == 0 then None else Some(blocks[0].text)
  }

  /** The ranked matches of a non-empty `matches` array, with their store records. */
  function Ranked(store: seq<Profile>, ms: seq<Match>): (r: seq<Scored>)
    ensures forall i :: 0 <= i < |r| ==>
              && r[i].score >= MinimumScore
              && r[i].attendee in store
              && r[i].attendee.id == r[i].found.id
    ensures forall i, j :: 0 <= i < j < |r| ==> r[i].score >= r[j].score
  {
    var resolved := Resolve(store, ms);
    var ranked := Rank(resolved);
    forall i | 0 <= i < |ranked|
      ensures ranked[i].attendee in store && ranked[i].attendee.id == ranked[i].found.id
    {
      assert ranked[i] in resolved;
      var k :| 0 <= k < |resolved| && resolved[k] == ranked[i];
      assert FindById(store, resolved[k].found.id) == Some(resolved[k].attendee);
    }
    ranked
  }

  /** What the page shows for a parsed answer. */
  function Judge(store: seq<Profile>, answer: AiAnswer): (r: Outcome)
    ensures r.NoMatches? <==> answer.matches.None? || |answer.matches.value| == 0
    ensures r.NoMatches? || r.AllBelowThreshold? || r.Results?
    ensures r.Results? ==> && |r.ranked| > 0
                           && (forall i :: 0 <= i < |r.ranked| ==>
                                 && r.ranked[i].score >= MinimumScore
                                 && r.ranked[i].attendee in store
                                 && r.ranked[i].attendee.id == r.ranked[i].found.id)
                           && (forall i, j :: 0 <= i < j < |r.ranked| ==> r.ranked[i].score >= r.ranked[j].score)
  {
    if answer.matches.None? || |answer.matches.value| == 0 then
      NoMatches(FirstTruthy(answer.summary, None, NoMatchesText))
    else
      var ranked := Ranked(store, answer.matches.value);
      if |ranked| == 0 then AllBelowThreshold(FirstTruthy(answer.summary, None, NoGoodMatchesText))
      else Results(FirstTruthy(answer.summary, None, FoundText), ranked)
  }

  /** `performAISearch` after the request: the error of a failed reply, the text block
      (else the first block), the first `{` to the last `}` parsed, then the ranked
      matches. `parse` is `JSON.parse` of that span. */
  function Interpret(store: seq<Profile>, reply: ProxyReply, parse: string -> Option<AiAnswer>): (r: Outcome)
    ensures !reply.ok <==> r.Failed?
    ensures !reply.ok ==> r.message == FirstTruthy(reply.details, reply.error, reply.statusText)
    ensures r.Crashed? <==> reply.ok && |reply.content| == 0
    ensures r.Unparsed? ==>
              ReplyText(reply.content) == Some(r.raw) && (BraceSpan(r.raw).None? || parse(BraceSpan(r.raw).value).None?)
    ensures reply.ok && ReplyText(reply.content).Some?
            && (BraceSpan(ReplyText(reply.content).value).None?
                || parse(BraceSpan(ReplyText(reply.content).value).value).None?) ==>
              r == Unparsed(ReplyText(reply.content).value)
    ensures reply.ok && ReplyText(reply.content).Some? && BraceSpan(ReplyText(reply.content).value).Some?
            && parse(BraceSpan(ReplyText(reply.content).value).value).Some? ==>
              r == Judge(store, parse(BraceSpan(ReplyText(reply.content).value).value).value)
    ensures r.Results? ==> && |r.ranked| > 0
                           && (forall i :: 0 <= i < |r.ranked| ==>
                                 && r.ranked[i].score >= MinimumScore
                                 && r.ranked[i].attendee in store
                                 && r.ranked[i].attendee.id == r.ranked[i].found.id)
                           && (forall i, j :: 0 <= i < j < |r.ranked| ==> r.ranked[i].score >= r.ranked[j].score)
  {
    if !reply.ok then Failed(FirstTruthy(reply.details, reply.error, reply.statusText))
    else match ReplyText(reply.content)
      case None => Crashed
      case Some(text) =>
        match BraceSpan(text)
        case None => Unparsed(text)
        case Some(span) =>
          match parse(span)
          case None => Unparsed(text)
          case Some(answer) => Judge(store, answer)
  }

  /** A resolved match is a known match of the input, and each known match is
      resolved with its score. */
  lemma ResolvedAreKnown(store: seq<Profile>, ms: seq<Match>)
    ensures forall s :: s in Resolve(store, ms) ==> s.found in ms && Known(store, s.found) && s.score == ScoreOf(s.found)
    ensures forall m :: m in ms && Known(store, m) ==> exists s :: s in Resolve(store, ms) && s.found == m
  {
    var resolved := Resolve(store, ms);
    var kept := Filter(ms, (m: Match) => Known(store, m));
    forall s | s in resolved ensures s.found in ms && Known(store, s.found) && s.score == ScoreOf(s.found) {
      var i :| 0 <= i < |resolved| && resolved[i] == s;
      assert MatchesOf(resolved)[i] == s.found;
      assert s.found in kept;
    }
    forall m | m in ms && Known(store, m) ensures exists s :: s in resolved && s.found == m {
      assert m in kept;
      var i :| 0 <= i < |kept| && kept[i] == m;
      assert MatchesOf(resolved)[i] == m;
      assert resolved[i] in resolved;
    }
  }

  /** Nothing survives the ranking exactly when no known match scored 25 or more. */
  lemma RankEmptyIffNoGoodKnownMatch(store: seq<Profile>, ms: seq<Match>)
    ensures |Rank(Resolve(store, ms))| == 0 <==>
              forall m :: m in ms && Known(store, m) ==> ScoreOf(m) < MinimumScore
  {
    var resolved := Resolve(store, ms);
    var ranked := Rank(resolved);
    ResolvedAreKnown(store, ms);
    if |ranked| > 0 {
      assert ranked[0] in resolved;
    } else {
      forall m | m in ms && Known(store, m) ensures ScoreOf(m) < MinimumScore {
        var s :| s in resolved && s.found == m;
        assert s !in ranked;
      }
    }
  }

  /** Every known match with a score of at least 25 is shown, so "below the threshold"
      means no known match reached 25. */
  lemma AllBelowThresholdMeansNoGoodKnownMatch(store: seq<Profile>, reply: ProxyReply, parse: string -> Option<AiAnswer>,
                                               answer: AiAnswer)
    requires reply.ok && ReplyText(reply.content).Some?
    requires BraceSpan(ReplyText(reply.content).value).Some?
    requires parse(BraceSpan(ReplyText(reply.content).value).value) == Some(answer)
    requires answer.matches.Some? && |answer.matches.value| > 0
    ensures Interpret(store, reply, parse).AllBelowThreshold? <==>
              forall m :: m in answer.matches.value && Known(store, m) ==> ScoreOf(m) < MinimumScore
  {
    RankEmptyIffNoGoodKnownMatch(store, answer.matches.value);
  }

  /** For a parsed answer: "no matches" exactly when `matches` is missing or empty;
      otherwise, when anything passes, the results are the ranking of all the known
      matches, so every known match scoring 25 or more is shown. */
  lemma ParsedAnswerShowsEveryGoodMatch(store: seq<Profile>, reply: ProxyReply, parse: string -> Option<AiAnswer>,
                                        answer: AiAnswer)
    requires reply.ok && ReplyText(reply.content).Some?
    requires BraceSpan(ReplyText(reply.content).value).Some?
    requires parse(BraceSpan(ReplyText(reply.content).value).value) == Some(answer)
    ensures Interpret(store, reply, parse).NoMatches? <==> answer.matches.None? || |answer.matches.value| == 0
    ensures answer.matches.Some? && |Rank(Resolve(store, answer.matches.value))| > 0 ==>
              Interpret(store, reply, parse)
                == Results(FirstTruthy(answer.summary, None, FoundText), Rank(Resolve(store, answer.matches.value)))
    ensures answer.matches.Some? ==>
              forall m :: m in answer.matches.value && Known(store, m) && ScoreOf(m) >= MinimumScore ==>
                && Interpret(store, reply, parse).Results?
                && exists i :: 0 <= i < |Interpret(store, reply, parse).ranked|
                               && Interpret(store, reply, parse).ranked[i].found == m
  {
    var r := Interpret(store, reply, parse);
    assert r == Judge(store, answer);
    if answer.matches.Some? {
      GoodMatchesRanked(store, answer.matches.value);
    }
  }

  /** Every known match scoring 25 or more has a place in the ranking. */
  lemma GoodMatchesRanked(store: seq<Profile>, ms: seq<Match>)
    ensures forall m :: m in ms && Known(store, m) && ScoreOf(m) >= MinimumScore ==>
              exists i :: 0 <= i < |Ranked(store, ms)| && Ranked(store, ms)[i].found == m
  {
    var resolved := Resolve(store, ms);
    var ranked := Rank(resolved);
    assert Ranked(store, ms) == ranked;
    ResolvedAreKnown(store, ms);
    forall m | m in ms && Known(store, m) && ScoreOf(m) >= MinimumScore
      ensures exists i :: 0 <= i < |ranked| && ranked[i].found == m
    {
      var s :| s in resolved && s.found == m;
      assert s in ranked;
      var i :| 0 <= i < |ranked| && ranked[i] == s;
    }
  }

  // ---- before the request ----

  /** The keys saved in the browser, '' when none. */
  datatype ApiKeys = ApiKeys(anthropic: string, google: string, openai: string)

  datatype Precheck =
    | EmptyQuery
    | MissingKey(provider: string)
    | EmptyStore
    | Send(query: string, apiKey: string)

  /** The provider whose key a model name needs, if any. */
  function ProviderFor(model: string): (r: Option<string>)
    ensures r == Some("anthropic") <==> model == "claude-sonnet"
    ensures r == Some("google") <==> model != "claude-sonnet" && StartsWith(model, "gemini")
    ensures r == Some("openai") <==> model != "claude-sonnet" && !StartsWith(model, "gemini") && StartsWith(model, "gpt")
    ensures r.None? <==> model != "claude-sonnet" && !StartsWith(model, "gemini") && !StartsWith(model, "gpt")
  {
    if model == "claude-sonnet" then Some("anthropic")
    else if StartsWith(model, "gemini") then Some("google")
    else if StartsWith(model, "gpt") then Some("openai")
    else None
  }

  function SavedKey(keys: ApiKeys, provider: string): string {
    if provider == "anthropic" then keys.anthropic
    else if provider == "google" then keys.google
    else if provider == "openai" then keys.openai
    else ""
  }

  /** The checks `performAISearch` makes before sending: a non-blank query, the key the
      model needs, and a non-empty store. A model of no known provider sends no key. */
  function Check(input: string, model: string, keys: ApiKeys, store: seq<Profile>): (r: Precheck)
    ensures r == EmptyQuery <==> Trim(input) == ""
    ensures r.MissingKey? <==> Trim(input) != "" && ProviderFor(model).Some? && SavedKey(keys, ProviderFor(model).value) == ""
    ensures r.MissingKey? ==> r.provider == ProviderFor(model).value
    ensures r == EmptyStore <==>
              && Trim(input) != ""
              && !(ProviderFor(model).Some? && SavedKey(keys, ProviderFor(model).value) == "")
              && |store| == 0
    ensures r.Send? <==>
              && Trim(input) != ""
              && !(ProviderFor(model).Some? && SavedKey(keys, ProviderFor(model).value) == "")
              && |store| > 0
    ensures r.Send? ==> r.query == Trim(input) && |store| > 0
                        && r.apiKey == (if ProviderFor(model).Some? then SavedKey(keys, ProviderFor(model).value) else "")
  {
    var query := Trim(input);
    if query == "" then EmptyQuery
    else if ProviderFor(model).Some? && SavedKey(keys, ProviderFor(model).value) == "" then MissingKey(ProviderFor(model).value)
    else if |store| == 0 then EmptyStore
    else Send(query, if ProviderFor(model).Some? then SavedKey(keys, ProviderFor(model).value) else "")
  }

  /** The masked value the key field shows after a save. */
  const MaskedKey := "\U{2022}\U{2022}\U{2022}\U{2022}\U{2022}\U{2022}\U{2022}\U{2022}"

  datatype KeyRejection = BlankKey | WrongPrefix(expected: string)

  /** The prefix a provider's keys must start with; '' for a provider with no rule. */
  function KeyPrefix(provider: string): string {
    if provider == "anthropic" then "sk-ant-"
    else if provider == "openai" then "sk-"
    else if provider == "google" then "AIza"
    else ""
  }

  function WithKeyFor(keys: ApiKeys, provider: string, key: string): ApiKeys {
    if provider == "anthropic" then keys.(anthropic := key)
    else if provider == "google" then keys.(google := key)
    else if provider == "openai" then keys.(openai := key)
    else keys
  }

  /** `saveApiKey`: the trimmed input, refused when blank or the mask, or without the
      provider's prefix; otherwise stored for that provider and no other. */
  function SaveApiKey(keys: ApiKeys, provider: string, input: string): (r: Result<ApiKeys, KeyRejection>)
    ensures r == Err(BlankKey) <==> Trim(input) == "" || Trim(input) == MaskedKey
    ensures r == Err(WrongPrefix(KeyPrefix(provider))) <==>
              Trim(input) != "" && Trim(input) != MaskedKey && !StartsWith(Trim(input), KeyPrefix(provider))
    ensures r.Err? && r.error.WrongPrefix? ==> r.error.expected == KeyPrefix(provider)
                                               && !StartsWith(Trim(input), KeyPrefix(provider))
    ensures r.Ok? <==> Trim(input) != "" && Trim(input) != MaskedKey && StartsWith(Trim(input), KeyPrefix(provider))
    ensures r.Ok? ==> && (provider in {"anthropic", "google", "openai"} ==> SavedKey(r.value, provider) == Trim(input))
                      && forall q :: q != provider ==> SavedKey(r.value, q) == SavedKey(keys, q)
  {
    var key := Trim(input);
    if key == "" || key == MaskedKey then Err(BlankKey)
    else if !StartsWith(key, KeyPrefix(provider)) then Err(WrongPrefix(KeyPrefix(provider)))
    else Ok(WithKeyFor(keys, provider, key))
  }

  /** After a successful save the AI search no longer stops for that provider's key:
      every accepted key is non-empty. */
  lemma SavedKeyUnblocksSearch(keys: ApiKeys, provider: string, input: string, query: string, model: string,
                               store: seq<Profile>)
    requires SaveApiKey(keys, provider, input).Ok?
    requires ProviderFor(model) == Some(provider)
    ensures !Check(query, model, SaveApiKey(keys, provider, input).value, store).MissingKey?
  {
    var saved := SaveApiKey(keys, provider, input).value;
    assert provider in {"anthropic", "google", "openai"};
    assert SavedKey(saved, provider) == Trim(input);
  }
}

=== FILE: browse.dfy ===
/** The data part of `renderAttendees` (app.js): which records the list shows and in
    which order, and the school drop-down of `updateSchoolFilter`. */
module Browse {
  import opened Common
  import opened Text
  import opened Sorting
  import opened Profiles

  /** An optional field passes the text test: present, non-empty and containing the
      lower-cased search term once lower-cased itself. */
  predicate FieldHas(field: Option<string>, term: string) {
    Truthy(field) && Contains(ToLower(OrEmpty(field)), term)
  }

  predicate ExperienceHas(e: Experience, term: string) {
    Contains(ToLower(e.company), term) || Contains(ToLower(e.title), term)
  }

  /** The text test: `term` is the search input lower-cased (not trimmed). */
  predicate MatchesSearch(p: Profile, term: string) {
    || term == ""
    || FieldHas(p.name, term)
    || FieldHas(p.headline, term)
    || FieldHas(p.school, term)
    || exists i :: 0 <= i < |p.experience| && ExperienceHas(p.experience[i], term)
  }

  /** The school test: an empty filter admits everything, otherwise `school` must equal
      the filter exactly. */
  predicate MatchesSchool(p: Profile, schoolFilter: string) {
    schoolFilter == "" || p.school == Some(schoolFilter)
  }

  predicate Keep(p: Profile, term: string, schoolFilter: string) {
    MatchesSearch(p, term) && MatchesSchool(p, schoolFilter)
  }

  /** The records passing both tests, in store order. */
  function Visible(store: seq<Profile>, searchInput: string, schoolFilter: string): (r: seq<Profile>)
    ensures forall p :: p in r <==> p in store && Keep(p, ToLower(searchInput), schoolFilter)
    ensures IsSubsequence(r, store)
    ensures forall p :: multiset(r)[p] == if Keep(p, ToLower(searchInput), schoolFilter) then multiset(store)[p] else 0
  {
    FilterCounts(store, (p: Profile) => Keep(p, ToLower(searchInput), schoolFilter));
    Filter(store, (p: Profile) => Keep(p, ToLower(searchInput), schoolFilter))
  }

  /** For a non-empty query every shown record contains it, ignoring case, in its name,
      headline, school or the company or title of some experience entry. */
  lemma VisibleRecordsContainQuery(store: seq<Profile>, query: string, schoolFilter: string, p: Profile)
    requires query != "" && p in Visible(store, query, schoolFilter)
    ensures || Contains(ToLower(OrEmpty(p.name)), ToLower(query))
            || Contains(ToLower(OrEmpty(p.headline)), ToLower(query))
            || Contains(ToLower(OrEmpty(p.school)), ToLower(query))
            || exists i :: 0 <= i < |p.experience| && (Contains(ToLower(p.experience[i].company), ToLower(query))
                                                        || Contains(ToLower(p.experience[i].title), ToLower(query)))
    ensures schoolFilter != "" ==> p.school == Some(schoolFilter)
  {
    assert ToLower(query) != "" by {
      assert |ToLower(query)| == |query|;
    }
    if !FieldHas(p.name, ToLower(query)) && !FieldHas(p.headline, ToLower(query)) && !FieldHas(p.school, ToLower(query)) {
      var i :| 0 <= i < |p.experience| && ExperienceHas(p.experience[i], ToLower(query));
    }
  }

  /** The test ignores the case of the query. */
  lemma VisibleIgnoresQueryCase(store: seq<Profile>, query: string, schoolFilter: string)
    ensures Visible(store, query, schoolFilter) == Visible(store, ToLower(query), schoolFilter)
  {
    ToLowerIdempotent(query);
  }

  /** The comparator's key for one record: `localeCompare` on the name or the school
      (a missing value read as ''), newest `addedAt` first for "recent", and a constant
      for any other value, whose comparator always answers 0. `collate` maps a string to
      its collation key. */
  function SortKey(p: Profile, sortBy: string, collate: string -> seq<int>): seq<int> {
    if sortBy == "name" then collate(OrEmpty(p.name))
    else if sortBy == "school" then collate(OrEmpty(p.school))
    else if sortBy == "recent" then [-p.addedAt]
    else []
  }

  function KeyFor(sortBy: string, collate: string -> seq<int>): Profile -> seq<int> {
    (p: Profile) => SortKey(p, sortBy, collate)
  }

  /** `renderAttendees` without the markup: the records passing both tests, stably
      sorted by the chosen key; an unknown sort key leaves the store order. */
  function Browse(store: seq<Profile>, searchInput: string, schoolFilter: string, sortBy: string,
                  collate: string -> seq<int>): (r: seq<Profile>)
    ensures forall p :: p in r <==> p in store && Keep(p, ToLower(searchInput), schoolFilter)
    ensures multiset(r) == multiset(Visible(store, searchInput, schoolFilter))
    ensures SortedBy(r, KeyFor(sortBy, collate))
    ensures forall k :: WithKey(r, KeyFor(sortBy, collate), k)
                     == WithKey(Visible(store, searchInput, schoolFilter), KeyFor(sortBy, collate), k)
    ensures sortBy != "name" && sortBy != "school" && sortBy != "recent" ==> r == Visible(store, searchInput, schoolFilter)
  {
    var shown := Visible(store, searchInput, schoolFilter);
    var r := Sort(shown, KeyFor(sortBy, collate));
    SameMembers(r, shown);
    assert sortBy != "name" && sortBy != "school" && sortBy != "recent" ==> r == shown by {
      if sortBy != "name" && sortBy != "school" && sortBy != "recent" {
        SortConstantKeyIsIdentity(shown, KeyFor(sortBy, collate), []);
      }
    }
    r
  }

  /** Sorting by "recent" puts the newest record first. */
  lemma BrowseRecentNewestFirst(store: seq<Profile>, searchInput: string, schoolFilter: string,
                                collate: string -> seq<int>)
    ensures var r := Browse(store, searchInput, schoolFilter, "recent", collate);
            forall i, j :: 0 <= i < j < |r| ==> r[i].addedAt >= r[j].addedAt
  {
    var r := Browse(store, searchInput, schoolFilter, "recent", collate);
    forall i, j | 0 <= i < j < |r| ensures r[i].addedAt >= r[j].addedAt {
      assert LexLe(KeyFor("recent", collate)(r[i]), KeyFor("recent", collate)(r[j]));
    }
  }

  /** Sorting by "name" or "school" orders the records by the collation of that field,
      and records whose field collates equal keep their store order. */
  lemma BrowseByNameOrSchoolCollates(store: seq<Profile>, searchInput: string, schoolFilter: string,
                                     collate: string -> seq<int>)
    ensures var r := Browse(store, searchInput, schoolFilter, "name", collate);
            forall i, j :: 0 <= i < j < |r| ==> LexLe(collate(OrEmpty(r[i].name)), collate(OrEmpty(r[j].name)))
    ensures var r := Browse(store, searchInput, schoolFilter, "school", collate);
            forall i, j :: 0 <= i < j < |r| ==> LexLe(collate(OrEmpty(r[i].school)), collate(OrEmpty(r[j].school)))
  {
    var a := Browse(store, searchInput, schoolFilter, "name", collate);
    forall i, j | 0 <= i < j < |a| ensures LexLe(collate(OrEmpty(a[i].name)), collate(OrEmpty(a[j].name))) {
      assert LexLe(KeyFor("name", collate)(a[i]), KeyFor("name", collate)(a[j]));
    }
    var b := Browse(store, searchInput, schoolFilter, "school", collate);
    forall i, j | 0 <= i < j < |b| ensures LexLe(collate(OrEmpty(b[i].school)), collate(OrEmpty(b[j].school))) {
      assert LexLe(KeyFor("school", collate)(b[i]), KeyFor("school", collate)(b[j]));
    }
  }

  /** `[...new Set(xs)]`: first occurrences, in order. */
  function Distinct(xs: seq<string>): (r: seq<string>)
    ensures forall x :: x in r <==> x in xs
    ensures forall x :: multiset(r)[x] <= 1
  {
    if |xs| == 0 then []
    else
      var d := Distinct(xs[..|xs| - 1]);
      var last := xs[|xs| - 1];
      assert xs == xs[..|xs| - 1] + [last];
      if last in d then d else d + [last]
  }

  /** The non-empty `school` values of the stored records, in store order. */
  function SchoolValues(store: seq<Profile>): (r: seq<string>)
    ensures forall s :: s in r <==> s != "" && exists i :: 0 <= i < |store| && store[i].school == Some(s)
  {
    if |store| == 0 then []
    else
      var rest := SchoolValues(store[1..]);
      assert forall s :: (exists i :: 0 <= i < |store[1..]| && store[1..][i].school == Some(s))
                     ==> (exists i :: 0 <= i < |store| && store[i].school == Some(s)) by {
        forall s | exists i :: 0 <= i < |store[1..]| && store[1..][i].school == Some(s)
          ensures exists i :: 0 <= i < |store| && store[i].school == Some(s) {
          var i :| 0 <= i < |store[1..]| && store[1..][i].school == Some(s);
          assert store[i + 1] == store[1..][i];
        }
      }
      assert forall s :: (exists i :: 0 <= i < |store| && store[i].school == Some(s)) && store[0].school != Some(s)
                     ==> (exists i :: 0 <= i < |store[1..]| && store[1..][i].school == Some(s)) by {
        forall s | (exists i :: 0 <= i < |store| && store[i].school == Some(s)) && store[0].school != Some(s)
          ensures exists i :: 0 <= i < |store[1..]| && store[1..][i].school == Some(s) {
          var i :| 0 <= i < |store| && store[i].school == Some(s);
          assert store[1..][i - 1] == store[i];
        }
      }
      if Truthy(store[0].school) then [OrEmpty(store[0].school)] + rest else rest
  }

  /** The options of the school drop-down after "All Schools": every distinct non-empty
      stored school exactly once, in code-unit order. */
  function SchoolOptions(store: seq<Profile>): (r: seq<string>)
    ensures forall s :: s in r <==> s != "" && exists i :: 0 <= i < |store| && store[i].school == Some(s)
    ensures forall s :: multiset(r)[s] <= 1
    ensures SortedBy(r, Utf16)
  {
    var d := Distinct(SchoolValues(store));
    var r := Sort(d, Utf16);
    SameMembers(r, d);
    r
  }

  /** The selection survives a refresh only if its school is still offered; otherwise the
      drop-down falls back to "All Schools" (''). */
  function SelectionAfterRefresh(store: seq<Profile>, current: string): (r: string)
    ensures r == current <==> current == "" || exists i :: 0 <= i < |store| && store[i].school == Some(current)
    ensures r != current ==> r == ""
  {
    if current in SchoolOptions(store) then current else ""
  }
}

=== FILE: common.dfy ===
/** Optional values and the few generic sequence facts the rest of the model shares. */
module Common {

  /** A value that may be missing: an absent JSON key, `undefined`, or Python's `None`. */
  datatype Option<+T> = None | Some(value: T) {
    function GetOr(default: T): T {
      match this
      case Some(v) => v
      case None => default
    }
  }

  /** The outcome of an operation that can fail: a value or the reason it failed. */
  datatype Result<+T, +E> = Ok(value: T) | Err(error: E)

  /** The string a JavaScript `x || ''` or a Python truthiness test sees for an optional string. */
  function OrEmpty(o: Option<string>): string {
    o.GetOr("")
  }

  /** JavaScript/Python truthiness of an optional string: present and non-empty. */
  predicate Truthy(o: Option<string>) {
    OrEmpty(o) != ""
  }

  /** `xs.filter(f)`: the elements satisfying `f`, in their original order. */
  function Filter<T(==,!new)>(xs: seq<T>, f: T -> bool): (r: seq<T>)
    ensures |r| <= |xs|
    ensures forall x :: x in r <==> x in xs && f(x)
    ensures IsSubsequence(r, xs)
  {
    if |xs| == 0 then []
    else
      var rest := Filter(xs[1..], f);
      assert forall x :: x in xs <==> x == xs[0] || x in xs[1..];
      if f(xs[0]) then [xs[0]] + rest else rest
  }

  /** Filtering keeps every copy of a passing element and no copy of a failing one. */
  lemma {:induction false} FilterCounts<T(!new)>(xs: seq<T>, f: T -> bool)
    ensures forall x :: multiset(Filter(xs, f))[x] == if f(x) then multiset(xs)[x] else 0
    decreases |xs|
  {
    if |xs| > 0 {
      FilterCounts(xs[1..], f);
      assert xs == [xs[0]] + xs[1..];
      assert multiset(xs) == multiset{xs[0]} + multiset(xs[1..]);
    }
  }

  /** `r` can be obtained from `xs` by deleting elements: relative order is kept. */
  predicate IsSubsequence<T(==)>(r: seq<T>, xs: seq<T>)
    decreases |xs|
  {
    if |r| == 0 then true
    else if |xs| == 0 then false
    else (r[0] == xs[0] && IsSubsequence(r[1..], xs[1..])) || IsSubsequence(r, xs[1..])
  }

  lemma {:induction false} FilterAppend<T(!new)>(xs: seq<T>, ys: seq<T>, f: T -> bool)
    ensures Filter(xs + ys, f) == Filter(xs, f) + Filter(ys, f)
    decreases |xs|
  {
    if |xs| == 0 {
      assert xs + ys == ys;
    } else {
      assert (xs + ys)[1..] == xs[1..] + ys;
      FilterAppend(xs[1..], ys, f);
    }
  }

  /** Filtering with a test every element passes changes nothing. */
  lemma {:induction false} FilterAll<T(!new)>(xs: seq<T>, f: T -> bool)
    requires forall i :: 0 <= i < |xs| ==> f(xs[i])
    ensures Filter(xs, f) == xs
    decreases |xs|
  {
    if |xs| > 0 {
      FilterAll(xs[1..], f);
    }
  }

  /** Elements of a permutation are the elements of the original. */
  lemma SameMembers<T>(a: seq<T>, b: seq<T>)
    requires multiset(a) == multiset(b)
    ensures forall x :: x in a <==> x in b
  {
    forall x ensures x in a <==> x in b {
      assert x in a <==> x in multiset(a);
      assert x in b <==> x in multiset(b);
    }
  }
}

=== FILE: highlights.dfy ===
/** The decisions of `renderAttendeeCardWithHighlights` (app.js): the highlight key map,
    which field of each list entry carries the single "Match" badge, whether the badge
    pops up, how many entries are shown before "Show N more", and when the AI search
    expands the experience list on its own. The markup itself is not modelled. */
module Highlights {
  import opened Common
  import opened Text
  import opened Profiles

  /** One entry of a match's `highlights`: `index` is `None` when the key is absent;
      an absent `field` or `reason` is ''. */
  datatype Highlight = Highlight(section: string, index: Option<int>, field: string, reason: string)

  /** The map key: `section:index:(field || 'all')` when there is an index, else the
      bare section. */
  function KeyOf(section: string, index: Option<int>, field: string): string {
    match index
    case Some(i) => section + ":" + IntToString(i) + ":" + (if field == "" then "all" else field)
    case None => section
  }

  function HighlightKey(h: Highlight): string {
    KeyOf(h.section, h.index, h.field)
  }

  /** No later highlight has the same key as `hs[i]`. */
  predicate LastWithKey(hs: seq<Highlight>, i: int)
    requires 0 <= i < |hs|
  {
    forall j :: i < j < |hs| ==> HighlightKey(hs[j]) != HighlightKey(hs[i])
  }

  /** The key map, filled in array order: a later highlight with the same key replaces
      the earlier one, whatever its reason. */
  function BuildMap(hs: seq<Highlight>): (m: map<string, string>)
    ensures forall k :: k in m <==> exists i :: 0 <= i < |hs| && HighlightKey(hs[i]) == k
  {
    if |hs| == 0 then map[]
    else
      var init := hs[..|hs| - 1];
      assert forall i :: 0 <= i < |init| ==> init[i] == hs[i];
      BuildMap(init)[HighlightKey(hs[|hs| - 1]) := hs[|hs| - 1].reason]
  }

  /** Every key holds the reason of the last highlight that has it. */
  lemma {:induction false} BuildMapHoldsLastReason(hs: seq<Highlight>, i: int)
    requires 0 <= i < |hs| && LastWithKey(hs, i)
    ensures HighlightKey(hs[i]) in BuildMap(hs) && BuildMap(hs)[HighlightKey(hs[i])] == hs[i].reason
    decreases |hs|
  {
    var init := hs[..|hs| - 1];
    if i < |hs| - 1 {
      assert init[i] == hs[i];
      assert LastWithKey(init, i) by {
        forall j | i < j < |init| ensures HighlightKey(init[j]) != HighlightKey(init[i]) {
          assert init[j] == hs[j];
        }
      }
      BuildMapHoldsLastReason(init, i);
      assert HighlightKey(hs[|hs| - 1]) != HighlightKey(hs[i]);
    }
  }

  /** The last highlight of a key decides the map entry. */
  lemma LaterHighlightOverwrites(hs: seq<Highlight>, h: Highlight)
    ensures BuildMap(hs + [h])[HighlightKey(h)] == h.reason
  {
    assert (hs + [h])[|hs|] == h;
    BuildMapHoldsLastReason(hs + [h], |hs|);
  }

  /** `shouldHighlight`: the stored reason when it is truthy, otherwise nothing. */
  function Lookup(m: map<string, string>, section: string, index: Option<int>, field: string): (r: Option<string>)
    ensures r.Some? ==> r.value != ""
  {
    var k := KeyOf(section, index, field);
    if k in m && m[k] != "" then Some(m[k]) else None
  }

  /** A lookup finds a reason exactly when the last highlight with that key gave a
      non-empty one. */
  lemma LookupFindsLastHighlight(hs: seq<Highlight>, section: string, index: Option<int>, field: string)
    ensures Lookup(BuildMap(hs), section, index, field).Some?
        <==> exists i :: 0 <= i < |hs| && HighlightKey(hs[i]) == KeyOf(section, index, field)
                                       && LastWithKey(hs, i) && hs[i].reason != ""
    ensures forall i :: 0 <= i < |hs| && HighlightKey(hs[i]) == KeyOf(section, index, field) && LastWithKey(hs, i)
                        && hs[i].reason != ""
                    ==> Lookup(BuildMap(hs), section, index, field) == Some(hs[i].reason)
  {
    var k := KeyOf(section, index, field);
    var m := BuildMap(hs);
    if k in m {
      var i := LastIndexOf(hs, k);
      assert LastWithKey(hs, i);
      BuildMapHoldsLastReason(hs, i);
      forall i' | 0 <= i' < |hs| && HighlightKey(hs[i']) == k && LastWithKey(hs, i')
        ensures i' == i
      {
      }
    }
  }

  /** The position of the last highlight with key `k`. */
  function LastIndexOf(hs: seq<Highlight>, k: string): (i: int)
    requires exists i :: 0 <= i < |hs| && HighlightKey(hs[i]) == k
    ensures 0 <= i < |hs| && HighlightKey(hs[i]) == k
    ensures forall j :: i < j < |hs| ==> HighlightKey(hs[j]) != k
  {
    if HighlightKey(hs[|hs| - 1]) == k then |hs| - 1
    else
      var init := hs[..|hs| - 1];
      assert exists i :: 0 <= i < |init| && HighlightKey(init[i]) == k by {
        var i :| 0 <= i < |hs| && HighlightKey(hs[i]) == k;
        assert init[i] == hs[i];
      }
      var i := LastIndexOf(init, k);
      assert hs[i] == init[i];
      assert forall j :: i < j < |init| ==> hs[j] == init[j];
      i
  }

  /** The badge reason of one list entry: the first field, in priority order, whose
      lookup finds a reason (`a || b || c || d`). */
  function FirstHit(m: map<string, string>, section: string, index: int, fields: seq<string>): (r: Option<string>)
    ensures r.None? <==> forall j :: 0 <= j < |fields| ==> Lookup(m, section, Some(index), fields[j]).None?
    ensures r.Some? ==> exists j :: 0 <= j < |fields| && Lookup(m, section, Some(index), fields[j]) == r
                                 && forall i :: 0 <= i < j ==> Lookup(m, section, Some(index), fields[i]).None?
  {
    if |fields| == 0 then None
    else
      var hit := Lookup(m, section, Some(index), fields[0]);
      if hit.Some? then hit
      else
        var rest := FirstHit(m, section, index, fields[1..]);
        assert forall j :: 1 <= j < |fields| ==> fields[j] == fields[1..][j - 1];
        assert rest.Some? ==> exists j :: 0 <= j < |fields| && Lookup(m, section, Some(index), fields[j]) == rest
                                       && forall i :: 0 <= i < j ==> Lookup(m, section, Some(index), fields[i]).None? by {
          if rest.Some? {
            var j :| 0 <= j < |fields[1..]| && Lookup(m, section, Some(index), fields[1..][j]) == rest
                     && forall i :: 0 <= i < j ==> Lookup(m, section, Some(index), fields[1..][i]).None?;
            assert forall i :: 1 <= i < j + 1 ==> fields[i] == fields[1..][i - 1];
          }
        }
        rest
  }

  /** Field priorities per section; 'all' matches a highlight with no field. */
  const ExperienceFields: seq<string> := ["title", "company", "description", "all"]
  const EducationFields: seq<string> := ["school", "degree", "all"]
  const OrganizationFields: seq<string> := ["name", "role", "all"]
  const VolunteeringFields: seq<string> := ["role", "organization", "all"]
  /** A skill is looked up with no field, which the key spells 'all'. */
  const SkillFields: seq<string> := ["all"]

  /** An experience entry's title outranks its company, which outranks its description. */
  lemma ExperienceBadgePriority(m: map<string, string>, index: int)
    ensures Lookup(m, "experience", Some(index), "title").Some? ==>
              FirstHit(m, "experience", index, ExperienceFields) == Lookup(m, "experience", Some(index), "title")
    ensures Lookup(m, "experience", Some(index), "title").None? && Lookup(m, "experience", Some(index), "company").Some? ==>
              FirstHit(m, "experience", index, ExperienceFields) == Lookup(m, "experience", Some(index), "company")
    ensures Lookup(m, "experience", Some(index), "title").None? && Lookup(m, "experience", Some(index), "company").None?
            && Lookup(m, "experience", Some(index), "description").Some? ==>
              FirstHit(m, "experience", index, ExperienceFields) == Lookup(m, "experience", Some(index), "description")
  {
    var r := FirstHit(m, "experience", index, ExperienceFields);
    assert ExperienceFields[0] == "title" && ExperienceFields[1] == "company" && ExperienceFields[2] == "description";
    if r.Some? {
      var j :| 0 <= j < 4 && Lookup(m, "experience", Some(index), ExperienceFields[j]) == r
               && forall i :: 0 <= i < j ==> Lookup(m, "experience", Some(index), ExperienceFields[i]).None?;
    }
  }

  /** A reason longer than 30 characters is shown in a hover popup; a shorter one as
      the badge's title. */
  datatype Badge = Inline(reason: string) | Popup(reason: string)

  const PopupThreshold := 30

  /** `b` shows `reason`, as a popup exactly when the reason is longer than 30 UTF-16
      code units. */
  predicate Shows(b: Badge, reason: string) {
    b.reason == reason && (b.Popup? <==> |Utf16(reason)| > PopupThreshold)
  }

  function MakeBadge(reason: string): (b: Badge)
    ensures b.reason == reason
    ensures b.Popup? <==> |Utf16(reason)| > PopupThreshold
  {
    if |Utf16(reason)| > PopupThreshold then Popup(reason) else Inline(reason)
  }

  /** `length` counts UTF-16 code units: sixteen characters from outside the Basic
      Multilingual Plane (emoji, say) are 32 units and make a pop-up badge, while
      thirty characters below U+10000 stay inline. */
  lemma BadgeCountsCodeUnits(astral: string, plain: string)
    requires |astral| == 16 && forall i :: 0 <= i < |astral| ==> astral[i] as int >= 0x10000
    requires |plain| == 30 && forall i :: 0 <= i < |plain| ==> plain[i] as int < 0x10000
    ensures MakeBadge(astral).Popup?
    ensures MakeBadge(plain).Inline?
  {
  }

  function BadgeOf(hit: Option<string>): (b: Option<Badge>)
    ensures b.Some? <==> hit.Some?
    ensures b.Some? ==> b.value.reason == hit.value
    ensures b.Some? ==> (b.value.Popup? <==> |Utf16(hit.value)| > PopupThreshold)
  {
    match hit
    case Some(reason) => Some(MakeBadge(reason))
    case None => None
  }

  /** One badge decision per entry of a list section. */
  function EntryBadges(m: map<string, string>, section: string, n: nat, fields: seq<string>): (r: seq<Option<Badge>>)
    ensures |r| == n
    ensures forall i :: 0 <= i < n ==> (r[i].Some? <==> exists j :: 0 <= j < |fields| && Lookup(m, section, Some(i), fields[j]).Some?)
    ensures forall i :: 0 <= i < n && r[i].Some? ==> Some(r[i].value.reason) == FirstHit(m, section, i, fields)
    ensures forall i :: 0 <= i < n && r[i].Some? ==> Shows(r[i].value, FirstHit(m, section, i, fields).value)
  {
    seq(n, i requires 0 <= i < n => BadgeOf(FirstHit(m, section, i, fields)))
  }

  /** Experience entries shown before "Show N more", and skills before "+N more". */
  const ExperiencePreview := 3
  const SkillPreview := 8

  function Min(a: int, b: int): int { if a <= b then a else b }

  /** Everything the card decides. */
  datatype CardDecisions = CardDecisions(
    headlineBadge: Option<Badge>,
    schoolBadge: Option<Badge>,
    experience: seq<Option<Badge>>,
    experienceShown: nat,
    experienceMore: nat,
    education: seq<Option<Badge>>,
    organizations: seq<Option<Badge>>,
    volunteering: seq<Option<Badge>>,
    skills: seq<Option<Badge>>,
    skillsMore: nat)

  /** The decisions for one AI match card. The headline badge is suppressed when the
      school is highlighted; the school badge needs a school to sit on; the full
      experience list carries a badge decision per entry, of which the first three are
      shown; only the first eight skills are rendered. */
  function Decide(p: Profile, hs: seq<Highlight>): (d: CardDecisions)
    ensures var m := BuildMap(hs);
            && (d.headlineBadge.Some? <==> Lookup(m, "headline", None, "").Some? && Lookup(m, "school", None, "").None?)
            && (d.schoolBadge.Some? <==> Truthy(p.school) && Lookup(m, "school", None, "").Some?)
    ensures d.headlineBadge.Some? ==> Some(d.headlineBadge.value.reason) == Lookup(BuildMap(hs), "headline", None, "")
    ensures d.schoolBadge.Some? ==> Some(d.schoolBadge.value.reason) == Lookup(BuildMap(hs), "school", None, "")
    ensures d.headlineBadge.Some? ==> Shows(d.headlineBadge.value, Lookup(BuildMap(hs), "headline", None, "").value)
    ensures d.schoolBadge.Some? ==> Shows(d.schoolBadge.value, Lookup(BuildMap(hs), "school", None, "").value)
    ensures d.experience == EntryBadges(BuildMap(hs), "experience", |p.experience|, ExperienceFields)
    ensures d.education == EntryBadges(BuildMap(hs), "education", |p.education|, EducationFields)
    ensures d.organizations == EntryBadges(BuildMap(hs), "organizations", |p.organizations|, OrganizationFields)
    ensures d.volunteering == EntryBadges(BuildMap(hs), "volunteering", |p.volunteering|, VolunteeringFields)
    ensures d.experienceShown == Min(ExperiencePreview, |p.experience|)
    ensures d.experienceShown + d.experienceMore == |p.experience|
    ensures |d.skills| == Min(SkillPreview, |p.skills|) && |d.skills| + d.skillsMore == |p.skills|
    ensures forall i :: 0 <= i < |d.skills| ==> d.skills[i] == EntryBadges(BuildMap(hs), "skills", |p.skills|, SkillFields)[i]
  {
    var m := BuildMap(hs);
    var headline := Lookup(m, "headline", None, "");
    var school := Lookup(m, "school", None, "");
    var nExp := |p.experience|;
    var nSkills := |p.skills|;
    var shownSkills := Min(SkillPreview, nSkills);
    CardDecisions(
      if headline.Some? && school.None? then BadgeOf(headline) else None,
      if Truthy(p.school) then BadgeOf(school) else None,
      EntryBadges(m, "experience", nExp, ExperienceFields),
      Min(ExperiencePreview, nExp),
      nExp - Min(ExperiencePreview, nExp),
      EntryBadges(m, "education", |p.education|, EducationFields),
      EntryBadges(m, "organizations", |p.organizations|, OrganizationFields),
      EntryBadges(m, "volunteering", |p.volunteering|, VolunteeringFields),
      EntryBadges(m, "skills", shownSkills, SkillFields),
      nSkills - shownSkills)
  }

  /** The AI search opens the collapsed experience list of a card when the record has
      more than three entries and some experience highlight has an index of 3 or more. */
  function AutoExpand(p: Profile, hs: seq<Highlight>): (r: bool)
  {
    && |p.experience| > ExperiencePreview
    && exists i :: 0 <= i < |hs| && hs[i].section == "experience" && hs[i].index.Some? && hs[i].index.value >= ExperiencePreview
  }

  /** It opens the list exactly when entries are hidden and a highlight points past the
      shown ones. */
  lemma AutoExpandIffHighlightHidden(p: Profile, hs: seq<Highlight>)
    ensures AutoExpand(p, hs) <==>
      && Decide(p, hs).experienceMore > 0
      && exists i :: 0 <= i < |hs| && hs[i].section == "experience" && hs[i].index.Some?
                   && hs[i].index.value >= Decide(p, hs).experienceShown
  {
  }
}

=== FILE: json.dfy ===
/** The JSON values the Python handlers receive from `json.loads` and hand to
    `json.dumps`. Numbers are integers; objects keep their members in order. */
module JsonData {
  import opened Common

  datatype Json =
    | JNull
    | JBool(b: bool)
    | JNum(n: int)
    | JStr(s: string)
    | JArr(items: seq<Json>)
    | JObj(members: seq<(string, Json)>)

  /** Python truthiness of a decoded value. */
  predicate PyTruthy(j: Json) {
    match j
    case JNull => false
    case JBool(b) => b
    case JNum(n) => n != 0
    case JStr(s) => s != ""
    case JArr(items) => |items| > 0
    case JObj(members) => |members| > 0
  }

  /** `d.get(key)`: the member's value; `json.loads` keeps the last of repeated keys. */
  function Get(members: seq<(string, Json)>, key: string): (r: Option<Json>)
    ensures r.None? <==> forall i :: 0 <= i < |members| ==> members[i].0 != key
    ensures r.Some? ==> exists i :: 0 <= i < |members| && members[i] == (key, r.value)
                                  && forall j :: i < j < |members| ==> members[j].0 != key
  {
    if |members| == 0 then None
    else if members[|members| - 1].0 == key then Some(members[|members| - 1].1)
    else
      var init := members[..|members| - 1];
      var r := Get(init, key);
      assert r.None? <==> forall i :: 0 <= i < |members| ==> members[i].0 != key by {
        if r.None? {
          forall i | 0 <= i < |members| ensures members[i].0 != key {
            if i < |init| { assert members[i] == init[i]; }
          }
        } else {
          var i :| 0 <= i < |init| && init[i].0 == key;
          assert members[i] == init[i];
        }
      }
      assert r.Some? ==> exists i :: 0 <= i < |members| && members[i] == (key, r.value)
                                   && forall j :: i < j < |members| ==> members[j].0 != key by {
        if r.Some? {
          var i :| 0 <= i < |init| && init[i] == (key, r.value) && forall j :: i < j < |init| ==> init[j].0 != key;
          assert members[i] == init[i];
          forall j | i < j < |members| ensures members[j].0 != key {
            if j < |init| { assert members[j] == init[j]; }
          }
        }
      }
      r
  }

  /** `d.get(key, default)`. */
  function GetOr(members: seq<(string, Json)>, key: string, default: Json): Json {
    Get(members, key).GetOr(default)
  }

  /** A member no later member shadows is what `get` returns. */
  lemma GetUnshadowed(members: seq<(string, Json)>, i: int)
    requires 0 <= i < |members|
    requires forall j :: i < j < |members| ==> members[j].0 != members[i].0
    ensures Get(members, members[i].0) == Some(members[i].1)
  {
    var r := Get(members, members[i].0);
    var k :| 0 <= k < |members| && members[k] == (members[i].0, r.value)
             && forall j :: k < j < |members| ==> members[j].0 != members[i].0;
    assert !(k < i) && !(i < k);
  }
}

=== FILE: llm_response.dfy ===
/** Turning a model's reply into the single JSON text block the browser reads:
    `parse_gemini_response`, `parse_openai_response` and `parse_anthropic_response` of
    the search handler (api/search.py), the local proxy (proxy-server.py) and the
    vector-search handler (api/vector-search.py). `json.loads`, the newline repair
    regex and `json.dumps` are parameters. */
module LlmResponse {
  import opened Common
  import opened Text

  const JsonFence := "```json"
  const Fence := "```"

  /** `s` is a contiguous piece of `t`. */
  ghost predicate IsSlice(s: string, t: string) {
    exists i :: OccursAt(t, s, i)
  }

  lemma SliceOfSlice(a: string, b: string, c: string)
    requires IsSlice(a, b) && IsSlice(b, c)
    ensures IsSlice(a, c)
  {
    var i :| OccursAt(b, a, i);
    var j :| OccursAt(c, b, j);
    assert forall k :: 0 <= k < |b| ==> b[k] == c[j + k];
    assert forall k :: 0 <= k < |a| ==> a[k] == b[i + k];
    assert c[j + i..j + i + |a|] == a;
    assert OccursAt(c, a, j + i);
  }

  lemma TrimIsSlice(s: string)
    ensures IsSlice(Trim(s), s)
  {
    TrimSpec(s);
  }

  /** The three cuts of fence removal on trimmed text: a leading "```json", then a
      leading "```", then a trailing "```". */
  function Unfence(t: string): string {
    var a := if StartsWith(t, JsonFence) then t[|JsonFence|..] else t;
    var b := if StartsWith(a, Fence) then a[|Fence|..] else a;
    if EndsWith(b, Fence) then b[..|b| - |Fence|] else b
  }

  /** Markdown fence removal, identical in every handler: trim, cut the fences, trim
      again. */
  function StripFences(text: string): (r: string)
    ensures IsTrimmed(r)
  {
    TrimSpec(Unfence(Trim(text)));
    Trim(Unfence(Trim(text)))
  }

  lemma SuffixIsSlice(t: string, n: nat)
    requires n <= |t|
    ensures IsSlice(t[n..], t)
  {
    assert OccursAt(t, t[n..], n);
  }

  lemma PrefixIsSlice(t: string, n: nat)
    requires n <= |t|
    ensures IsSlice(t[..n], t)
  {
    assert OccursAt(t, t[..n], 0);
  }

  lemma SelfIsSlice(t: string)
    ensures IsSlice(t, t)
  {
    assert OccursAt(t, t, 0);
  }

  lemma UnfenceIsSlice(t: string)
    ensures IsSlice(Unfence(t), t)
  {
    var k, j := UnfenceCuts(t);
    assert OccursAt(t, Unfence(t), k);
  }

  /** The positions where unfencing cuts the text. */
  lemma UnfenceCuts(t: string) returns (k: nat, j: nat)
    ensures k <= j <= |t| && Unfence(t) == t[k..j]
  {
    var i := if StartsWith(t, JsonFence) then |JsonFence| else 0;
    assert t[i..] == (if StartsWith(t, JsonFence) then t[|JsonFence|..] else t);
    var a := t[i..];
    k := if StartsWith(a, Fence) then i + |Fence| else i;
    assert t[k..] == (if StartsWith(a, Fence) then a[|Fence|..] else a);
    var b := t[k..];
    j := if EndsWith(b, Fence) then |t| - |Fence| else |t|;
    assert t[k..j] == (if EndsWith(b, Fence) then b[..|b| - |Fence|] else b);
  }

  /** Stripping only cuts: the result is a piece of the trimmed reply. */
  lemma StripFencesIsSlice(text: string)
    ensures IsSlice(StripFences(text), Trim(text))
  {
    var u := Unfence(Trim(text));
    UnfenceIsSlice(Trim(text));
    TrimIsSlice(u);
    SliceOfSlice(Trim(u), u, Trim(text));
  }

  /** A JSON fence starts with a plain fence. */
  lemma JsonFenceStartsWithFence(t: string)
    requires StartsWith(t, JsonFence)
    ensures StartsWith(t, Fence)
  {
    assert t[..|Fence|] == t[..|JsonFence|][..|Fence|];
  }

  lemma UnfenceKeepsFenceFree(t: string)
    requires !StartsWith(t, Fence) && !EndsWith(t, Fence)
    ensures Unfence(t) == t
  {
    if StartsWith(t, JsonFence) {
      JsonFenceStartsWithFence(t);
      assert false;
    }
  }

  /** A trimmed reply that neither starts nor ends with a fence comes out as its
      trimmed self. */
  lemma StripFencesKeepsFenceFreeText(text: string)
    requires !StartsWith(Trim(text), Fence) && !EndsWith(Trim(text), Fence)
    ensures StripFences(text) == Trim(text)
  {
    UnfenceKeepsFenceFree(Trim(text));
    TrimIdempotent(text);
  }

  /** On fence-free text stripping is idempotent. */
  lemma StripFencesIdempotentOnFenceFree(text: string)
    requires !StartsWith(Trim(text), Fence) && !EndsWith(Trim(text), Fence)
    ensures StripFences(StripFences(text)) == StripFences(text)
  {
    StripFencesKeepsFenceFreeText(text);
    TrimIdempotent(text);
    StripFencesKeepsFenceFreeText(StripFences(text));
  }

  /** A reply wrapped in plain fences, "```" body "```", yields its trimmed body,
      provided the body does not begin with a backtick or with "json" (which would
      make the opening a JSON fence). */
  lemma StripFencesUnwrapsPlainBlock(body: string)
    requires |body| > 0 && body[0] != '`' && !StartsWith(body, "json")
    ensures StripFences(Fence + body + Fence) == Trim(body)
  {
    var s := Fence + body + Fence;
    assert IsTrimmed(s);
    TrimmedIsFixed(s);
    assert !StartsWith(s, JsonFence) by {
      assert JsonFence[3..7] == "json" && JsonFence[6] == 'n';
      if |body| >= 4 {
        assert s[3..7] == body[..4];
        assert s[..7][3..7] == s[3..7];
      } else {
        assert s[6] == '`';
      }
    }
    assert StartsWith(s, Fence);
    var a := s[|Fence|..];
    assert a == body + Fence;
    assert !StartsWith(a, Fence) by {
      assert a[0] == body[0];
    }
    assert EndsWith(a, Fence);
    assert a[..|a| - |Fence|] == body;
  }

  /** A reply wrapped as "```json" body "```" yields its trimmed body, provided the body
      does not itself begin with a backtick. */
  lemma StripFencesUnwrapsJsonBlock(body: string)
    requires |body| > 0 && body[0] != '`'
    ensures StripFences(JsonFence + body + Fence) == Trim(body)
  {
    var s := JsonFence + body + Fence;
    assert IsTrimmed(s);
    TrimmedIsFixed(s);
    assert StartsWith(s, JsonFence);
    var a := s[|JsonFence|..];
    assert a == body + Fence;
    assert !StartsWith(a, Fence) by {
      assert a[0] == body[0];
    }
    assert EndsWith(a, Fence);
    assert a[..|a| - |Fence|] == body;
  }

  /** The refusal openings each handler rejects before parsing; only the search
      handler also rejects "sorry". */
  const SearchRefusals: seq<string> := ["an error", "i apologize", "i cannot", "sorry"]
  const VectorRefusals: seq<string> := ["an error", "i apologize", "i cannot"]

  predicate IsRefusal(text: string, prefixes: seq<string>) {
    exists j :: 0 <= j < |prefixes| && StartsWith(ToLower(Trim(text)), prefixes[j])
  }

  /** A reply opening with "Sorry" is refused by the search handler only. */
  lemma SorryOnlyRefusedBySearch(text: string)
    requires StartsWith(ToLower(Trim(text)), "sorry")
    ensures IsRefusal(text, SearchRefusals)
    ensures !IsRefusal(text, VectorRefusals)
  {
    SorryOpening(ToLower(Trim(text)));
  }

  /** Text opening with "sorry" opens with the last search refusal and with none of
      the vector-search refusals, which all begin with 'a' or 'i'. */
  lemma SorryOpening(t: string)
    requires StartsWith(t, "sorry")
    ensures StartsWith(t, SearchRefusals[3])
    ensures forall j :: 0 <= j < |VectorRefusals| ==> !StartsWith(t, VectorRefusals[j])
  {
    assert t[0] == "sorry"[0] == 's';
    forall j | 0 <= j < |VectorRefusals| ensures !StartsWith(t, VectorRefusals[j]) {
      assert VectorRefusals[j][0] == 'a' || VectorRefusals[j][0] == 'i';
    }
  }

  /** The regex `\{[\s\S]*\}` in JavaScript and Python: from the first '{' to the last
      '}', found exactly when some '{' comes before some '}'. */
  function BraceSpan(s: string): (r: Option<string>)
    ensures r.None? <==> forall i, j :: 0 <= i < j < |s| && s[i] == '{' ==> s[j] != '}'
    ensures r.Some? ==> |r.value| >= 2 && r.value[0] == '{' && r.value[|r.value| - 1] == '}'
    ensures r.Some? ==> exists i :: OccursAt(s, r.value, i)
                                  && (forall k :: 0 <= k < i ==> s[k] != '{')
                                  && (forall k :: i + |r.value| <= k < |s| ==> s[k] != '}')
  {
    var a := IndexOf(s, '{');
    var b := LastIndexOf(s, '}');
    assert forall k :: 0 <= k < a ==> s[k] != '{' by {
      forall k | 0 <= k < a ensures s[k] != '{' {
        assert s[..a][k] == s[k];
      }
    }
    if a >= 0 && b > a then
      assert OccursAt(s, s[a..b + 1], a);
      Some(s[a..b + 1])
    else
      None
  }

  /** Everything that can go wrong while reading a reply. `Malformed` is a missing key
      or index on the expected path (a `KeyError` or `IndexError`). */
  datatype Failure =
    | ApiError(message: string)
    | Blocked(reason: string)
    | NoCandidates
    | CutOff
    | SafetyBlocked
    | RecitationBlocked
    | UnexpectedStructure(finishReason: string)
    | Malformed
    | Refusal(excerpt: string)
    | InvalidJson

  /** The fields of a Gemini `generateContent` reply the handlers look at. A missing
      `candidates` key reads as no candidates; `parts` is `None` when `content` or
      `content.parts` is missing; an absent `finishReason` is ''; `blockReason` is ''
      unless the prompt feedback carries a truthy one. */
  datatype Candidate = Candidate(finishReason: string, parts: Option<seq<string>>)
  datatype ErrorKey = NoErrorKey | ErrorKey(message: Option<string>)
  datatype GeminiReply = GeminiReply(candidates: seq<Candidate>, error: ErrorKey, blockReason: string)

  /** The three Gemini readers: the search handler checks everything, the vector-search
      handler does not treat RECITATION as an error, the local proxy checks nothing. */
  datatype Reader = SearchReader | VectorReader | ProxyReader

  /** The reply text of a Gemini answer, or why there is none. */
  function GeminiText(reply: GeminiReply, reader: Reader): (r: Result<string, Failure>)
    ensures reader != ProxyReader && |reply.candidates| == 0 ==>
      r == Err(if reply.error.ErrorKey? then ApiError(reply.error.message.GetOr("Unknown error"))
               else if reply.blockReason != "" then Blocked(reply.blockReason)
               else NoCandidates)
    ensures reader != ProxyReader && |reply.candidates| > 0 ==>
      && (reply.candidates[0].finishReason == "MAX_TOKENS" ==> r == Err(CutOff))
      && (reply.candidates[0].finishReason == "SAFETY" ==> r == Err(SafetyBlocked))
      && (reply.candidates[0].finishReason == "RECITATION" && reader == SearchReader ==> r == Err(RecitationBlocked))
    ensures r.Ok? <==> && |reply.candidates| > 0
                       && reply.candidates[0].parts.Some? && |reply.candidates[0].parts.value| > 0
                       && (reader != ProxyReader ==> reply.candidates[0].finishReason !in {"MAX_TOKENS", "SAFETY"})
                       && (reader == SearchReader ==> reply.candidates[0].finishReason != "RECITATION")
    ensures r.Ok? ==> r.value == reply.candidates[0].parts.value[0]
  {
    if |reply.candidates| == 0 then
      if reader == ProxyReader then Err(Malformed)
      else match reply.error
        case ErrorKey(message) => Err(ApiError(message.GetOr("Unknown error")))
        case NoErrorKey => if reply.blockReason != "" then Err(Blocked(reply.blockReason)) else Err(NoCandidates)
    else
      var c := reply.candidates[0];
      if reader != ProxyReader && c.finishReason == "MAX_TOKENS" then Err(CutOff)
      else if reader != ProxyReader && c.finishReason == "SAFETY" then Err(SafetyBlocked)
      else if reader == SearchReader && c.finishReason == "RECITATION" then Err(RecitationBlocked)
      else match c.parts
        case None => if reader == ProxyReader then Err(Malformed) else Err(UnexpectedStructure(c.finishReason))
        case Some(ps) => if |ps| == 0 then Err(Malformed) else Ok(ps[0])
  }

  /** What a reader does to the text before and after `json.loads`: which refusal
      openings it rejects and whether it tries the repair and brace-span fallbacks. */
  datatype Cleanup = Cleanup(refusals: seq<string>, fallback: bool)

  const SearchGeminiCleanup := Cleanup(SearchRefusals, true)
  const VectorGeminiCleanup := Cleanup(VectorRefusals, false)
  /** The OpenAI and Anthropic readers and the proxy's Gemini reader. */
  const PlainCleanup := Cleanup([], false)

  function CleanupFor(reader: Reader): Cleanup {
    match reader
    case SearchReader => SearchGeminiCleanup
    case VectorReader => VectorGeminiCleanup
    case ProxyReader => PlainCleanup
  }

  function Excerpt(text: string): string {
    if |text| <= 200 then text else text[..200]
  }

  /** `json.loads` of the stripped text, followed, when `fallback` is set (the search
      handler's Gemini reader), by the repaired text and then the brace span. */
  function ParseWithFallback<J>(t: string, fallback: bool, parse: string -> Option<J>, repair: string -> string)
    : (r: Option<J>)
    ensures parse(t).Some? ==> r == parse(t)
    ensures !fallback ==> r == parse(t)
    ensures fallback && parse(t).None? && parse(repair(t)).Some? ==> r == parse(repair(t))
    ensures r.Some? ==> exists s :: parse(s) == r
  {
    match parse(t)
    case Some(j) => Some(j)
    case None =>
      if !fallback then None
      else match parse(repair(t))
        case Some(j) => Some(j)
        case None =>
          match BraceSpan(t)
          case Some(span) => parse(span)
          case None => None
  }

  /** When both the direct and the repaired parse fail, the fallback succeeds exactly
      when the brace span exists and parses, and then yields that value. */
  lemma FallbackUsesBraceSpan<J>(t: string, parse: string -> Option<J>, repair: string -> string)
    requires parse(t).None? && parse(repair(t)).None?
    ensures ParseWithFallback(t, true, parse, repair).Some? <==> BraceSpan(t).Some? && parse(BraceSpan(t).value).Some?
    ensures ParseWithFallback(t, true, parse, repair).Some? ==> ParseWithFallback(t, true, parse, repair) == parse(BraceSpan(t).value)
  {
  }

  /** The decoded JSON of a reply text. A refusal is never parsed; otherwise the
      fence-stripped text is parsed, with the reader's fallbacks, and `InvalidJson`
      (the first parse error) is reported when all fail. */
  function DecodeText<J>(text: string, cleanup: Cleanup, parse: string -> Option<J>, repair: string -> string)
    : (r: Result<J, Failure>)
    ensures IsRefusal(text, cleanup.refusals) ==> r == Err(Refusal(Excerpt(text)))
    ensures !IsRefusal(text, cleanup.refusals) ==>
      (r.Ok? <==> ParseWithFallback(StripFences(text), cleanup.fallback, parse, repair).Some?)
    ensures r.Ok? ==> Some(r.value) == ParseWithFallback(StripFences(text), cleanup.fallback, parse, repair)
    ensures r.Err? ==> r.error == InvalidJson || r.error.Refusal?
  {
    if IsRefusal(text, cleanup.refusals) then Err(Refusal(Excerpt(text)))
    else
      match ParseWithFallback(StripFences(text), cleanup.fallback, parse, repair)
      case Some(j) => Ok(j)
      case None => Err(InvalidJson)
  }

  /** A fenced, parseable reply that is not a refusal decodes to its body's value, in
      every reader. */
  lemma FencedReplyDecodes<J>(body: string, cleanup: Cleanup, parse: string -> Option<J>, repair: string -> string)
    requires |body| > 0 && body[0] != '`'
    requires !IsRefusal(JsonFence + body + Fence, cleanup.refusals)
    requires parse(Trim(body)).Some?
    ensures DecodeText(JsonFence + body + Fence, cleanup, parse, repair) == Ok(parse(Trim(body)).value)
  {
    StripFencesUnwrapsJsonBlock(body);
  }

  /** One block of an Anthropic-style `content` array. */
  datatype ContentBlock = ContentBlock(kind: string, text: string)

  /** The normalised success reply: a single text block holding the re-serialised JSON. */
  function Normalise<J>(j: J, dumps: J -> string): (blocks: seq<ContentBlock>)
    ensures |blocks| == 1 && blocks[0].kind == "text" && blocks[0].text == dumps(j)
  {
    [ContentBlock("text", dumps(j))]
  }

  /** `parse_gemini_response` of the given handler. */
  function ParseGemini<J>(reply: GeminiReply, reader: Reader, parse: string -> Option<J>,
                          repair: string -> string, dumps: J -> string): (r: Result<seq<ContentBlock>, Failure>)
    ensures r.Ok? <==> GeminiText(reply, reader).Ok?
                       && DecodeText(GeminiText(reply, reader).value, CleanupFor(reader), parse, repair).Ok?
    ensures r.Ok? ==> r.value == Normalise(DecodeText(GeminiText(reply, reader).value, CleanupFor(reader), parse, repair).value, dumps)
    ensures GeminiText(reply, reader).Err? ==> r == Err(GeminiText(reply, reader).error)
  {
    match GeminiText(reply, reader)
    case Err(e) => Err(e)
    case Ok(text) =>
      match DecodeText(text, CleanupFor(reader), parse, repair)
      case Err(e) => Err(e)
      case Ok(j) => Ok(Normalise(j, dumps))
  }

  /** `parse_openai_response` (`choices[0].message.content`) and the vector-search
      `parse_anthropic_response` (`content[0].text`): no checks, no fallback. `text` is
      `None` when that path is missing. */
  function ParseChat<J>(text: Option<string>, parse: string -> Option<J>, dumps: J -> string)
    : (r: Result<seq<ContentBlock>, Failure>)
    ensures text.None? ==> r == Err(Malformed)
    ensures text.Some? ==> (r.Ok? <==> parse(StripFences(text.value)).Some?)
    ensures r.Ok? ==> r.value == Normalise(parse(StripFences(text.value)).value, dumps)
    ensures r.Err? ==> r.error == Malformed || r.error == InvalidJson
  {
    match text
    case None => Err(Malformed)
    case Some(t) =>
      match DecodeText(t, PlainCleanup, parse, (s: string) => s)
      case Err(e) => Err(e)
      case Ok(j) => Ok(Normalise(j, dumps))
  }
}

=== FILE: profiles.dfy ===
/** One conference attendee record, as the LinkedIn extractor produces it and the
    browser keeps it. Optional scalar fields are `Option<string>` (`None` is an absent
    key); fields of list entries are plain strings, an absent one read as ''. */
module Profiles {
  import opened Common

  /** The opaque identifier assigned when a record is added. The source compares ids
      with loose `==`; here that is equality on one type. */
  type Id = int

  /** `about` is either a plain string or a `{title, text}` object. */
  datatype About =
    | NoAbout
    | AboutText(text: string)
    | AboutRecord(title: Option<string>, body: Option<string>)

  datatype Experience = Experience(title: string, company: string, duration: string, description: string)
  datatype Education = Education(school: string, degree: string, duration: string)
  datatype Organization = Organization(name: string, role: string, duration: string)
  datatype Volunteering = Volunteering(role: string, organization: string, duration: string)
  datatype Project = Project(name: string, role: string, duration: string, description: string)
  datatype Award = Award(name: string, date: string, description: string)

  /** `addedAt` is the creation time as an integer; the source stores an ISO string and
      compares the parsed dates. */
  datatype Profile = Profile(
    id: Id,
    addedAt: int,
    name: Option<string>,
    url: Option<string>,
    headline: Option<string>,
    location: Option<string>,
    school: Option<string>,
    image: Option<string>,
    about: About,
    experience: seq<Experience>,
    education: seq<Education>,
    skills: seq<string>,
    organizations: seq<Organization>,
    volunteering: seq<Volunteering>,
    projects: seq<Project>,
    awards: seq<Award>,
    languages: seq<string>,
    interests: seq<string>)
}

=== FILE: routing.dfy ===
/** The request handling of the three search back ends: which requests are refused
    before any upstream call, which upstream model each accepted request reaches, and
    how an upstream HTTP error is reported to the browser. The upstream calls
    themselves are not part of this model. */
module Routing {
  import opened Common
  import opened Text
  import opened JsonData
  import opened Rows

  /** What a handler does with a request before any upstream answer exists. `Crash`
      is an exception the handler's last `except` turns into a 500 carrying the
      exception text. */
  datatype Route =
    | Preflight
    | Reject(status: int, error: string)
    | Crash
    | CallAnthropic(modelId: string)
    | CallGemini(modelId: string)
    | CallOpenAI(modelId: string)

  predicate IsCall(r: Route) {
    r.CallAnthropic? || r.CallGemini? || r.CallOpenAI?
  }

  /** A value placed in an f-string: text as it is, anything else as Python shows it. */
  function Shown(j: Json, show: Json -> string): (r: string)
    ensures j.JStr? ==> r == j.s
  {
    if j.JStr? then j.s else show(j)
  }

  const AnthropicModelId := "claude-sonnet-4-20250514"
  const QueryRequired := "Search query is required"

  // ---- api/search.py ----

  const SearchDefaultModel := "gemini-3-flash"

  /** `handler.do_POST` of api/search.py up to the upstream call. `data` is the decoded
      body (None when it does not decode); the keys are the server's environment. */
  function SearchRoute(data: Option<Json>, googleKey: string, anthropicKey: string, show: Json -> string): (r: Route)
    ensures data.None? || !data.value.JObj? ==> r == Crash
    ensures data.Some? && data.value.JObj? && !PyTruthy(GetOr(data.value.members, "query", JNull)) ==>
                  r == Reject(400, QueryRequired)
    ensures r.CallAnthropic? <==> data.Some? && data.value.JObj? && PyTruthy(GetOr(data.value.members, "query", JNull))
                                  && Get(data.value.members, "model") == Some(JStr("claude-sonnet")) && anthropicKey != ""
    ensures r.CallAnthropic? ==> r.modelId == AnthropicModelId
    ensures r.CallGemini? ==> googleKey != "" && PyTruthy(GetOr(data.value.members, "query", JNull))
                              && (r.modelId == "gemini-3-pro-preview" || r.modelId == "gemini-3-flash-preview")
    ensures !r.CallOpenAI? && !r.Preflight?
    ensures r.Reject? ==> r.status in {400, 500}
    ensures data.Some? && data.value.JObj? && PyTruthy(GetOr(data.value.members, "query", JNull)) ==>
              var model := GetOr(data.value.members, "model", JStr(SearchDefaultModel));
              && (model == JStr("claude-sonnet") && anthropicKey == "" ==>
                    r == Reject(500, "Anthropic API key not configured on server"))
              && (!model.JStr? ==> r == Crash)
              && (model.JStr? && model.s != "claude-sonnet" && StartsWith(model.s, "gemini") && googleKey == "" ==>
                    r == Reject(500, "Google API key not configured on server"))
              && (model.JStr? && model.s != "claude-sonnet"
                  && (!StartsWith(model.s, "gemini")
                      || (googleKey != "" && model.s != "gemini-3-pro" && model.s != "gemini-3-flash")) ==>
                    r == Reject(400, "Invalid model: " + model.s))
  {
    match data
    case None => Crash
    case Some(body) =>
      if !body.JObj? then Crash
      else
        var query := GetOr(body.members, "query", JNull);
        var model := GetOr(body.members, "model", JStr(SearchDefaultModel));
        if !PyTruthy(query) then Reject(400, QueryRequired)
        else if model == JStr("claude-sonnet") then
          if anthropicKey == "" then Reject(500, "Anthropic API key not configured on server")
          else CallAnthropic(AnthropicModelId)
        else if !model.JStr? then Crash
        else if StartsWith(model.s, "gemini") then
          if googleKey == "" then Reject(500, "Google API key not configured on server")
          else if model.s == "gemini-3-pro" then CallGemini("gemini-3-pro-preview")
          else if model.s == "gemini-3-flash" then CallGemini("gemini-3-flash-preview")
          else Reject(400, "Invalid model: " + model.s)
        else Reject(400, "Invalid model: " + model.s)
  }

  /** Only the two Gemini 3 names reach Gemini, each its own preview model; a body
      without a model is a Gemini 3 Flash request. */
  lemma SearchGeminiNames(data: seq<(string, Json)>, googleKey: string, anthropicKey: string, show: Json -> string)
    requires PyTruthy(GetOr(data, "query", JNull)) && googleKey != ""
    ensures var r := SearchRoute(Some(JObj(data)), googleKey, anthropicKey, show);
            r == CallGemini("gemini-3-flash-preview") <==>
                  Get(data, "model").None? || Get(data, "model") == Some(JStr("gemini-3-flash"))
    ensures var r := SearchRoute(Some(JObj(data)), googleKey, anthropicKey, show);
            r == CallGemini("gemini-3-pro-preview") <==> Get(data, "model") == Some(JStr("gemini-3-pro"))
  {
    var r := SearchRoute(Some(JObj(data)), googleKey, anthropicKey, show);
    assert !StartsWith("claude-sonnet", "gemini") by {
      assert "claude-sonnet"[0] != "gemini"[0];
    }
  }

  /** A model name the table does not know is refused with 400 naming it, and only
      after the query check; a known prefix without its key is a 500 instead. */
  lemma SearchUnknownModelRefused(data: seq<(string, Json)>, googleKey: string, anthropicKey: string,
                                  show: Json -> string, m: string)
    requires PyTruthy(GetOr(data, "query", JNull)) && Get(data, "model") == Some(JStr(m))
    requires m != "claude-sonnet" && m != "gemini-3-pro" && m != "gemini-3-flash"
    ensures var r := SearchRoute(Some(JObj(data)), googleKey, anthropicKey, show);
            r == if StartsWith(m, "gemini") && googleKey == "" then Reject(500, "Google API key not configured on server")
                 else Reject(400, "Invalid model: " + m)
  {
  }

  // ---- proxy-server.py ----

  const ProxyDefaultModel := "gemini-pro"

  /** The upstream call for each of the five model names the proxy knows. */
  function ProxyModel(m: string): (r: Option<Route>)
    ensures r.Some? ==> IsCall(r.value)
    ensures r.Some? <==> m in {"claude-sonnet", "gemini-pro", "gemini-flash", "gpt-4o", "gpt-4o-mini"}
    ensures m == "claude-sonnet" ==> r == Some(CallAnthropic("claude-sonnet-4-20250514"))
    ensures m == "gemini-pro" ==> r == Some(CallGemini("gemini-1.5-pro-latest"))
    ensures m == "gemini-flash" ==> r == Some(CallGemini("gemini-1.5-flash-latest"))
    ensures m == "gpt-4o" ==> r == Some(CallOpenAI("gpt-4o"))
    ensures m == "gpt-4o-mini" ==> r == Some(CallOpenAI("gpt-4o-mini"))
  {
    if m == "claude-sonnet" then Some(CallAnthropic(AnthropicModelId))
    else if m == "gemini-pro" then Some(CallGemini("gemini-1.5-pro-latest"))
    else if m == "gemini-flash" then Some(CallGemini("gemini-1.5-flash-latest"))
    else if m == "gpt-4o" then Some(CallOpenAI("gpt-4o"))
    else if m == "gpt-4o-mini" then Some(CallOpenAI("gpt-4o-mini"))
    else None
  }

  /** Whether `value[:50]` works on a truthy decoded value: only text and arrays slice. */
  predicate Sliceable(j: Json) {
    j.JStr? || j.JArr?
  }

  /** Flask's answer to a verb the route does not list. */
  const MethodNotAllowed := "Method Not Allowed"

  /** `proxy_search` up to the upstream call. The route accepts POST and OPTIONS only;
      Flask answers any other verb with 405 before the handler runs. The progress log
      slices a truthy query, which raises for a value that is neither text nor an array. */
  function ProxyRoute(verb: string, data: Option<Json>, show: Json -> string): (r: Route)
    ensures verb == "OPTIONS" <==> r == Preflight
    ensures verb != "POST" && verb != "OPTIONS" <==> r == Reject(405, MethodNotAllowed)
    ensures verb == "POST" && (data.None? || !data.value.JObj?) ==> r == Crash
    ensures IsCall(r) <==> verb == "POST" && data.Some? && data.value.JObj?
                           && PyTruthy(GetOr(data.value.members, "apiKey", JNull))
                           && PyTruthy(GetOr(data.value.members, "query", JNull))
                           && Sliceable(GetOr(data.value.members, "query", JNull))
                           && GetOr(data.value.members, "model", JStr(ProxyDefaultModel)).JStr?
                           && ProxyModel(GetOr(data.value.members, "model", JStr(ProxyDefaultModel)).s).Some?
    ensures IsCall(r) ==> r == ProxyModel(GetOr(data.value.members, "model", JStr(ProxyDefaultModel)).s).value
    ensures verb == "POST" && r.Reject? ==> r.status == 400
    ensures verb == "POST" && data.Some? && data.value.JObj? ==>
              var apiKey := GetOr(data.value.members, "apiKey", JNull);
              var query := GetOr(data.value.members, "query", JNull);
              var model := GetOr(data.value.members, "model", JStr(ProxyDefaultModel));
              && (PyTruthy(query) && !Sliceable(query) ==> r == Crash)
              && (!PyTruthy(apiKey) && (!PyTruthy(query) || Sliceable(query)) ==> r == Reject(400, "API key is required"))
              && (PyTruthy(apiKey) && !PyTruthy(query) ==> r == Reject(400, QueryRequired))
              && (PyTruthy(apiKey) && PyTruthy(query) && Sliceable(query) && !(model.JStr? && ProxyModel(model.s).Some?) ==>
                    r == Reject(400, "Invalid model: " + Shown(model, show)))
  {
    if verb == "OPTIONS" then Preflight
    else if verb != "POST" then Reject(405, MethodNotAllowed)
    else match data
      case None => Crash
      case Some(body) =>
        if !body.JObj? then Crash
        else
          var apiKey := GetOr(body.members, "apiKey", JNull);
          var query := GetOr(body.members, "query", JNull);
          var model := GetOr(body.members, "model", JStr(ProxyDefaultModel));
          if PyTruthy(query) && !Sliceable(query) then Crash
          else if !PyTruthy(apiKey) then Reject(400, "API key is required")
          else if !PyTruthy(query) then Reject(400, QueryRequired)
          else if model.JStr? && ProxyModel(model.s).Some? then ProxyModel(model.s).value
          else Reject(400, "Invalid model: " + Shown(model, show))
  }

  /** The API key is checked before the query: a request lacking both is refused for
      the key. */
  lemma ProxyChecksKeyFirst(data: seq<(string, Json)>, show: Json -> string)
    requires !PyTruthy(GetOr(data, "apiKey", JNull)) && !PyTruthy(GetOr(data, "query", JNull))
    ensures ProxyRoute("POST", Some(JObj(data)), show) == Reject(400, "API key is required")
  {
  }

  // ---- api/vector-search.py ----

  const VectorDefaultModel := "gemini-flash"
  const NoCloudMatches := "No matching attendees found in cloud database. Make sure you have synced your profiles."

  /** `call_gemini_api`'s model map: None when the name cannot be a dictionary key. */
  function VectorGeminiModel(model: Json): (r: Option<string>)
    ensures r.None? <==> model.JArr? || model.JObj?
    ensures model == JStr("gemini-flash") ==> r == Some("gemini-2.0-flash")
    ensures model == JStr("gemini-pro") ==> r == Some("gemini-2.5-pro-preview-06-05")
    ensures r.Some? && model != JStr("gemini-pro") ==> r == Some("gemini-2.0-flash")
  {
    if model.JArr? || model.JObj? then None
    else if model == JStr("gemini-pro") then Some("gemini-2.5-pro-preview-06-05")
    else Some("gemini-2.0-flash")
  }

  /** What the vector search does next. */
  datatype VectorStep =
    | VectorRefused(route: Route)
    | Answer(status: int, body: Json)
    | Analyse(route: Route, attendees: seq<Row>)

  /** The validation of `do_POST` in order: query, database configuration, Google
      key, then the Anthropic key for "claude". */
  function VectorValidate(data: Option<Json>, databaseConfigured: bool, googleKey: string, anthropicKey: string): (r: Option<Route>)
    ensures r.Some? ==> r.value == Crash || r.value.Reject?
    ensures data.Some? && data.value.JObj? && !PyTruthy(GetOr(data.value.members, "query", JNull)) ==>
                  r == Some(Reject(400, QueryRequired))
    ensures r.None? <==> data.Some? && data.value.JObj? && PyTruthy(GetOr(data.value.members, "query", JNull))
                         && databaseConfigured && googleKey != ""
                         && (GetOr(data.value.members, "model", JStr(VectorDefaultModel)) == JStr("claude") ==> anthropicKey != "")
    ensures data.None? || !data.value.JObj? ==> r == Some(Crash)
    ensures data.Some? && data.value.JObj? && PyTruthy(GetOr(data.value.members, "query", JNull)) ==>
              && (!databaseConfigured ==> r == Some(Reject(500, "Supabase not configured")))
              && (databaseConfigured && googleKey == "" ==> r == Some(Reject(500, "Google API key not configured")))
              && (databaseConfigured && googleKey != ""
                  && GetOr(data.value.members, "model", JStr(VectorDefaultModel)) == JStr("claude") && anthropicKey == "" ==>
                    r == Some(Reject(500, "Anthropic API key not configured")))
  {
    match data
    case None => Some(Crash)
    case Some(body) =>
      if !body.JObj? then Some(Crash)
      else
        var query := GetOr(body.members, "query", JNull);
        var model := GetOr(body.members, "model", JStr(VectorDefaultModel));
        if !PyTruthy(query) then Some(Reject(400, QueryRequired))
        else if !databaseConfigured then Some(Reject(500, "Supabase not configured"))
        else if googleKey == "" then Some(Reject(500, "Google API key not configured"))
        else if model == JStr("claude") && anthropicKey == "" then Some(Reject(500, "Anthropic API key not configured"))
        else None
  }

  /** The fixed reply to a search the database finds nothing for. */
  function NoMatchesReply(dumps: Json -> string): Json {
    JObj([("content", JArr([JObj([("type", JStr("text")),
                                  ("text", JStr(dumps(JObj([("summary", JStr(NoCloudMatches)), ("matches", JArr([]))]))))])]))])
  }

  /** `do_POST` of the vector search once the similar rows are known: the validation
      result, the fixed empty answer, or the model that analyses the formatted rows. */
  function VectorStepFor(data: Option<Json>, databaseConfigured: bool, googleKey: string, anthropicKey: string,
                         similar: seq<Row>, parse: string -> Option<Json>, dumps: Json -> string): (r: VectorStep)
    ensures VectorValidate(data, databaseConfigured, googleKey, anthropicKey).Some? ==>
                  r == VectorRefused(VectorValidate(data, databaseConfigured, googleKey, anthropicKey).value)
    ensures VectorValidate(data, databaseConfigured, googleKey, anthropicKey).None? && |similar| == 0 ==>
                  r == Answer(200, NoMatchesReply(dumps))
    ensures r.Analyse? ==> |similar| > 0 && IsCall(r.route) && r.attendees == FormatAttendees(similar, parse)
    ensures r.Analyse? && r.route.CallAnthropic? ==>
                  GetOr(data.value.members, "model", JStr(VectorDefaultModel)) == JStr("claude") && anthropicKey != ""
    ensures VectorValidate(data, databaseConfigured, googleKey, anthropicKey).None? && |similar| > 0 ==>
              var model := GetOr(data.value.members, "model", JStr(VectorDefaultModel));
              && (r.Analyse? <==> model == JStr("claude") || VectorGeminiModel(model).Some?)
              && (!r.Analyse? ==> r == VectorRefused(Crash))
              && (model == JStr("claude") ==> r.Analyse? && r.route == CallAnthropic(AnthropicModelId))
              && (model != JStr("claude") && r.Analyse? ==> r.route == CallGemini(VectorGeminiModel(model).value))
  {
    match VectorValidate(data, databaseConfigured, googleKey, anthropicKey)
    case Some(refusal) => VectorRefused(refusal)
    case None =>
      if |similar| == 0 then Answer(200, NoMatchesReply(dumps))
      else
        var model := GetOr(data.value.members, "model", JStr(VectorDefaultModel));
        if model == JStr("claude") then Analyse(CallAnthropic(AnthropicModelId), FormatAttendees(similar, parse))
        else match VectorGeminiModel(model)
          case None => VectorRefused(Crash)
          case Some(id) => Analyse(CallGemini(id), FormatAttendees(similar, parse))
  }

  /** With no similar rows no model is asked, whatever the model name. */
  lemma EmptySimilarityAsksNoModel(data: Option<Json>, databaseConfigured: bool, googleKey: string, anthropicKey: string,
                                   parse: string -> Option<Json>, dumps: Json -> string)
    ensures !VectorStepFor(data, databaseConfigured, googleKey, anthropicKey, [], parse, dumps).Analyse?
  {
  }

  // ---- upstream HTTP errors ----

  /** The error reply the browser receives. */
  datatype ErrorReply = ErrorReply(status: int, error: string, details: string)

  const InvalidKey := "Invalid API key"
  const InvalidKeyDetails := "Your API key is invalid. Please check your key and try again. Error: "

  /** The `error` object of a decoded error body, when the body is an object whose
      `error` (default `{}`) is an object too. */
  function ErrorObject(parsed: Option<Json>): (r: Option<seq<(string, Json)>>)
    ensures r.Some? ==> parsed.Some? && parsed.value.JObj?
  {
    if parsed.Some? && parsed.value.JObj? && GetOr(parsed.value.members, "error", JObj([])).JObj?
    then Some(GetOr(parsed.value.members, "error", JObj([])).members)
    else None
  }

  /** The search handler's and the proxy's reading of an upstream error: `gemini` when
      the model name starts with "gemini", whose bodies have no usable type. Any
      exception while reading it gives the generic reply with the raw body. */
  function ClassifyUpstreamError(gemini: bool, code: int, parsed: Option<Json>, raw: string, show: Json -> string): (r: ErrorReply)
    ensures r.status == 401 || r.status == code
    ensures r.error == InvalidKey || r.status == code
    ensures ErrorObject(parsed).None? ==> r == ErrorReply(code, "API request failed: " + IntToString(code), raw)
    ensures r.error == InvalidKey ==> r.status == 401 && StartsWith(r.details, InvalidKeyDetails)
  {
    var fallback := ErrorReply(code, "API request failed: " + IntToString(code), raw);
    match ErrorObject(parsed)
    case None => fallback
    case Some(err) =>
      var message := GetOr(err, "message", JStr("Unknown error"));
      var kind := if gemini then JStr("api_error") else GetOr(err, "type", JStr("unknown"));
      if !kind.JStr? then fallback
      else if Contains(ToLower(kind.s), "authentication") then
        ErrorReply(401, InvalidKey, InvalidKeyDetails + Shown(message, show))
      else if !message.JStr? then fallback
      else if Contains(ToLower(message.s), "auth") then ErrorReply(401, InvalidKey, InvalidKeyDetails + message.s)
      else
        ApiErrorTextDiffers(kind.s);
        ErrorReply(code, "API error (" + kind.s + ")", message.s)
  }

  lemma ApiErrorTextDiffers(kind: string)
    ensures "API error (" + kind + ")" != InvalidKey
  {
    assert ("API error (" + kind + ")")[1] == 'P' && InvalidKey[1] == 'n';
  }

  /** A readable error is 401 exactly when its type mentions "authentication" or its
      message "auth", ignoring case; otherwise it keeps the upstream status, type and
      message. */
  lemma ClassifyReadableError(code: int, err: seq<(string, Json)>, raw: string, show: Json -> string,
                              kind: string, message: string)
    requires Get(err, "type") == Some(JStr(kind)) && Get(err, "message") == Some(JStr(message))
    ensures var r := ClassifyUpstreamError(false, code, Some(JObj([("error", JObj(err))])), raw, show);
            && (r.status == 401 && r.error == InvalidKey <==>
                      Contains(ToLower(kind), "authentication") || Contains(ToLower(message), "auth"))
            && (!Contains(ToLower(kind), "authentication") && !Contains(ToLower(message), "auth") ==>
                      r == ErrorReply(code, "API error (" + kind + ")", message))
  {
    var body: seq<(string, Json)> := [("error", JObj(err))];
    GetUnshadowed(body, 0);
    assert ErrorObject(Some(JObj(body))) == Some(err);
    ApiErrorTextDiffers(kind);
  }

  /** For a Gemini model the type is fixed, so only the message can make an error an
      authentication error. */
  lemma GeminiAuthOnlyFromMessage(code: int, parsed: Option<Json>, raw: string, show: Json -> string)
    requires code != 401
    ensures var r := ClassifyUpstreamError(true, code, parsed, raw, show);
            r.status == 401 <==> ErrorObject(parsed).Some?
                                 && GetOr(ErrorObject(parsed).value, "message", JStr("Unknown error")).JStr?
                                 && Contains(ToLower(GetOr(ErrorObject(parsed).value, "message", JStr("Unknown error")).s), "auth")
  {
    assert !Contains(ToLower("api_error"), "authentication") by {
      assert |ToLower("api_error")| < |"authentication"|;
    }
  }

  /** The vector search reports every upstream error with its status and raw body. */
  function VectorUpstreamError(code: int, raw: string): (r: ErrorReply)
    ensures r.status == code && r.details == raw
    ensures StartsWith(r.error, "API error: ")
  {
    ErrorReply(code, "API error: " + IntToString(code), raw)
  }
}

=== FILE: rows.dfy ===
/** The attendee rows of the cloud database: how `upsert_attendee`
    (api/sync-attendees.py) shapes a browser record into a row, and how
    `format_attendees_for_ai` (api/vector-search.py) shapes a row for the model. A row
    is an ordered list of members, as a Python dict keeps insertion order. */
module Rows {
  import opened Common
  import opened JsonData
  import opened Profiles

  type Row = seq<(string, Json)>

  /** The keys `format_attendees_for_ai` always writes, in order. */
  const ScalarKeys: seq<string> := ["id", "name", "headline", "location", "school", "url", "image", "about"]
  /** Keys stored as JSON text and decoded again when truthy. */
  const EncodedKeys: seq<string> := ["experience", "education", "organizations", "volunteering", "projects", "awards"]
  /** Keys copied when truthy. */
  const ListKeys: seq<string> := ["skills", "languages", "interests"]

  lemma GetAppend(x: Row, y: Row, k: string)
    ensures Get(x + y, k) == if Get(y, k).Some? then Get(y, k) else Get(x, k)
  {
    var r := Get(x + y, k);
    if Get(y, k).Some? {
      var i :| 0 <= i < |y| && y[i] == (k, Get(y, k).value) && forall j :: i < j < |y| ==> y[j].0 != k;
      assert (x + y)[|x| + i] == y[i];
      assert forall j :: |x| + i < j < |x + y| ==> (x + y)[j] == y[j - |x|];
      var i' :| 0 <= i' < |x + y| && (x + y)[i'] == (k, r.value) && forall j :: i' < j < |x + y| ==> (x + y)[j].0 != k;
      assert i' == |x| + i;
    } else {
      assert forall j :: |x| <= j < |x + y| ==> (x + y)[j] == y[j - |x|];
      if Get(x, k).Some? {
        var i :| 0 <= i < |x| && x[i] == (k, Get(x, k).value) && forall j :: i < j < |x| ==> x[j].0 != k;
        assert (x + y)[i] == x[i];
        var i' :| 0 <= i' < |x + y| && (x + y)[i'] == (k, r.value) && forall j :: i' < j < |x + y| ==> (x + y)[j].0 != k;
        assert i' == i;
      } else {
        assert forall j :: 0 <= j < |x| ==> (x + y)[j] == x[j];
      }
    }
  }

  /** A JSON-text field as the vector search reads it: decoded when it parses, kept as
      text when it does not; a value that is not text is kept as it is. */
  function DecodeField(v: Json, parse: string -> Option<Json>): (r: Json)
    ensures v.JStr? && parse(v.s).Some? ==> r == parse(v.s).value
    ensures !(v.JStr? && parse(v.s).Some?) ==> r == v
  {
    match v
    case JStr(s) => parse(s).GetOr(v)
    case _ => v
  }

  /** The members the loops over `keys` add: one per truthy value, decoded when
      `decode` is set. */
  function OptionalMembers(a: Row, keys: seq<string>, decode: bool, parse: string -> Option<Json>): (r: Row)
    ensures forall i :: 0 <= i < |r| ==> r[i].0 in keys
  {
    if |keys| == 0 then []
    else
      var v := GetOr(a, keys[0], JNull);
      var rest := OptionalMembers(a, keys[1..], decode, parse);
      if PyTruthy(v) then [(keys[0], if decode then DecodeField(v, parse) else v)] + rest else rest
  }

  lemma {:induction false} GetOptionalMembers(a: Row, keys: seq<string>, decode: bool, parse: string -> Option<Json>, k: string)
    ensures var v := GetOr(a, k, JNull);
            Get(OptionalMembers(a, keys, decode, parse), k)
              == if k in keys && PyTruthy(v) then Some(if decode then DecodeField(v, parse) else v) else None
    decreases |keys|
  {
    if |keys| > 0 {
      GetOptionalMembers(a, keys[1..], decode, parse, k);
      var v := GetOr(a, keys[0], JNull);
      var rest := OptionalMembers(a, keys[1..], decode, parse);
      if PyTruthy(v) {
        GetAppend([(keys[0], if decode then DecodeField(v, parse) else v)], rest, k);
      }
      assert k in keys <==> k == keys[0] || k in keys[1..];
    }
  }

  /** `format_attendees_for_ai` for one row: the eight scalar keys (null when missing),
      then the truthy JSON-text fields decoded, then the truthy list fields. */
  function FormatAttendee(a: Row, parse: string -> Option<Json>): (r: Row)
    ensures |r| >= |ScalarKeys|
    ensures forall i :: 0 <= i < |ScalarKeys| ==> r[i] == (ScalarKeys[i], GetOr(a, ScalarKeys[i], JNull))
  {
    ScalarMembers(a) + OptionalMembers(a, EncodedKeys, true, parse) + OptionalMembers(a, ListKeys, false, parse)
  }

  /** The scalar members of a formatted row, before the optional ones. */
  function ScalarMembers(a: Row): (r: Row)
    ensures |r| == |ScalarKeys|
    ensures forall i :: 0 <= i < |r| ==> r[i] == (ScalarKeys[i], GetOr(a, ScalarKeys[i], JNull))
  {
    seq(|ScalarKeys|, i requires 0 <= i < |ScalarKeys| => (ScalarKeys[i], GetOr(a, ScalarKeys[i], JNull)))
  }

  lemma ScalarMembersLack(a: Row, k: string)
    requires k !in ScalarKeys
    ensures Get(ScalarMembers(a), k).None?
  {
    var s := ScalarMembers(a);
    forall i | 0 <= i < |s| ensures s[i].0 != k {
      assert s[i].0 == ScalarKeys[i];
    }
  }

  /** Reading the formatted row: a JSON-text field is present exactly when truthy and
      holds its decoded value. */
  lemma FormatAttendeeEncoded(a: Row, parse: string -> Option<Json>, k: string)
    requires k in EncodedKeys
    ensures Get(FormatAttendee(a, parse), k)
              == if PyTruthy(GetOr(a, k, JNull)) then Some(DecodeField(GetOr(a, k, JNull), parse)) else None
  {
    var enc := OptionalMembers(a, EncodedKeys, true, parse);
    var lists := OptionalMembers(a, ListKeys, false, parse);
    assert FormatAttendee(a, parse) == (ScalarMembers(a) + enc) + lists;
    assert k !in ListKeys && k !in ScalarKeys;
    GetOptionalMembers(a, ListKeys, false, parse, k);
    GetAppend(ScalarMembers(a) + enc, lists, k);
    GetOptionalMembers(a, EncodedKeys, true, parse, k);
    ScalarMembersLack(a, k);
    GetAppend(ScalarMembers(a), enc, k);
  }

  /** Reading the formatted row: a list field is present exactly when truthy, unchanged. */
  lemma FormatAttendeeList(a: Row, parse: string -> Option<Json>, k: string)
    requires k in ListKeys
    ensures Get(FormatAttendee(a, parse), k) == if PyTruthy(GetOr(a, k, JNull)) then Some(GetOr(a, k, JNull)) else None
  {
    var enc := OptionalMembers(a, EncodedKeys, true, parse);
    var lists := OptionalMembers(a, ListKeys, false, parse);
    assert FormatAttendee(a, parse) == (ScalarMembers(a) + enc) + lists;
    assert k !in EncodedKeys && k !in ScalarKeys;
    GetOptionalMembers(a, ListKeys, false, parse, k);
    GetAppend(ScalarMembers(a) + enc, lists, k);
    GetOptionalMembers(a, EncodedKeys, true, parse, k);
    ScalarMembersLack(a, k);
    GetAppend(ScalarMembers(a), enc, k);
  }

  /** `format_attendees_for_ai`: one formatted row per input row, in order. */
  function FormatAttendees(rows: seq<Row>, parse: string -> Option<Json>): (r: seq<Row>)
    ensures |r| == |rows|
    ensures forall i :: 0 <= i < |rows| ==> r[i] == FormatAttendee(rows[i], parse)
  {
    seq(|rows|, i requires 0 <= i < |rows| => FormatAttendee(rows[i], parse))
  }

  // ---- upsert_attendee ----

  function OptText(o: Option<string>): Json {
    match o
    case Some(s) => JStr(s)
    case None => JNull
  }

  function Texts(xs: seq<string>): Json {
    JArr(seq(|xs|, i requires 0 <= i < |xs| => JStr(xs[i])))
  }

  /** The JSON form of each kind of list entry. */
  function ExperienceJson(e: Experience): Json {
    JObj([("title", JStr(e.title)), ("company", JStr(e.company)), ("duration", JStr(e.duration)), ("description", JStr(e.description))])
  }
  function EducationJson(e: Education): Json {
    JObj([("school", JStr(e.school)), ("degree", JStr(e.degree)), ("duration", JStr(e.duration))])
  }
  function OrganizationJson(o: Organization): Json {
    JObj([("name", JStr(o.name)), ("role", JStr(o.role)), ("duration", JStr(o.duration))])
  }
  function VolunteeringJson(v: Volunteering): Json {
    JObj([("role", JStr(v.role)), ("organization", JStr(v.organization)), ("duration", JStr(v.duration))])
  }
  function ProjectJson(p: Project): Json {
    JObj([("name", JStr(p.name)), ("role", JStr(p.role)), ("duration", JStr(p.duration)), ("description", JStr(p.description))])
  }
  function AwardJson(a: Award): Json {
    JObj([("name", JStr(a.name)), ("date", JStr(a.date)), ("description", JStr(a.description))])
  }

  function EntryList<E>(xs: seq<E>, enc: E -> Json): Json {
    JArr(seq(|xs|, i requires 0 <= i < |xs| => enc(xs[i])))
  }

  /** A record's list fields as JSON, in `EncodedKeys` order. */
  function EntryLists(p: Profile): (r: seq<Json>)
    ensures |r| == |EncodedKeys|
  {
    [EntryList(p.experience, ExperienceJson), EntryList(p.education, EducationJson),
     EntryList(p.organizations, OrganizationJson), EntryList(p.volunteering, VolunteeringJson),
     EntryList(p.projects, ProjectJson), EntryList(p.awards, AwardJson)]
  }

  /** `about` flattened to text: an `{title, text}` object contributes its text
      ('' when missing). */
  function FlatAbout(a: About): (r: Json)
    ensures a.AboutRecord? ==> r == JStr(OrEmpty(a.body))
    ensures a.AboutText? ==> r == JStr(a.text)
    ensures a.NoAbout? ==> r == JNull
  {
    match a
    case NoAbout => JNull
    case AboutText(t) => JStr(t)
    case AboutRecord(_, body) => JStr(OrEmpty(body))
  }

  /** The keys of the row `upsert_attendee` sends, in order. */
  const UpsertKeys: seq<string> := ["id", "name", "headline", "location", "school", "url", "image", "about",
    "experience", "education", "skills", "languages", "interests", "organizations", "volunteering",
    "projects", "awards", "embedding"]

  /** Where each of `EncodedKeys` sits in the row. */
  const EncodedPositions: seq<int> := [8, 9, 13, 14, 15, 16]

  /** The first eight members of the upserted row: the id as text, the profile's
      scalars and the flattened `about`. */
  function UpsertHead(p: Profile, showId: Id -> string): (r: Row)
    ensures |r| == |ScalarKeys|
    ensures forall i :: 0 <= i < |r| ==> r[i].0 == UpsertKeys[i]
    ensures r[0].1 == JStr(showId(p.id)) && r[7].1 == FlatAbout(p.about)
    ensures && r[1].1 == OptText(p.name) && r[2].1 == OptText(p.headline) && r[3].1 == OptText(p.location)
            && r[4].1 == OptText(p.school) && r[5].1 == OptText(p.url) && r[6].1 == OptText(p.image)
  {
    [("id", JStr(showId(p.id))), ("name", OptText(p.name)), ("headline", OptText(p.headline)),
     ("location", OptText(p.location)), ("school", OptText(p.school)), ("url", OptText(p.url)),
     ("image", OptText(p.image)), ("about", FlatAbout(p.about))]
  }

  /** The remaining members: the lists and the embedding. */
  function UpsertTail(p: Profile, dumps: Json -> string, embedding: Json): (r: Row)
    ensures |r| == |UpsertKeys| - |ScalarKeys|
    ensures forall i :: 0 <= i < |r| ==> r[i].0 == UpsertKeys[|ScalarKeys| + i]
    ensures forall i :: 0 <= i < |EncodedPositions| ==> r[EncodedPositions[i] - |ScalarKeys|].1 == JStr(dumps(EntryLists(p)[i]))
    ensures r[2].1 == Texts(p.skills) && r[3].1 == Texts(p.languages) && r[4].1 == Texts(p.interests)
    ensures r[9].1 == embedding
  {
    var lists := EntryLists(p);
    [("experience", JStr(dumps(lists[0]))), ("education", JStr(dumps(lists[1]))),
     ("skills", Texts(p.skills)), ("languages", Texts(p.languages)), ("interests", Texts(p.interests)),
     ("organizations", JStr(dumps(lists[2]))), ("volunteering", JStr(dumps(lists[3]))),
     ("projects", JStr(dumps(lists[4]))), ("awards", JStr(dumps(lists[5]))),
     ("embedding", embedding)]
  }

  /** Each entry list sits, as its JSON text, at its encoded position of the row. */
  predicate ListsEncoded(r: Row, dumps: Json -> string, lists: seq<Json>) {
    && |r| == |UpsertKeys| && |lists| == |EncodedPositions|
    && forall i :: 0 <= i < |EncodedPositions| ==> r[EncodedPositions[i]].1 == JStr(dumps(lists[i]))
  }

  /** The row `upsert_attendee` sends: the id as text, `about` flattened, the entry
      lists as JSON text, the string lists as arrays, and the embedding. */
  function UpsertRow(p: Profile, showId: Id -> string, dumps: Json -> string, embedding: Json): (r: Row)
    ensures |r| == |UpsertKeys|
    ensures forall i :: 0 <= i < |r| ==> r[i].0 == UpsertKeys[i]
    ensures r[0].1 == JStr(showId(p.id)) && r[7].1 == FlatAbout(p.about)
    ensures ListsEncoded(r, dumps, EntryLists(p))
  {
    var head := UpsertHead(p, showId);
    var tail := UpsertTail(p, dumps, embedding);
    HeadTailLayout(head, tail, dumps, EntryLists(p));
    head + tail
  }

  /** A head of scalar members and a tail of the remaining members join into the
      upsert layout, with each entry list at its encoded position. */
  lemma HeadTailLayout(head: Row, tail: Row, dumps: Json -> string, lists: seq<Json>)
    requires |head| == |ScalarKeys| && |tail| == |UpsertKeys| - |ScalarKeys| && |lists| == |EncodedPositions|
    requires forall i :: 0 <= i < |head| ==> head[i].0 == UpsertKeys[i]
    requires forall i :: 0 <= i < |tail| ==> tail[i].0 == UpsertKeys[|ScalarKeys| + i]
    requires forall i :: 0 <= i < |EncodedPositions| ==> tail[EncodedPositions[i] - |ScalarKeys|].1 == JStr(dumps(lists[i]))
    ensures forall i :: 0 <= i < |head + tail| ==> (head + tail)[i].0 == UpsertKeys[i]
    ensures ListsEncoded(head + tail, dumps, lists)
  {
    var r := head + tail;
    forall i | 0 <= i < |r|
      ensures r[i].0 == UpsertKeys[i]
    {
      if i < |head| { assert r[i] == head[i]; } else { assert r[i] == tail[i - |head|]; }
    }
    forall i | 0 <= i < |EncodedPositions|
      ensures r[EncodedPositions[i]].1 == JStr(dumps(lists[i]))
    {
      assert r[EncodedPositions[i]] == tail[EncodedPositions[i] - |ScalarKeys|];
    }
  }

  /** The other members of the upserted row: the profile's scalars as given (null when
      missing), its string lists as arrays, and the embedding. */
  lemma UpsertRowValues(p: Profile, showId: Id -> string, dumps: Json -> string, embedding: Json)
    ensures var r := UpsertRow(p, showId, dumps, embedding);
            && r[1].1 == OptText(p.name) && r[2].1 == OptText(p.headline) && r[3].1 == OptText(p.location)
            && r[4].1 == OptText(p.school) && r[5].1 == OptText(p.url) && r[6].1 == OptText(p.image)
            && r[10].1 == Texts(p.skills) && r[11].1 == Texts(p.languages) && r[12].1 == Texts(p.interests)
            && r[17].1 == embedding
  {
    var head := UpsertHead(p, showId);
    var tail := UpsertTail(p, dumps, embedding);
    var r := UpsertRow(p, showId, dumps, embedding);
    assert r == head + tail;
    assert r[10] == tail[2] && r[11] == tail[3] && r[12] == tail[4] && r[17] == tail[9];
  }

  /** Every key of the row is written once. */
  lemma UpsertKeysDistinct()
    ensures forall i, j :: 0 <= i < j < |UpsertKeys| ==> UpsertKeys[i] != UpsertKeys[j]
  {
  }

  /** Reading the upserted row gives the id as text, the flattened `about` and each
      entry list as JSON text. */
  lemma UpsertRowReads(p: Profile, showId: Id -> string, dumps: Json -> string, embedding: Json)
    ensures var r := UpsertRow(p, showId, dumps, embedding);
            && Get(r, "id") == Some(JStr(showId(p.id)))
            && Get(r, "about") == Some(FlatAbout(p.about))
            && forall i :: 0 <= i < |EncodedKeys| ==> Get(r, EncodedKeys[i]) == Some(JStr(dumps(EntryLists(p)[i])))
  {
    LayoutEncodedReads(UpsertRow(p, showId, dumps, embedding), dumps, EntryLists(p));
  }

  /** In a row with the upsert layout, the entry-list keys read the members at the
      encoded positions. */
  lemma LayoutEncodedReads(r: Row, dumps: Json -> string, lists: seq<Json>)
    requires UpsertLayout(r) && ListsEncoded(r, dumps, lists)
    ensures Get(r, "id") == Some(r[0].1) && Get(r, "about") == Some(r[7].1)
    ensures forall i :: 0 <= i < |EncodedKeys| ==> Get(r, EncodedKeys[i]) == Some(JStr(dumps(lists[i])))
  {
    assert Get(r, "id") == Some(r[0].1) by { UpsertKeyReads(r, 0); }
    assert Get(r, "about") == Some(r[7].1) by { UpsertKeyReads(r, 7); }
    forall i | 0 <= i < |EncodedKeys|
      ensures Get(r, EncodedKeys[i]) == Some(JStr(dumps(lists[i])))
    {
      EncodedKeyReads(r, dumps, lists, i);
    }
  }

  /** One entry-list key of a row with the upsert layout reads that list's text. */
  lemma EncodedKeyReads(r: Row, dumps: Json -> string, lists: seq<Json>, i: int)
    requires UpsertLayout(r) && ListsEncoded(r, dumps, lists) && 0 <= i < |EncodedKeys|
    ensures Get(r, EncodedKeys[i]) == Some(JStr(dumps(lists[i])))
  {
    var k := EncodedPositions[i];
    assert EncodedKeys[i] == UpsertKeys[k];
    UpsertKeyReads(r, k);
  }

  /** A row whose keys are the upsert keys, in order. */
  predicate UpsertLayout(r: Row) {
    |r| == |UpsertKeys| && forall k :: 0 <= k < |r| ==> r[k].0 == UpsertKeys[k]
  }

  /** In a row with the upsert layout, each key reads its own member. */
  lemma UpsertKeyReads(r: Row, i: int)
    requires UpsertLayout(r) && 0 <= i < |r|
    ensures Get(r, UpsertKeys[i]) == Some(r[i].1)
  {
    UpsertKeysDistinct();
    GetUnshadowed(r, i);
  }

  /** The embedding is stored under its own key. */
  lemma UpsertRowStoresEmbedding(p: Profile, showId: Id -> string, dumps: Json -> string, embedding: Json)
    ensures Get(UpsertRow(p, showId, dumps, embedding), "embedding") == Some(embedding)
  {
    UpsertRowValues(p, showId, dumps, embedding);
    UpsertKeyReads(UpsertRow(p, showId, dumps, embedding), 17);
  }

  /** Formatting a row with the upsert layout gives back its first eight members. */
  lemma LayoutScalarsFormatBack(r: Row, parse: string -> Option<Json>)
    requires UpsertLayout(r)
    ensures forall i :: 0 <= i < |ScalarKeys| ==> FormatAttendee(r, parse)[i] == r[i]
  {
    forall i | 0 <= i < |ScalarKeys| ensures FormatAttendee(r, parse)[i] == r[i] {
      assert ScalarKeys[i] == UpsertKeys[i];
      UpsertKeyReads(r, i);
    }
  }

  /** Formatting a row with the upsert layout keeps a string list iff it is truthy. */
  lemma LayoutListFormatsBack(r: Row, parse: string -> Option<Json>, i: int)
    requires UpsertLayout(r) && 0 <= i < |ListKeys|
    ensures Get(FormatAttendee(r, parse), ListKeys[i]) == if PyTruthy(r[10 + i].1) then Some(r[10 + i].1) else None
  {
    var k := ListKeys[i];
    assert GetOr(r, k, JNull) == r[10 + i].1 by {
      assert k == UpsertKeys[10 + i];
      UpsertKeyReads(r, 10 + i);
    }
    FormatAttendeeList(r, parse, k);
  }

  /** A synced record read back by the vector search: the eight scalar members come
      back first and unchanged. By `UpsertRow`'s contract and `UpsertRowValues` these are the id as text,
      the record's name, headline, location, school, url and image (null when
      missing), and the flattened `about`. */
  lemma SyncedScalarsFormatBack(p: Profile, showId: Id -> string, dumps: Json -> string, embedding: Json,
                                parse: string -> Option<Json>)
    ensures var r := UpsertRow(p, showId, dumps, embedding);
            forall i :: 0 <= i < |ScalarKeys| ==> FormatAttendee(r, parse)[i] == r[i]
  {
    LayoutScalarsFormatBack(UpsertRow(p, showId, dumps, embedding), parse);
  }

  /** A string list of a synced record comes back as written when it is non-empty,
      and is left out when empty (an empty array is falsy). `row` is any row laid out
      as `UpsertRow` writes a record whose `ListKeys[i]` list is `xs`; `UpsertRow`'s
      contract and `UpsertRowValues` supply both requirements. */
  lemma SyncedListFormatsBack(row: Row, parse: string -> Option<Json>, i: int, xs: seq<string>)
    requires UpsertLayout(row) && 0 <= i < |ListKeys|
    requires row[10 + i].1 == Texts(xs)
    ensures Get(FormatAttendee(row, parse), ListKeys[i]) == if |xs| > 0 then Some(Texts(xs)) else None
  {
    LayoutListFormatsBack(row, parse, i);
    assert PyTruthy(Texts(xs)) <==> |xs| > 0;
  }

  /** One entry list of a synced record, read back by the vector search. */
  lemma SyncedFieldFormatsBack(row: Row, parse: string -> Option<Json>, k: string, list: Json, text: string)
    requires k in EncodedKeys && Get(row, k) == Some(JStr(text))
    requires parse(text) == Some(list) && text != ""
    ensures Get(FormatAttendee(row, parse), k) == Some(list)
  {
    assert GetOr(row, k, JNull) == JStr(text);
    FormatAttendeeEncoded(row, parse, k);
  }

  /** A synced record read back by the vector search: when `json.loads` inverts
      `json.dumps`, every entry list comes back as the record's own list, present even
      when empty (its text "[]" is truthy). */
  lemma SyncedRowFormatsBack(p: Profile, showId: Id -> string, dumps: Json -> string, embedding: Json,
                             parse: string -> Option<Json>)
    requires forall j :: parse(dumps(j)) == Some(j) && dumps(j) != ""
    ensures var f := FormatAttendee(UpsertRow(p, showId, dumps, embedding), parse);
            forall i :: 0 <= i < |EncodedKeys| ==> Get(f, EncodedKeys[i]) == Some(EntryLists(p)[i])
  {
    var row := UpsertRow(p, showId, dumps, embedding);
    var lists := EntryLists(p);
    UpsertRowReads(p, showId, dumps, embedding);
    forall i | 0 <= i < |EncodedKeys|
      ensures Get(FormatAttendee(row, parse), EncodedKeys[i]) == Some(lists[i])
    {
      SyncedFieldFormatsBack(row, parse, EncodedKeys[i], lists[i], dumps(lists[i]));
    }
  }
}

=== FILE: schools.dfy ===
/** The school badge of a card (`getSchoolClass` and `getSchoolLogo` in app.js): two
    chains of substring tests over the lower-cased school name, first match wins. */
module Schools {
  import opened Common
  import opened Text

  /** `getSchoolClass`: the style class of a recognised school, '' otherwise. */
  function SchoolClass(school: Option<string>): (r: string)
    ensures !Truthy(school) ==> r == ""
    ensures Truthy(school) && Contains(ToLower(school.value), "harvard") ==> r == "harvard"
    ensures r in {"", "harvard", "yale", "princeton", "brown", "dartmouth", "cornell", "columbia",
                  "upenn", "uchicago", "stanford", "mit"}
  {
    if !Truthy(school) then "" else ClassOf(ToLower(school.value))
  }

  /** The chain of tests over the lower-cased name `n`. */
  function ClassOf(n: string): string {
    if Contains(n, "harvard") then "harvard"
    else if Contains(n, "yale") then "yale"
    else if Contains(n, "princeton") then "princeton"
    else if Contains(n, "brown") then "brown"
    else if Contains(n, "dartmouth") then "dartmouth"
    else if Contains(n, "cornell") then "cornell"
    else if Contains(n, "columbia") then "columbia"
    else if Contains(n, "penn") || Contains(n, "university of pennsylvania") then "upenn"
    else if Contains(n, "chicago") && Contains(n, "university") then "uchicago"
    else if Contains(n, "stanford") then "stanford"
    else if Contains(n, "mit") || n == "massachusetts institute of technology" then "mit"
    else ""
  }

  /** The classes in the order the chain tests them. */
  const Classes := ["harvard", "yale", "princeton", "brown", "dartmouth", "cornell", "columbia",
                    "upenn", "uchicago", "stanford", "mit"]

  /** Rule `k` of the chain: the test on the lower-cased name `n` that yields `Classes[k]`. */
  predicate Matches(k: nat, n: string)
    requires k < |Classes|
  {
    if k == 0 then Contains(n, "harvard")
    else if k == 1 then Contains(n, "yale")
    else if k == 2 then Contains(n, "princeton")
    else if k == 3 then Contains(n, "brown")
    else if k == 4 then Contains(n, "dartmouth")
    else if k == 5 then Contains(n, "cornell")
    else if k == 6 then Contains(n, "columbia")
    else if k == 7 then Contains(n, "penn") || Contains(n, "university of pennsylvania")
    else if k == 8 then Contains(n, "chicago") && Contains(n, "university")
    else if k == 9 then Contains(n, "stanford")
    else Contains(n, "mit") || n == "massachusetts institute of technology"
  }

  /** The first rule at or after `k` that matches `n`; `|Classes|` when none does. */
  function FirstRule(n: string, k: nat): (i: nat)
    requires k <= |Classes|
    ensures k <= i <= |Classes|
    ensures i < |Classes| ==> Matches(i, n)
    ensures forall j :: k <= j < |Classes| && Matches(j, n) ==> i <= j
    decreases |Classes| - k
  {
    if k == |Classes| then k
    else if Matches(k, n) then k
    else FirstRule(n, k + 1)
  }

  /** The chain is the first matching rule's class. */
  lemma {:induction false} ClassOfIsFirstRule(n: string)
    ensures var i := FirstRule(n, 0);
            ClassOf(n) == if i < |Classes| then Classes[i] else ""
  {
    var i := FirstRule(n, 0);
    if Matches(0, n) { assert i == 0; }
    else if Matches(1, n) { assert i == 1; }
    else if Matches(2, n) { assert i == 2; }
    else if Matches(3, n) { assert i == 3; }
    else if Matches(4, n) { assert i == 4; }
    else if Matches(5, n) { assert i == 5; }
    else if Matches(6, n) { assert i == 6; }
    else if Matches(7, n) { assert i == 7; }
    else if Matches(8, n) { assert i == 8; }
    else if Matches(9, n) { assert i == 9; }
    else if Matches(10, n) { assert i == 10; }
    else { assert i == 11; }
  }

  lemma ClassesDistinct()
    ensures forall a, b :: 0 <= a < b < |Classes| ==> Classes[a] != Classes[b]
    ensures forall a :: 0 <= a < |Classes| ==> Classes[a] != ""
  {
  }

  /** First match wins: a named school gets class `k` exactly when rule `k` matches
      its lower-cased name and no earlier rule does. */
  lemma SchoolClassFirstMatch(school: Option<string>, k: nat)
    requires k < |Classes|
    ensures SchoolClass(school) == Classes[k] <==>
              && Truthy(school)
              && Matches(k, ToLower(school.value))
              && forall j :: 0 <= j < k ==> !Matches(j, ToLower(school.value))
  {
    ClassesDistinct();
    if Truthy(school) {
      var n := ToLower(school.value);
      ClassOfIsFirstRule(ToLower(school.value));
      var i := FirstRule(n, 0);
      assert SchoolClass(school) == Classes[k] <==> i == k;
    }
  }

  /** No class exactly when the name is missing or empty, or no rule matches it. */
  lemma SchoolClassNoMatch(school: Option<string>)
    ensures SchoolClass(school) == "" <==>
              !Truthy(school) || forall j :: 0 <= j < |Classes| ==> !Matches(j, ToLower(school.value))
  {
    ClassesDistinct();
    if Truthy(school) {
      ClassOfIsFirstRule(ToLower(school.value));
    }
  }

  const HarvardLogo := "https://upload.wikimedia.org/wikipedia/commons/thumb/c/cc/Harvard_University_coat_of_arms.svg/200px-Harvard_University_coat_of_arms.svg.png"
  const YaleLogo := "https://upload.wikimedia.org/wikipedia/commons/thumb/0/07/Yale_University_Shield_1.svg/200px-Yale_University_Shield_1.svg.png"
  const PrincetonLogo := "https://upload.wikimedia.org/wikipedia/commons/thumb/d/d0/Princeton_seal.svg/200px-Princeton_seal.svg.png"
  const BrownLogo := "https://upload.wikimedia.org/wikipedia/en/thumb/5/50/Shield_of_Brown_University.svg/200px-Shield_of_Brown_University.svg.png"
  const DartmouthLogo := "https://upload.wikimedia.org/wikipedia/en/thumb/e/e4/Dartmouth_College_shield.svg/200px-Dartmouth_College_shield.svg.png"
  const CornellLogo := "https://upload.wikimedia.org/wikipedia/commons/thumb/4/47/Cornell_University_seal.svg/200px-Cornell_University_seal.svg.png"
  const ColumbiaLogo := "https://upload.wikimedia.org/wikipedia/commons/thumb/3/33/Coat_of_Arms_of_Columbia_University.svg/200px-Coat_of_Arms_of_Columbia_University.svg.png"
  const PennLogo := "https://upload.wikimedia.org/wikipedia/commons/thumb/9/92/UPenn_shield_with_banner.svg/200px-UPenn_shield_with_banner.svg.png"
  const ChicagoLogo := "https://upload.wikimedia.org/wikipedia/en/thumb/7/79/University_of_Chicago_shield.svg/200px-University_of_Chicago_shield.svg.png"
  const StanfordLogo := "https://upload.wikimedia.org/wikipedia/commons/thumb/b/b5/Seal_of_Leland_Stanford_Junior_University.svg/200px-Seal_of_Leland_Stanford_Junior_University.svg.png"
  const MitLogo := "https://upload.wikimedia.org/wikipedia/en/thumb/4/44/MIT_Seal.svg/200px-MIT_Seal.svg.png"

  /** `getSchoolLogo`: the logo address of a recognised school, null otherwise. */
  function SchoolLogo(school: Option<string>): (r: Option<string>)
    ensures !Truthy(school) ==> r.None?
  {
    if !Truthy(school) then None
    else
      var n := ToLower(school.value);
      if Contains(n, "harvard") then Some(HarvardLogo)
      else if Contains(n, "yale") then Some(YaleLogo)
      else if Contains(n, "princeton") then Some(PrincetonLogo)
      else if Contains(n, "brown") then Some(BrownLogo)
      else if Contains(n, "dartmouth") then Some(DartmouthLogo)
      else if Contains(n, "cornell") then Some(CornellLogo)
      else if Contains(n, "columbia") then Some(ColumbiaLogo)
      else if Contains(n, "penn") || Contains(n, "university of pennsylvania") then Some(PennLogo)
      else if Contains(n, "chicago") && Contains(n, "university") then Some(ChicagoLogo)
      else if Contains(n, "stanford") then Some(StanfordLogo)
      else if Contains(n, "mit") || n == "massachusetts institute of technology" then Some(MitLogo)
      else None
  }

  /** The logo belonging to each class. */
  function LogoOfClass(c: string): (r: Option<string>)
    ensures r.None? <==> c !in {"harvard", "yale", "princeton", "brown", "dartmouth", "cornell", "columbia",
                                "upenn", "uchicago", "stanford", "mit"}
  {
    if c == "harvard" then Some(HarvardLogo)
    else if c == "yale" then Some(YaleLogo)
    else if c == "princeton" then Some(PrincetonLogo)
    else if c == "brown" then Some(BrownLogo)
    else if c == "dartmouth" then Some(DartmouthLogo)
    else if c == "cornell" then Some(CornellLogo)
    else if c == "columbia" then Some(ColumbiaLogo)
    else if c == "upenn" then Some(PennLogo)
    else if c == "uchicago" then Some(ChicagoLogo)
    else if c == "stanford" then Some(StanfordLogo)
    else if c == "mit" then Some(MitLogo)
    else None
  }

  /** The two chains agree: a school has a logo exactly when it has a class, and the
      logo is the one of that class. */
  lemma LogoFollowsClass(school: Option<string>)
    ensures SchoolLogo(school) == LogoOfClass(SchoolClass(school))
    ensures SchoolLogo(school).Some? <==> SchoolClass(school) != ""
  {
  }

  /** Only the lower-cased name matters. */
  lemma SchoolClassIgnoresCase(s: string)
    ensures SchoolClass(Some(s)) == SchoolClass(Some(ToLower(s)))
  {
    ToLowerIdempotent(s);
    assert |ToLower(s)| == |s|;
  }
}

=== FILE: sorting.dfy ===
/** A stable sort by integer-sequence keys compared lexicographically.

    Every sort in the application is `Array.prototype.sort` with a comparator that
    compares one derived key (a collation key for names, a timestamp, a score) and
    returns 0 on ties. Since ECMAScript 2019 that sort is stable, and
    `StableSortUnique` below shows a stable sort's result is fully determined by its
    keys; so this insertion sort describes exactly what the browser computes. */
module Sorting {

  /** Lexicographic order on keys; a proper prefix sorts first. */
  predicate LexLe(a: seq<int>, b: seq<int>)
    decreases |a|
  {
    |a| == 0 || (|b| > 0 && (a[0] < b[0] || (a[0] == b[0] && LexLe(a[1..], b[1..]))))
  }

  lemma {:induction false} LexLeReflexive(a: seq<int>)
    ensures LexLe(a, a)
    decreases |a|
  {
    if |a| > 0 {
      LexLeReflexive(a[1..]);
    }
  }

  lemma {:induction false} LexLeTotal(a: seq<int>, b: seq<int>)
    ensures LexLe(a, b) || LexLe(b, a)
    decreases |a|
  {
    if |a| > 0 && |b| > 0 && a[0] == b[0] {
      LexLeTotal(a[1..], b[1..]);
    }
  }

  lemma {:induction false} LexLeTransitive(a: seq<int>, b: seq<int>, c: seq<int>)
    requires LexLe(a, b) && LexLe(b, c)
    ensures LexLe(a, c)
    decreases |a|
  {
    if |a| > 0 && a[0] == b[0] && b[0] == c[0] {
      LexLeTransitive(a[1..], b[1..], c[1..]);
    }
  }

  lemma {:induction false} LexLeAntisymmetric(a: seq<int>, b: seq<int>)
    requires LexLe(a, b) && LexLe(b, a)
    ensures a == b
    decreases |a|
  {
    if |a| > 0 {
      LexLeAntisymmetric(a[1..], b[1..]);
      assert a == [a[0]] + a[1..];
      assert b == [b[0]] + b[1..];
    }
  }

  /** Keys never decrease along `s`. */
  ghost predicate SortedBy<T>(s: seq<T>, key: T -> seq<int>) {
    forall i, j :: 0 <= i < j < |s| ==> LexLe(key(s[i]), key(s[j]))
  }

  /** The elements of `s` whose key is `k`, in their order in `s`. */
  function WithKey<T(==,!new)>(s: seq<T>, key: T -> seq<int>, k: seq<int>): (r: seq<T>)
    ensures forall x :: x in r <==> x in s && key(x) == k
  {
    if |s| == 0 then []
    else
      assert forall x :: x in s <==> x == s[0] || x in s[1..];
      (if key(s[0]) == k then [s[0]] else []) + WithKey(s[1..], key, k)
  }

  /** Stable insertion of `x` into sorted `s`: after every strictly smaller key,
      before every element whose key is equal or larger. */
  function Insert<T(==,!new)>(x: T, s: seq<T>, key: T -> seq<int>): (r: seq<T>)
    ensures |r| == |s| + 1
    ensures multiset(r) == multiset(s) + multiset{x}
  {
    if |s| == 0 || LexLe(key(x), key(s[0])) then [x] + s
    else
      assert s == [s[0]] + s[1..];
      [s[0]] + Insert(x, s[1..], key)
  }

  /** Inserting into a sorted sequence keeps it sorted. */
  lemma {:induction false} InsertSorted<T(!new)>(x: T, s: seq<T>, key: T -> seq<int>)
    requires SortedBy(s, key)
    ensures SortedBy(Insert(x, s, key), key)
    decreases |s|
  {
    var r := Insert(x, s, key);
    if |s| == 0 || LexLe(key(x), key(s[0])) {
      assert r[1..] == s;
      forall i, j | 0 <= i < j < |r| ensures LexLe(key(r[i]), key(r[j])) {
        if i == 0 && j > 1 {
          LexLeTransitive(key(x), key(s[0]), key(s[j - 1]));
        }
      }
    } else {
      var t := Insert(x, s[1..], key);
      InsertSorted(x, s[1..], key);
      assert r[1..] == t;
      LexLeTotal(key(x), key(s[0]));
      forall j | 0 <= j < |t| ensures LexLe(key(s[0]), key(t[j])) {
        var y := t[j];
        assert y in multiset(t);
        if y != x {
          assert y in multiset(s[1..]);
          var m :| 0 <= m < |s[1..]| && s[1..][m] == y;
          assert s[m + 1] == y;
        }
      }
      forall i, j | 0 <= i < j < |r| ensures LexLe(key(r[i]), key(r[j])) {
        if i > 0 {
          assert r[i] == t[i - 1] && r[j] == t[j - 1];
        }
      }
    }
  }

  /** Insertion is stable: `x` lands in front of every element with the same key and
      the elements of every other key keep their order. */
  lemma {:induction false} InsertWithKey<T(!new)>(x: T, s: seq<T>, key: T -> seq<int>, k: seq<int>)
    ensures WithKey(Insert(x, s, key), key, k) == (if key(x) == k then [x] + WithKey(s, key, k) else WithKey(s, key, k))
    decreases |s|
  {
    if |s| == 0 || LexLe(key(x), key(s[0])) {
      assert Insert(x, s, key) == [x] + s;
      WithKeyCons(x, s, key, k);
    } else {
      var t := Insert(x, s[1..], key);
      assert Insert(x, s, key) == [s[0]] + t;
      InsertWithKey(x, s[1..], key, k);
      WithKeyCons(s[0], t, key, k);
      assert s == [s[0]] + s[1..];
      WithKeyCons(s[0], s[1..], key, k);
      if key(x) == k && key(s[0]) == k {
        LexLeReflexive(key(x));
        assert false;
      }
    }
  }

  lemma WithKeyCons<T(!new)>(y: T, t: seq<T>, key: T -> seq<int>, k: seq<int>)
    ensures WithKey([y] + t, key, k) == (if key(y) == k then [y] else []) + WithKey(t, key, k)
  {
    assert ([y] + t)[1..] == t;
  }

  /** `Array.prototype.sort` with a key comparator: a sorted, stable permutation. */
  function Sort<T(==,!new)>(s: seq<T>, key: T -> seq<int>): (r: seq<T>)
    ensures |r| == |s|
    ensures multiset(r) == multiset(s)
    ensures SortedBy(r, key)
    ensures forall k :: WithKey(r, key, k) == WithKey(s, key, k)
  {
    if |s| == 0 then []
    else
      assert s == [s[0]] + s[1..];
      var t := Sort(s[1..], key);
      InsertSorted(s[0], t, key);
      forall k ensures WithKey(Insert(s[0], t, key), key, k) == WithKey(s, key, k) {
        InsertWithKey(s[0], t, key, k);
      }
      Insert(s[0], t, key)
  }

  /** When every element has the same key, `WithKey` returns the whole sequence. */
  lemma {:induction false} WithKeyOfConstant<T(!new)>(s: seq<T>, key: T -> seq<int>, k: seq<int>)
    requires forall i :: 0 <= i < |s| ==> key(s[i]) == k
    ensures WithKey(s, key, k) == s
    decreases |s|
  {
    if |s| > 0 {
      WithKeyOfConstant(s[1..], key, k);
    }
  }

  /** The first element of a sorted sequence has the least key of any element. */
  lemma HeadKeyIsLeast<T>(s: seq<T>, key: T -> seq<int>, x: T)
    requires SortedBy(s, key) && |s| > 0 && x in s
    ensures LexLe(key(s[0]), key(x))
  {
    var i :| 0 <= i < |s| && s[i] == x;
    if i == 0 {
      LexLeReflexive(key(x));
    }
  }

  /** Splitting off the first element: it heads the elements of its key, and the
      elements of every other key are unchanged. */
  lemma WithKeyHead<T(!new)>(s: seq<T>, key: T -> seq<int>)
    requires |s| > 0
    ensures WithKey(s, key, key(s[0])) == [s[0]] + WithKey(s[1..], key, key(s[0]))
    ensures forall k :: k != key(s[0]) ==> WithKey(s[1..], key, k) == WithKey(s, key, k)
  {
    assert s == [s[0]] + s[1..];
    forall k ensures WithKey(s, key, k) == (if key(s[0]) == k then [s[0]] else []) + WithKey(s[1..], key, k) {
      WithKeyCons(s[0], s[1..], key, k);
    }
  }

  lemma HeadHasItsKey<T(!new)>(s: seq<T>, key: T -> seq<int>)
    ensures |s| > 0 ==> s[0] in WithKey(s, key, key(s[0]))
  {
  }

  /** Two sorted sequences with the same elements per key start with the same element. */
  lemma SameHead<T(!new)>(a: seq<T>, b: seq<T>, key: T -> seq<int>)
    requires SortedBy(a, key) && SortedBy(b, key) && |a| > 0 && |b| > 0
    requires forall k :: WithKey(a, key, k) == WithKey(b, key, k)
    ensures a[0] == b[0]
  {
    var ka, kb := key(a[0]), key(b[0]);
    assert b[0] in WithKey(b, key, kb);
    assert b[0] in WithKey(a, key, kb);
    HeadKeyIsLeast(a, key, b[0]);
    assert a[0] in WithKey(a, key, ka);
    assert a[0] in WithKey(b, key, ka);
    HeadKeyIsLeast(b, key, a[0]);
    LexLeAntisymmetric(ka, kb);
    WithKeyHead(a, key);
    WithKeyHead(b, key);
    assert WithKey(a, key, ka)[0] == a[0];
    assert WithKey(b, key, ka)[0] == b[0];
  }

  /** A stable sort's result is determined by its keys: two sorted sequences that agree
      on the elements of every key, in order, are equal. */
  lemma {:induction false} StableSortUnique<T(!new)>(a: seq<T>, b: seq<T>, key: T -> seq<int>)
    requires SortedBy(a, key) && SortedBy(b, key)
    requires forall k :: WithKey(a, key, k) == WithKey(b, key, k)
    ensures a == b
    decreases |a|
  {
    if |a| == 0 || |b| == 0 {
      HeadHasItsKey(a, key);
      HeadHasItsKey(b, key);
    } else {
      SameHead(a, b, key);
      WithKeyHead(a, key);
      WithKeyHead(b, key);
      var k0 := key(a[0]);
      forall k ensures WithKey(a[1..], key, k) == WithKey(b[1..], key, k) {
        if k == k0 {
          assert WithKey(a[1..], key, k) == WithKey(a, key, k)[1..];
          assert WithKey(b[1..], key, k) == WithKey(b, key, k)[1..];
        }
      }
      StableSortUnique(a[1..], b[1..], key);
      assert a == [a[0]] + a[1..] && b == [b[0]] + b[1..];
    }
  }

  /** With a constant key the comparator always answers 0 and the order is kept. */
  lemma SortConstantKeyIsIdentity<T(!new)>(s: seq<T>, key: T -> seq<int>, k: seq<int>)
    requires forall i :: 0 <= i < |s| ==> key(s[i]) == k
    ensures Sort(s, key) == s
  {
    var r := Sort(s, key);
    assert forall i :: 0 <= i < |r| ==> key(r[i]) == k by {
      forall i | 0 <= i < |r| ensures key(r[i]) == k {
        assert r[i] in multiset(s);
      }
    }
    WithKeyOfConstant(s, key, k);
    WithKeyOfConstant(r, key, k);
  }
}

=== FILE: store.dfy ===
/** The attendee store of `AttendeesDatabase` (app.js): add with URL de-duplication,
    delete by id, import-merge and clear. Each operation maps the stored sequence to
    its new value; persisting it to localStorage is not modelled. Confirmation
    dialogs are boolean parameters. */
module Store {
  import opened Common
  import opened Text
  import opened Profiles

  /** Some stored record has exactly this `url` (an absent url matches an absent url). */
  predicate UrlTaken(store: seq<Profile>, url: Option<string>) {
    exists i :: 0 <= i < |store| && store[i].url == url
  }

  /** No two stored records share a `url`: the invariant `add` enforces. */
  ghost predicate UniqueUrls(store: seq<Profile>) {
    forall i, j :: 0 <= i < j < |store| ==> store[i].url != store[j].url
  }

  datatype AddOutcome =
    | Added(store: seq<Profile>, profile: Profile)
    | EmptyInput     // "Please paste the LinkedIn profile data."
    | InvalidJson    // "Invalid JSON data. ..."
    | Duplicate      // "This profile has already been added!"

  /** The pasted record after the form's school and image inputs, the fresh id and the
      creation time are applied. */
  function WithFormInputs(p: Profile, school: string, image: string, id: Id, now: int): Profile {
    p.(school := if school != "" then Some(school) else p.school,
       image := if image != "" && !Truthy(p.image) then Some(image) else p.image,
       id := id,
       addedAt := now)
  }

  /** `addProfile`: the three inputs are trimmed; `parse` is `JSON.parse`, answering
      `None` when the text is not JSON or not an object. */
  function Add(store: seq<Profile>, jsonInput: string, schoolInput: string, imageInput: string,
               parse: string -> Option<Profile>, freshId: Id, now: int): (r: AddOutcome)
    ensures r.EmptyInput? <==> Trim(jsonInput) == ""
    ensures r.InvalidJson? <==> Trim(jsonInput) != "" && parse(Trim(jsonInput)).None?
    ensures r.Duplicate? <==>
      Trim(jsonInput) != "" && parse(Trim(jsonInput)).Some? && UrlTaken(store, parse(Trim(jsonInput)).value.url)
    ensures r.Added? ==> r.store == store + [r.profile] && !UrlTaken(store, r.profile.url)
    ensures r.Added? ==> r.profile.id == freshId && r.profile.addedAt == now
    ensures r.Added? ==>
      var pasted := parse(Trim(jsonInput)).value;
      && r.profile.school == (if Trim(schoolInput) != "" then Some(Trim(schoolInput)) else pasted.school)
      && r.profile.image == (if Truthy(pasted.image) || Trim(imageInput) == "" then pasted.image else Some(Trim(imageInput)))
      && r.profile.(id := pasted.id, addedAt := pasted.addedAt, school := pasted.school, image := pasted.image) == pasted
  {
    var json := Trim(jsonInput);
    if json == "" then EmptyInput
    else
      match parse(json)
      case None => InvalidJson
      case Some(pasted) =>
        var p := WithFormInputs(pasted, Trim(schoolInput), Trim(imageInput), freshId, now);
        if UrlTaken(store, p.url) then Duplicate else Added(store + [p], p)
  }

  /** A successful add keeps the store free of repeated URLs. */
  lemma AddKeepsUrlsUnique(store: seq<Profile>, jsonInput: string, schoolInput: string, imageInput: string,
                           parse: string -> Option<Profile>, freshId: Id, now: int)
    requires UniqueUrls(store)
    ensures var r := Add(store, jsonInput, schoolInput, imageInput, parse, freshId, now);
            r.Added? ==> UniqueUrls(r.store)
  {
    var r := Add(store, jsonInput, schoolInput, imageInput, parse, freshId, now);
    if r.Added? {
      forall i, j | 0 <= i < j < |r.store| ensures r.store[i].url != r.store[j].url {
        if j == |store| {
          assert r.store[i] == store[i];
        }
      }
    }
  }

  /** Of two pastes carrying the same URL, at most the first is accepted: once a record
      is in, a second record with its URL is rejected as a duplicate whatever the form
      inputs. */
  lemma SecondAddWithSameUrlRejected(store: seq<Profile>, json1: string, json2: string, school1: string,
                                     school2: string, image1: string, image2: string,
                                     parse: string -> Option<Profile>, id1: Id, id2: Id, t1: int, t2: int)
    requires Add(store, json1, school1, image1, parse, id1, t1).Added?
    requires Trim(json2) != "" && parse(Trim(json2)).Some?
    requires parse(Trim(json2)).value.url == parse(Trim(json1)).value.url
    ensures Add(Add(store, json1, school1, image1, parse, id1, t1).store, json2, school2, image2, parse, id2, t2).Duplicate?
  {
    var s1 := Add(store, json1, school1, image1, parse, id1, t1).store;
    assert s1[|store|].url == parse(Trim(json1)).value.url;
  }

  /** `deleteAttendee`: when confirmed, every record with the id goes and the rest keep
      their order; otherwise nothing changes. */
  function Delete(store: seq<Profile>, id: Id, confirmed: bool): (r: seq<Profile>)
    ensures !confirmed ==> r == store
    ensures confirmed ==> forall p :: p in r <==> p in store && p.id != id
    ensures confirmed ==> forall p :: multiset(r)[p] == if p.id != id then multiset(store)[p] else 0
    ensures IsSubsequence(r, store)
  {
    if confirmed then
      FilterCounts(store, (p: Profile) => p.id != id);
      Filter(store, (p: Profile) => p.id != id)
    else
      IsSubsequenceOfSelf(store);
      store
  }

  lemma {:induction false} IsSubsequenceOfSelf<T>(s: seq<T>)
    ensures IsSubsequence(s, s)
    decreases |s|
  {
    if |s| > 0 {
      IsSubsequenceOfSelf(s[1..]);
    }
  }

  /** Deleting an id that no record carries leaves the store as it was. */
  lemma DeleteAbsentIsNoop(store: seq<Profile>, id: Id)
    requires forall i :: 0 <= i < |store| ==> store[i].id != id
    ensures Delete(store, id, true) == store
  {
    FilterAll(store, (p: Profile) => p.id != id);
  }

  /** After a confirmed delete no record has the id, so deleting again changes nothing. */
  lemma DeleteIdempotent(store: seq<Profile>, id: Id)
    ensures Delete(Delete(store, id, true), id, true) == Delete(store, id, true)
  {
    var once := Delete(store, id, true);
    assert forall i :: 0 <= i < |once| ==> once[i].id != id by {
      forall i | 0 <= i < |once| ensures once[i].id != id {
        assert once[i] in once;
      }
    }
    DeleteAbsentIsNoop(once, id);
  }

  /** Dropping records cannot create a repeated URL. */
  lemma {:induction false} SubsequenceKeepsUrlsUnique(r: seq<Profile>, s: seq<Profile>)
    requires IsSubsequence(r, s) && UniqueUrls(s)
    ensures UniqueUrls(r)
    decreases |s|
  {
    if |r| > 0 && |s| > 0 {
      assert UniqueUrls(s[1..]) by {
        forall i, j | 0 <= i < j < |s[1..]| ensures s[1..][i].url != s[1..][j].url {
          assert s[1..][i] == s[i + 1] && s[1..][j] == s[j + 1];
        }
      }
      if r[0] == s[0] && IsSubsequence(r[1..], s[1..]) {
        SubsequenceKeepsUrlsUnique(r[1..], s[1..]);
        SubsequenceMembers(r[1..], s[1..]);
        forall i, j | 0 <= i < j < |r| ensures r[i].url != r[j].url {
          if i == 0 {
            assert r[j] == r[1..][j - 1];
            assert r[j] in r[1..];
            var m :| 0 <= m < |s[1..]| && s[1..][m] == r[j];
            assert s[m + 1] == r[j];
          } else {
            assert r[i] == r[1..][i - 1] && r[j] == r[1..][j - 1];
          }
        }
      } else {
        SubsequenceKeepsUrlsUnique(r, s[1..]);
      }
    }
  }

  lemma {:induction false} SubsequenceMembers<T>(r: seq<T>, s: seq<T>)
    requires IsSubsequence(r, s)
    ensures forall x :: x in r ==> x in s
    decreases |s|
  {
    if |r| > 0 && |s| > 0 {
      if r[0] == s[0] && IsSubsequence(r[1..], s[1..]) {
        SubsequenceMembers(r[1..], s[1..]);
        assert forall x :: x in r ==> x == r[0] || x in r[1..];
      } else {
        SubsequenceMembers(r, s[1..]);
      }
    }
  }

  lemma DeleteKeepsUrlsUnique(store: seq<Profile>, id: Id, confirmed: bool)
    requires UniqueUrls(store)
    ensures UniqueUrls(Delete(store, id, confirmed))
  {
    SubsequenceKeepsUrlsUnique(Delete(store, id, confirmed), store);
  }

  /** What the import file held once read: unreadable text, JSON that is not an array,
      or an array of records. */
  datatype ImportInput = Unreadable | NotAnArray | Records(items: seq<Profile>)

  datatype ImportOutcome =
    | ReadError      // "Error reading file. ..."
    | FormatError    // "Invalid file format. Expected an array of attendees."
    | Declined
    | Imported(store: seq<Profile>, added: nat)

  /** The imported records whose URL no stored record has, in file order. */
  function NewProfiles(store: seq<Profile>, items: seq<Profile>): seq<Profile> {
    Filter(items, (p: Profile) => !UrlTaken(store, p.url))
  }

  /** `importData` (merge part): append the imported records whose URL is not already
      stored; report how many were appended. */
  function Import(store: seq<Profile>, input: ImportInput, confirmed: bool): (r: ImportOutcome)
    ensures r.ReadError? <==> input.Unreadable?
    ensures r.FormatError? <==> input.NotAnArray?
    ensures r.Declined? <==> input.Records? && !confirmed
    ensures r.Imported? ==> |r.store| == |store| + r.added && r.store[..|store|] == store
    ensures r.Imported? ==> forall p :: p in r.store[|store|..] <==> p in input.items && !UrlTaken(store, p.url)
    ensures r.Imported? ==> IsSubsequence(r.store[|store|..], input.items)
    ensures r.Imported? ==> forall p :: multiset(r.store[|store|..])[p] ==
                              if !UrlTaken(store, p.url) then multiset(input.items)[p] else 0
  {
    match input
    case Unreadable => ReadError
    case NotAnArray => FormatError
    case Records(items) =>
      if !confirmed then Declined
      else
        var appended := NewProfiles(store, items);
        FilterCounts(items, (p: Profile) => !UrlTaken(store, p.url));
        assert (store + appended)[|store|..] == appended;
        Imported(store + appended, |appended|)
  }

  /** Importing an exported snapshot into an empty store reproduces it exactly. */
  lemma ImportIntoEmptyRestoresSnapshot(snapshot: seq<Profile>)
    ensures Import([], Records(snapshot), true) == Imported(snapshot, |snapshot|)
  {
    FilterAll(snapshot, (p: Profile) => !UrlTaken([], p.url));
  }

  /** Import checks URLs only against the records stored before it: two records of the
      same file with one URL are both appended, so the store loses the URL uniqueness
      that `Add` maintains. */
  lemma ImportAppendsRepeatedUrls(p: Profile)
    ensures var r := Import([], Records([p, p.(id := p.id + 1)]), true);
            r.Imported? && r.added == 2 && !UniqueUrls(r.store)
  {
    var items := [p, p.(id := p.id + 1)];
    FilterAll(items, (q: Profile) => !UrlTaken([], q.url));
    assert NewProfiles([], items) == items;
    var r := Import([], Records(items), true);
    assert r == Imported([] + items, 2);
    assert r.store[0].url == r.store[1].url;
  }

  /** Appends each item unless a record already in `acc`, stored or appended just
      before, has its URL. */
  function AppendUnseen(acc: seq<Profile>, items: seq<Profile>): (r: seq<Profile>)
    ensures |acc| <= |r| && r[..|acc|] == acc
    ensures forall p :: p in r[|acc|..] ==> p in items && !UrlTaken(acc, p.url)
    decreases |items|
  {
    if |items| == 0 then acc
    else if UrlTaken(acc, items[0].url) then AppendUnseen(acc, items[1..])
    else
      var r := AppendUnseen(acc + [items[0]], items[1..]);
      assert r[..|acc|] == (r[..|acc| + 1])[..|acc|];
      assert forall p :: p in r[|acc|..] ==> p == items[0] || p in r[|acc| + 1..] by {
        assert r[|acc|..] == [r[|acc|]] + r[|acc| + 1..];
      }
      assert forall q :: UrlTaken(acc, q) ==> UrlTaken(acc + [items[0]], q) by {
        forall q | UrlTaken(acc, q) ensures UrlTaken(acc + [items[0]], q) {
          var i :| 0 <= i < |acc| && acc[i].url == q;
          assert (acc + [items[0]])[i] == acc[i];
        }
      }
      r
  }

  lemma {:induction false} AppendUnseenKeepsUrlsUnique(acc: seq<Profile>, items: seq<Profile>)
    ensures UniqueUrls(acc) ==> UniqueUrls(AppendUnseen(acc, items))
    decreases |items|
  {
    if !UniqueUrls(acc) {
    } else if |items| > 0 && !UrlTaken(acc, items[0].url) {
      var acc' := acc + [items[0]];
      forall i, j | 0 <= i < j < |acc'| ensures acc'[i].url != acc'[j].url {
        if j == |acc| {
          assert acc'[i] == acc[i];
        }
      }
      AppendUnseenKeepsUrlsUnique(acc', items[1..]);
    } else if |items| > 0 {
      AppendUnseenKeepsUrlsUnique(acc, items[1..]);
    }
  }

  /** Every URL an item carries ends up stored. */
  lemma {:induction false} AppendUnseenCoversUrls(acc: seq<Profile>, items: seq<Profile>)
    ensures forall k :: 0 <= k < |items| ==> UrlTaken(AppendUnseen(acc, items), items[k].url)
    decreases |items|
  {
    if |items| > 0 {
      var r := AppendUnseen(acc, items);
      var acc' := if UrlTaken(acc, items[0].url) then acc else acc + [items[0]];
      AppendUnseenCoversUrls(acc', items[1..]);
      assert r == AppendUnseen(acc', items[1..]);
      forall k | 0 <= k < |items| ensures UrlTaken(r, items[k].url) {
        if k == 0 {
          var i :| 0 <= i < |acc'| && acc'[i].url == items[0].url;
          assert r[i] == acc'[i];
        } else {
          assert items[k] == items[1..][k - 1];
        }
      }
    }
  }

  /** Import that also skips a record whose URL an earlier record of the same file
      carries: the store keeps unique URLs and still gains every new URL. */
  function ImportDeduplicated(store: seq<Profile>, input: ImportInput, confirmed: bool): (r: ImportOutcome)
    ensures r.ReadError? <==> input.Unreadable?
    ensures r.FormatError? <==> input.NotAnArray?
    ensures r.Declined? <==> input.Records? && !confirmed
    ensures r.Imported? ==> |r.store| == |store| + r.added && r.store[..|store|] == store
    ensures r.Imported? ==> forall p :: p in r.store[|store|..] ==> p in input.items && !UrlTaken(store, p.url)
    ensures r.Imported? ==> forall k :: 0 <= k < |input.items| ==> UrlTaken(r.store, input.items[k].url)
    ensures r.Imported? && UniqueUrls(store) ==> UniqueUrls(r.store)
  {
    match input
    case Unreadable => ReadError
    case NotAnArray => FormatError
    case Records(items) =>
      if !confirmed then Declined
      else
        var merged := AppendUnseen(store, items);
        AppendUnseenCoversUrls(store, items);
        AppendUnseenKeepsUrlsUnique(store, items);
        Imported(merged, |merged| - |store|)
  }

  /** `clearDatabase`: empties the store only after both confirmations. */
  function Clear(store: seq<Profile>, confirmed: bool, reconfirmed: bool): (r: seq<Profile>)
    ensures confirmed && reconfirmed ==> r == []
    ensures !(confirmed && reconfirmed) ==> r == store
  {
    if confirmed && reconfirmed then [] else store
  }
}

=== FILE: sync.dfy ===
/** The cloud sync (api/sync-attendees.py): the text a record is embedded from, and the
    success/failure tally of a batch. The embedding service and the database write
    are one parameter, `attempt`. */
module Sync {
  import opened Common
  import opened Text
  import opened Profiles

  // ---- create_attendee_text ----

  /** The section labels, in the order the text lists them. */
  const Labels: seq<string> := ["Name", "Headline", "Location", "School", "About", "Experience",
                                "Education", "Skills", "Interests", "Projects", "Organizations"]

  function ExperienceText(e: Experience): string {
    e.title + " at " + e.company + (if e.description != "" then " - " + e.description else "")
  }

  function EducationText(e: Education): string {
    e.degree + " from " + e.school
  }

  function ProjectText(p: Project): string {
    p.name + (if p.description != "" then " - " + p.description else "")
  }

  function OrganizationText(o: Organization): string {
    o.name + (if o.role != "" then " (" + o.role + ")" else "")
  }

  function MapText<E>(xs: seq<E>, f: E -> string): (r: seq<string>)
    ensures |r| == |xs| && forall i :: 0 <= i < |xs| ==> r[i] == f(xs[i])
  {
    seq(|xs|, i requires 0 <= i < |xs| => f(xs[i]))
  }

  /** A list section: absent when the list is empty. */
  function ListBody<E>(xs: seq<E>, f: E -> string, sep: string): (r: Option<string>)
    ensures r.Some? <==> |xs| > 0
  {
    if |xs| == 0 then None else Some(Join(MapText(xs, f), sep))
  }

  /** A string `about` is used when non-empty; an object when it has any key, as its
      `text` ('' when missing). */
  function AboutBody(a: About): (r: Option<string>)
    ensures a.NoAbout? ==> r.None?
    ensures a.AboutText? ==> (r.Some? <==> a.text != "") && (r.Some? ==> r.value == a.text)
    ensures a.AboutRecord? ==> (r.Some? <==> a.title.Some? || a.body.Some?) && (r.Some? ==> r.value == OrEmpty(a.body))
  {
    match a
    case NoAbout => None
    case AboutText(t) => if t != "" then Some(t) else None
    case AboutRecord(title, body) => if title.Some? || body.Some? then Some(OrEmpty(body)) else None
  }

  function Scalar(o: Option<string>): (r: Option<string>)
    ensures r.Some? <==> Truthy(o)
    ensures r.Some? ==> r.value == o.value
  {
    if Truthy(o) then o else None
  }

  /** The text after each label, in label order; None when the section is left out. */
  function Sections(p: Profile): (r: seq<Option<string>>)
    ensures |r| == |Labels|
  {
    [Scalar(p.name), Scalar(p.headline), Scalar(p.location), Scalar(p.school), AboutBody(p.about),
     ListBody(p.experience, ExperienceText, "; "), ListBody(p.education, EducationText, "; "),
     ListBody(p.skills, (s: string) => s, ", "), ListBody(p.interests, (s: string) => s, ", "),
     ListBody(p.projects, ProjectText, "; "), ListBody(p.organizations, OrganizationText, "; ")]
  }

  /** The positions from `i` on that hold a section, in order. */
  function PresentFrom(s: seq<Option<string>>, i: nat): (r: seq<nat>)
    requires i <= |s|
    ensures forall k :: 0 <= k < |r| ==> i <= r[k] < |s| && s[r[k]].Some?
    ensures forall k, l :: 0 <= k < l < |r| ==> r[k] < r[l]
    ensures forall j :: i <= j < |s| && s[j].Some? ==> j in r
    decreases |s| - i
  {
    if i == |s| then []
    else if s[i].Some? then [i] + PresentFrom(s, i + 1)
    else PresentFrom(s, i + 1)
  }

  /** `line` is section `i` of `s` with its label. */
  predicate LineOf(line: string, i: int, s: seq<Option<string>>) {
    0 <= i < |Labels| && |s| == |Labels| && s[i].Some? && line == Labels[i] + ": " + s[i].value
  }

  /** `line` is the line of some present section of `s`. */
  predicate IsLine(line: string, s: seq<Option<string>>) {
    exists i :: 0 <= i < |Labels| && LineOf(line, i, s)
  }

  /** No two labels share their first two characters, so a line names its section. */
  lemma LabelsDiffer()
    ensures forall i :: 0 <= i < |Labels| ==> |Labels[i]| >= 2
    ensures forall i, j :: 0 <= i < j < |Labels| ==> Labels[i][0] != Labels[j][0] || Labels[i][1] != Labels[j][1]
  {
  }

  lemma LineNamesSection(line: string, i: int, j: int, s: seq<Option<string>>)
    requires LineOf(line, i, s) && LineOf(line, j, s)
    ensures i == j
  {
    LabelsDiffer();
    assert line[0] == Labels[i][0] && line[1] == Labels[i][1];
    assert line[0] == Labels[j][0] && line[1] == Labels[j][1];
  }

  /** The lines of the sections `s`, one per present section in label order. */
  function LinesIn(s: seq<Option<string>>): (r: seq<string>)
    requires |s| == |Labels|
    ensures forall i :: 0 <= i < |Labels| ==> (s[i].Some? <==> exists k :: 0 <= k < |r| && LineOf(r[k], i, s))
    ensures forall k :: 0 <= k < |r| ==> IsLine(r[k], s)
    ensures forall k, l, i, j :: 0 <= k < l < |r| && LineOf(r[k], i, s) && LineOf(r[l], j, s) ==> i < j
  {
    var present := PresentFrom(s, 0);
    var r := seq(|present|, k requires 0 <= k < |present| => Labels[present[k]] + ": " + s[present[k]].value);
    LinesInProperties(s, present, r);
    r
  }

  /** The facts `LinesIn` promises, about the lines `r` built from `present`. */
  lemma LinesInProperties(s: seq<Option<string>>, present: seq<nat>, r: seq<string>)
    requires |s| == |Labels| && present == PresentFrom(s, 0)
    requires |r| == |present| && forall k :: 0 <= k < |r| ==> r[k] == Labels[present[k]] + ": " + s[present[k]].value
    ensures forall i :: 0 <= i < |Labels| ==> (s[i].Some? <==> exists k :: 0 <= k < |r| && LineOf(r[k], i, s))
    ensures forall k :: 0 <= k < |r| ==> IsLine(r[k], s)
    ensures forall k, l, i, j :: 0 <= k < l < |r| && LineOf(r[k], i, s) && LineOf(r[l], j, s) ==> i < j
  {
    forall k | 0 <= k < |r| ensures LineOf(r[k], present[k], s) && IsLine(r[k], s) {
      assert LineOf(r[k], present[k], s);
    }
    EveryPresentSectionHasLine(s, present, r);
    LinesFollowLabels(s, present, r);
  }

  lemma EveryPresentSectionHasLine(s: seq<Option<string>>, present: seq<nat>, r: seq<string>)
    requires |s| == |Labels| && present == PresentFrom(s, 0)
    requires |r| == |present| && forall k :: 0 <= k < |r| ==> LineOf(r[k], present[k], s)
    ensures forall i :: 0 <= i < |Labels| && s[i].Some? ==> exists k :: 0 <= k < |r| && LineOf(r[k], i, s)
  {
    forall i | 0 <= i < |Labels| && s[i].Some?
      ensures exists k :: 0 <= k < |r| && LineOf(r[k], i, s)
    {
      var k :| 0 <= k < |present| && present[k] == i;
      assert LineOf(r[k], i, s);
    }
  }

  lemma LinesFollowLabels(s: seq<Option<string>>, present: seq<nat>, r: seq<string>)
    requires |s| == |Labels| && present == PresentFrom(s, 0)
    requires |r| == |present| && forall k :: 0 <= k < |r| ==> LineOf(r[k], present[k], s)
    ensures forall k, l, i, j :: 0 <= k < l < |r| && LineOf(r[k], i, s) && LineOf(r[l], j, s) ==> i < j
  {
    forall k, l, i, j | 0 <= k < l < |r| && LineOf(r[k], i, s) && LineOf(r[l], j, s)
      ensures i < j
    {
      LineNamesSection(r[k], i, present[k], s);
      LineNamesSection(r[l], j, present[l], s);
    }
  }

  /** The lines of the text: a section has a line exactly when it is present, every
      line is a present section's, and the lines follow the label order. */
  function Lines(p: Profile): (r: seq<string>)
    ensures forall i :: 0 <= i < |Labels| ==>
              (Sections(p)[i].Some? <==> exists k :: 0 <= k < |r| && LineOf(r[k], i, Sections(p)))
    ensures forall k :: 0 <= k < |r| ==> IsLine(r[k], Sections(p))
    ensures forall k, l, i, j :: 0 <= k < l < |r| && LineOf(r[k], i, Sections(p)) && LineOf(r[l], j, Sections(p)) ==> i < j
  {
    LinesIn(Sections(p))
  }

  /** `create_attendee_text`: the lines joined by newlines. */
  function AttendeeText(p: Profile): (r: string)
    ensures |Lines(p)| == 1 ==> r == Lines(p)[0]
    ensures |Lines(p)| > 0 ==> StartsWith(r, Lines(p)[0])
    ensures |Lines(p)| > 0 ==> EndsWith(r, Lines(p)[|Lines(p)| - 1])
    ensures |Lines(p)| > 0 ==> |r| == TotalLength(Lines(p)) + |Lines(p)| - 1
    ensures forall k :: 0 <= k < |Lines(p)| ==> Contains(r, Lines(p)[k])
  {
    var lines := Lines(p);
    JoinStartsWithFirst(lines, "\n");
    JoinLengthAndEnd(lines, "\n");
    assert forall k :: 0 <= k < |lines| ==> Contains(Join(lines, "\n"), lines[k]) by {
      forall k | 0 <= k < |lines| ensures Contains(Join(lines, "\n"), lines[k]) {
        JoinHasPart(lines, "\n", k);
      }
    }
    Join(lines, "\n")
  }

  /** When no section body contains a newline, splitting the text at newlines gives the
      lines back: the text is exactly its lines, in order. */
  lemma AttendeeTextSplitsIntoLines(p: Profile)
    requires forall i :: 0 <= i < |Labels| && Sections(p)[i].Some? ==> '\n' !in Sections(p)[i].value
    requires exists i :: 0 <= i < |Labels| && Sections(p)[i].Some?
    ensures Split(AttendeeText(p), '\n') == Lines(p)
  {
    LinesSplit(Sections(p));
  }

  lemma LinesSplit(s: seq<Option<string>>)
    requires |s| == |Labels|
    requires forall i :: 0 <= i < |Labels| && s[i].Some? ==> '\n' !in s[i].value
    requires exists i :: 0 <= i < |Labels| && s[i].Some?
    ensures Split(Join(LinesIn(s), "\n"), '\n') == LinesIn(s)
  {
    var r := LinesIn(s);
    var i :| 0 <= i < |Labels| && s[i].Some?;
    forall k | 0 <= k < |r| ensures '\n' !in r[k] {
      assert IsLine(r[k], s);
      var j :| 0 <= j < |Labels| && LineOf(r[k], j, s);
      LineHasNoNewline(r[k], j, s);
    }
    SplitJoin(r, '\n');
  }

  lemma LineHasNoNewline(line: string, i: int, s: seq<Option<string>>)
    requires LineOf(line, i, s) && '\n' !in s[i].value
    ensures '\n' !in line
  {
    LabelHasNoNewline(i);
    var head := Labels[i] + ": ";
    assert line == head + s[i].value;
    forall c | 0 <= c < |line| ensures line[c] != '\n' {
      if c < |head| {
        assert line[c] == head[c];
      } else {
        assert line[c] == s[i].value[c - |head|];
      }
    }
  }

  lemma LabelHasNoNewline(i: int)
    requires 0 <= i < |Labels|
    ensures '\n' !in Labels[i] + ": "
  {
  }

  /** Every entry of a list section appears in its body. */
  lemma ListBodyHas<E>(xs: seq<E>, f: E -> string, sep: string, x: E)
    requires x in xs
    ensures ListBody(xs, f, sep).Some? && Contains(ListBody(xs, f, sep).value, f(x))
  {
    var i :| 0 <= i < |xs| && xs[i] == x;
    JoinHasPart(MapText(xs, f), sep, i);
  }

  /** Each experience entry is listed as "title at company", followed by
      " - description" when it has one. */
  lemma ExperienceListed(p: Profile)
    ensures forall e :: e in p.experience ==> Contains(Sections(p)[5].value, e.title + " at " + e.company)
    ensures forall e :: e in p.experience && e.description != "" ==>
              Contains(Sections(p)[5].value, e.title + " at " + e.company + " - " + e.description)
  {
    var body := ListBody(p.experience, ExperienceText, "; ");
    assert Sections(p)[5] == body;
    forall e | e in p.experience
      ensures Contains(body.value, e.title + " at " + e.company)
      ensures e.description != "" ==> Contains(body.value, e.title + " at " + e.company + " - " + e.description)
    {
      ListBodyHas(p.experience, ExperienceText, "; ", e);
      ExperienceEntryListed(body.value, e);
    }
  }

  lemma ExperienceEntryListed(body: string, e: Experience)
    requires Contains(body, ExperienceText(e))
    ensures Contains(body, e.title + " at " + e.company)
    ensures e.description != "" ==> Contains(body, e.title + " at " + e.company + " - " + e.description)
  {
    var head := e.title + " at " + e.company;
    if e.description != "" {
      var tail := " - " + e.description;
      assert ExperienceText(e) == head + tail;
      assert head + " - " + e.description == head + tail;
      ContainsPrefix(body, head, tail);
    } else {
      assert ExperienceText(e) == head;
    }
  }

  /** Each education entry is listed as "degree from school". */
  lemma EducationListed(p: Profile)
    ensures forall e :: e in p.education ==> Contains(Sections(p)[6].value, e.degree + " from " + e.school)
  {
    assert Sections(p)[6] == ListBody(p.education, EducationText, "; ");
    forall e | e in p.education ensures Contains(Sections(p)[6].value, EducationText(e)) {
      ListBodyHas(p.education, EducationText, "; ", e);
    }
  }

  /** Each skill and each interest is listed as itself. */
  lemma SkillsAndInterestsListed(p: Profile)
    ensures forall x :: x in p.skills ==> Contains(Sections(p)[7].value, x)
    ensures forall x :: x in p.interests ==> Contains(Sections(p)[8].value, x)
  {
    assert Sections(p)[7] == ListBody(p.skills, (t: string) => t, ", ");
    assert Sections(p)[8] == ListBody(p.interests, (t: string) => t, ", ");
    forall x | x in p.skills ensures Contains(Sections(p)[7].value, x) {
      ListBodyHas(p.skills, (t: string) => t, ", ", x);
    }
    forall x | x in p.interests ensures Contains(Sections(p)[8].value, x) {
      ListBodyHas(p.interests, (t: string) => t, ", ", x);
    }
  }

  /** Each project is listed by name, followed by " - description" when it has one. */
  lemma ProjectsListed(p: Profile)
    ensures forall q :: q in p.projects ==> Contains(Sections(p)[9].value, q.name)
    ensures forall q :: q in p.projects && q.description != "" ==>
              Contains(Sections(p)[9].value, q.name + " - " + q.description)
  {
    var body := ListBody(p.projects, ProjectText, "; ");
    assert Sections(p)[9] == body;
    forall q | q in p.projects
      ensures Contains(body.value, q.name)
      ensures q.description != "" ==> Contains(body.value, q.name + " - " + q.description)
    {
      ListBodyHas(p.projects, ProjectText, "; ", q);
      ProjectEntryListed(body.value, q);
    }
  }

  lemma ProjectEntryListed(body: string, q: Project)
    requires Contains(body, ProjectText(q))
    ensures Contains(body, q.name)
    ensures q.description != "" ==> Contains(body, q.name + " - " + q.description)
  {
    if q.description != "" {
      ContainsPrefix(body, q.name, " - " + q.description);
    }
  }

  /** Each organisation is listed by name, followed by its role in parentheses when it
      has one. */
  lemma OrganizationsListed(p: Profile)
    ensures forall o :: o in p.organizations ==> Contains(Sections(p)[10].value, o.name)
    ensures forall o :: o in p.organizations && o.role != "" ==>
              Contains(Sections(p)[10].value, o.name + " (" + o.role + ")")
  {
    var body := ListBody(p.organizations, OrganizationText, "; ");
    assert Sections(p)[10] == body;
    forall o | o in p.organizations
      ensures Contains(body.value, o.name)
      ensures o.role != "" ==> Contains(body.value, o.name + " (" + o.role + ")")
    {
      ListBodyHas(p.organizations, OrganizationText, "; ", o);
      OrganizationEntryListed(body.value, o);
    }
  }

  lemma OrganizationEntryListed(body: string, o: Organization)
    requires Contains(body, OrganizationText(o))
    ensures Contains(body, o.name)
    ensures o.role != "" ==> Contains(body, o.name + " (" + o.role + ")")
  {
    if o.role != "" {
      var tail := " (" + o.role + ")";
      assert OrganizationText(o) == o.name + tail;
      assert o.name + " (" + o.role + ")" == o.name + tail;
      ContainsPrefix(body, o.name, tail);
    } else {
      assert OrganizationText(o) == o.name;
    }
  }

  /** The text starts with its first line. */
  lemma {:induction false} JoinStartsWithFirst(parts: seq<string>, sep: string)
    ensures |parts| > 0 ==> StartsWith(Join(parts, sep), parts[0])
  {
    if |parts| > 1 {
      assert Join(parts, sep) == parts[0] + (sep + Join(parts[1..], sep));
    }
  }

  /** A record with no present section gives the empty text, and only such a record:
      every line carries its label. */
  lemma EmptyTextIffNothingPresent(p: Profile)
    ensures AttendeeText(p) == "" <==> forall i :: 0 <= i < |Labels| ==> Sections(p)[i].None?
  {
    var s := Sections(p);
    var present := PresentFrom(s, 0);
    if |present| > 0 {
      JoinStartsWithFirst(Lines(p), "\n");
      assert |Lines(p)[0]| > 0 by {
        assert Lines(p)[0] == Labels[present[0]] + ": " + s[present[0]].value;
      }
    }
  }

  /** The name, when present, is the first line. */
  lemma NameComesFirst(p: Profile)
    requires Truthy(p.name)
    ensures StartsWith(AttendeeText(p), "Name: " + p.name.value)
  {
    var s := Sections(p);
    var present := PresentFrom(s, 0);
    assert s[0] == Some(p.name.value);
    assert present == [0] + PresentFrom(s, 1);
    assert Lines(p) == LinesIn(s);
    assert LinesIn(s)[0] == Labels[0] + ": " + p.name.value;
    assert Labels[0] + ": " + p.name.value == "Name: " + p.name.value;
    var first := Lines(p)[0];
    assert first == "Name: " + p.name.value;
    assert StartsWith(AttendeeText(p), first);
  }

  // ---- the batch ----

  /** One entry of the reply's `errors`. */
  datatype SyncError = SyncError(id: Id, name: Option<string>, message: string)

  datatype SyncReply =
    | SyncRefused(status: int, error: string)
    | Tally(success: nat, failed: nat, errors: seq<SyncError>)

  /** The failures of a batch, in order; `attempt` gives the exception text of a record
      whose embedding or write failed, None when both succeeded. */
  function Failures(xs: seq<Profile>, attempt: Profile -> Option<string>): (r: seq<SyncError>)
    ensures |r| <= |xs|
  {
    if |xs| == 0 then []
    else
      var p := xs[|xs| - 1];
      Failures(xs[..|xs| - 1], attempt)
        + (if attempt(p).Some? then [SyncError(p.id, p.name, attempt(p).value)] else [])
  }

  /** The number of records written. */
  function Successes(xs: seq<Profile>, attempt: Profile -> Option<string>): (r: nat)
    ensures r <= |xs|
  {
    if |xs| == 0 then 0
    else Successes(xs[..|xs| - 1], attempt) + (if attempt(xs[|xs| - 1]).None? then 1 else 0)
  }

  /** Every record is counted once, as a success or as a failure. */
  lemma {:induction false} EveryRecordCounted(xs: seq<Profile>, attempt: Profile -> Option<string>)
    ensures Successes(xs, attempt) + |Failures(xs, attempt)| == |xs|
    decreases |xs|
  {
    if |xs| > 0 {
      EveryRecordCounted(xs[..|xs| - 1], attempt);
    }
  }

  /** `do_POST`: the three refusals in order, then one attempt per record. */
  method SyncAll(attendees: seq<Profile>, databaseConfigured: bool, googleKey: string,
                 attempt: Profile -> Option<string>) returns (r: SyncReply)
    ensures |attendees| == 0 ==> r == SyncRefused(400, "No attendees provided")
    ensures |attendees| > 0 && !databaseConfigured ==> r == SyncRefused(500, "Supabase not configured")
    ensures |attendees| > 0 && databaseConfigured && googleKey == "" ==> r == SyncRefused(500, "Google API key not configured")
    ensures r.Tally? <==> |attendees| > 0 && databaseConfigured && googleKey != ""
    ensures r.Tally? ==> && r.success + r.failed == |attendees|
                         && |r.errors| == r.failed
                         && r.errors == Failures(attendees, attempt)
                         && r.success == Successes(attendees, attempt)
  {
    if |attendees| == 0 {
      return SyncRefused(400, "No attendees provided");
    }
    if !databaseConfigured {
      return SyncRefused(500, "Supabase not configured");
    }
    if googleKey == "" {
      return SyncRefused(500, "Google API key not configured");
    }
    var success: nat := 0;
    var failed: nat := 0;
    var errors: seq<SyncError> := [];
    for i := 0 to |attendees|
      invariant success == Successes(attendees[..i], attempt)
      invariant errors == Failures(attendees[..i], attempt)
      invariant failed == |errors|
    {
      var p := attendees[i];
      assert attendees[..i + 1][..i] == attendees[..i];
      match attempt(p)
      case None =>
        success := success + 1;
      case Some(message) =>
        failed := failed + 1;
        errors := errors + [SyncError(p.id, p.name, message)];
    }
    assert attendees[..|attendees|] == attendees;
    EveryRecordCounted(attendees, attempt);
    return Tally(success, failed, errors);
  }
}

=== FILE: text.dfy ===
/** The string primitives the JavaScript and Python code relies on: trim, lower-case,
    prefix/suffix/substring tests, join and split. Strings are `seq<char>`. */
module Text {

  /** The ASCII whitespace JavaScript's `trim()` removes: tab, line feed, vertical
      tab, form feed, carriage return and space. Python's `strip()` also removes
      U+001C to U+001F; neither language's non-ASCII whitespace is covered. */
  predicate IsSpace(c: char) {
    c == ' ' || c == '\t' || c == '\n' || c == '\r' || c as int == 11 || c as int == 12
  }

  /** `s.lstrip()`: drops leading whitespace. */
  function TrimStart(s: string): (r: string)
    ensures |r| <= |s| && r == s[|s| - |r|..]
    ensures forall k :: 0 <= k < |s| - |r| ==> IsSpace(s[k])
    ensures |r| > 0 ==> !IsSpace(r[0])
  {
    if |s| > 0 && IsSpace(s[0]) then TrimStart(s[1..]) else s
  }

  /** `s.rstrip()`: drops trailing whitespace. */
  function TrimEnd(s: string): (r: string)
    ensures |r| <= |s| && r == s[..|r|]
    ensures forall k :: |r| <= k < |s| ==> IsSpace(s[k])
    ensures |r| > 0 ==> !IsSpace(r[|r| - 1])
  {
    if |s| > 0 && IsSpace(s[|s| - 1]) then TrimEnd(s[..|s| - 1]) else s
  }

  /** `s.trim()` / `s.strip()`. */
  function Trim(s: string): (r: string)
  {
    TrimEnd(TrimStart(s))
  }

  /** Trimmed text neither starts nor ends with whitespace. */
  predicate IsTrimmed(s: string) {
    |s| == 0 || (!IsSpace(s[0]) && !IsSpace(s[|s| - 1]))
  }

  /** The trimmed text is a slice of the input, everything cut away is whitespace,
      and what remains has no whitespace at either end. */
  lemma TrimSpec(s: string)
    ensures IsTrimmed(Trim(s))
    ensures exists i :: OccursAt(s, Trim(s), i)
              && (forall k :: 0 <= k < i ==> IsSpace(s[k]))
              && (forall k :: i + |Trim(s)| <= k < |s| ==> IsSpace(s[k]))
  {
    var i := TrimCut(s);
  }

  /** Where the trimmed text starts in the input. */
  lemma TrimCut(s: string) returns (i: nat)
    ensures IsTrimmed(Trim(s)) && OccursAt(s, Trim(s), i)
    ensures forall k :: 0 <= k < i ==> IsSpace(s[k])
    ensures forall k :: i + |Trim(s)| <= k < |s| ==> IsSpace(s[k])
  {
    var a := TrimStart(s);
    var r := TrimEnd(a);
    i := |s| - |a|;
    PrefixOfSuffix(s, a, r, i);
    if |r| > 0 {
      assert r[0] == a[0];
    }
  }

  /** A prefix `r` of the suffix `a` of `s` that starts at `i` occurs in `s` at `i`, and
      whatever follows it in `a` follows it in `s`. */
  lemma PrefixOfSuffix(s: string, a: string, r: string, i: nat)
    requires i + |a| == |s| && a == s[i..] && |r| <= |a| && r == a[..|r|]
    requires forall k :: |r| <= k < |a| ==> IsSpace(a[k])
    ensures OccursAt(s, r, i)
    ensures forall k :: i + |r| <= k < |s| ==> IsSpace(s[k])
  {
    forall k | i + |r| <= k < |s|
      ensures IsSpace(s[k])
    {
      assert s[k] == a[k - i];
    }
  }

  lemma TrimmedIsFixed(s: string)
    requires IsTrimmed(s)
    ensures Trim(s) == s
  {
  }

  /** Trimming twice is trimming once. */
  lemma TrimIdempotent(s: string)
    ensures Trim(Trim(s)) == Trim(s)
  {
    TrimSpec(s);
    TrimmedIsFixed(Trim(s));
  }

  predicate StartsWith(s: string, prefix: string) {
    |prefix| <= |s| && s[..|prefix|] == prefix
  }

  predicate EndsWith(s: string, suffix: string) {
    |suffix| <= |s| && s[|s| - |suffix|..] == suffix
  }

  /** `sub` appears in `s` starting at position `i`. */
  predicate OccursAt(s: string, sub: string, i: int) {
    0 <= i && i + |sub| <= |s| && s[i..i + |sub|] == sub
  }

  /** `s.includes(sub)` / `sub in s`. */
  function Contains(s: string, sub: string): (r: bool)
    ensures r <==> exists i :: OccursAt(s, sub, i)
  {
    if StartsWith(s, sub) then
      assert OccursAt(s, sub, 0);
      true
    else if |s| == 0 then
      assert forall i :: OccursAt(s, sub, i) ==> i == 0;
      false
    else
      var r := Contains(s[1..], sub);
      assert forall i :: OccursAt(s, sub, i) && i >= 1 ==> OccursAt(s[1..], sub, i - 1) by {
        forall i | OccursAt(s, sub, i) && i >= 1 ensures OccursAt(s[1..], sub, i - 1) {
          OccursShift(s, sub, i);
        }
      }
      assert r ==> exists i :: OccursAt(s, sub, i) by {
        if r {
          var j :| OccursAt(s[1..], sub, j);
          OccursShift(s, sub, j + 1);
        }
      }
      assert !OccursAt(s, sub, 0);
      r
  }

  /** An occurrence after the first character is an occurrence in the rest. */
  lemma OccursShift(s: string, sub: string, i: int)
    requires |s| > 0 && i >= 1
    ensures OccursAt(s, sub, i) <==> OccursAt(s[1..], sub, i - 1)
  {
    if i + |sub| <= |s| {
      assert s[1..][i - 1..i - 1 + |sub|] == s[i..i + |sub|];
    }
  }

  /** ASCII lower-casing of one character. */
  function LowerChar(c: char): char {
    if 'A' <= c <= 'Z' then (c as int + 32) as char else c
  }

  /** `s.toLowerCase()` / `s.lower()` restricted to ASCII letters. */
  function ToLower(s: string): (r: string)
    ensures |r| == |s|
    ensures forall i :: 0 <= i < |s| ==> r[i] == LowerChar(s[i])
  {
    seq(|s|, i requires 0 <= i < |s| => LowerChar(s[i]))
  }

  /** Lower-casing lower-cased text changes nothing. */
  lemma ToLowerIdempotent(s: string)
    ensures ToLower(ToLower(s)) == ToLower(s)
  {
  }

  /** `sep.join(parts)` / `parts.join(sep)`. */
  function Join(parts: seq<string>, sep: string): (r: string)
    ensures |parts| == 0 ==> r == ""
    ensures |parts| == 1 ==> r == parts[0]
  {
    if |parts| == 0 then ""
    else if |parts| == 1 then parts[0]
    else parts[0] + sep + Join(parts[1..], sep)
  }

  /** Position of the first occurrence of `c` in `s`. */
  function IndexOf(s: string, c: char): (r: int)
    ensures -1 <= r < |s|
    ensures r == -1 <==> c !in s
    ensures r >= 0 ==> s[r] == c && c !in s[..r]
  {
    if |s| == 0 then -1
    else if s[0] == c then 0
    else
      var k := IndexOf(s[1..], c);
      if k == -1 then -1
      else
        assert s[..k + 1] == [s[0]] + s[1..][..k];
        k + 1
  }

  /** Position of the last occurrence of `c` in `s`. */
  function LastIndexOf(s: string, c: char): (r: int)
    ensures -1 <= r < |s|
    ensures r == -1 <==> c !in s
    ensures r >= 0 ==> s[r] == c
    ensures forall k :: r < k < |s| ==> s[k] != c
  {
    if |s| == 0 then -1
    else if s[|s| - 1] == c then |s| - 1
    else
      var k := LastIndexOf(s[..|s| - 1], c);
      assert forall i :: 0 <= i < |s| - 1 ==> s[..|s| - 1][i] == s[i];
      assert c in s ==> c in s[..|s| - 1] by {
        if c in s {
          var i :| 0 <= i < |s| && s[i] == c;
          assert s[..|s| - 1][i] == c;
        }
      }
      k
  }

  /** Joining a part in front of a non-empty list puts one separator between them. */
  lemma JoinCons(a: string, rest: seq<string>, sep: string)
    requires |rest| > 0
    ensures Join([a] + rest, sep) == a + sep + Join(rest, sep)
  {
    assert ([a] + rest)[1..] == rest;
  }

  /** `s.split(c)` in both JavaScript and Python: the pieces between separators,
      always at least one. */
  function Split(s: string, c: char): (r: seq<string>)
    ensures |r| >= 1
    ensures forall i :: 0 <= i < |r| ==> c !in r[i]
    ensures Join(r, [c]) == s
    decreases |s|
  {
    var k := IndexOf(s, c);
    if k == -1 then [s]
    else
      var rest := Split(s[k + 1..], c);
      JoinCons(s[..k], rest, [c]);
      assert s == s[..k] + [c] + s[k + 1..];
      [s[..k]] + rest
  }

  /** The first separator after a separator-free prefix is the one that ends it. */
  lemma IndexOfAfter(a: string, c: char, b: string)
    requires c !in a
    ensures IndexOf(a + [c] + b, c) == |a|
  {
    var s := a + [c] + b;
    assert s[|a|] == c && s[..|a|] == a;
  }

  /** Splitting peels off a separator-free first piece. */
  lemma SplitCons(a: string, c: char, b: string)
    requires c !in a
    ensures Split(a + [c] + b, c) == [a] + Split(b, c)
  {
    var s := a + [c] + b;
    IndexOfAfter(a, c, b);
    assert s[..|a|] == a && s[|a| + 1..] == b;
  }

  /** Joining separator-free pieces and splitting again gives the pieces back. */
  lemma {:induction false} SplitJoin(parts: seq<string>, c: char)
    requires |parts| >= 1
    requires forall i :: 0 <= i < |parts| ==> c !in parts[i]
    ensures Split(Join(parts, [c]), c) == parts
    decreases |parts|
  {
    if |parts| == 1 {
      assert IndexOf(parts[0], c) == -1;
    } else {
      assert Join(parts, [c]) == parts[0] + [c] + Join(parts[1..], [c]);
      SplitCons(parts[0], c, Join(parts[1..], [c]));
      SplitJoin(parts[1..], c);
      assert parts == [parts[0]] + parts[1..];
    }
  }

  /** Every part occurs in the joined text. */
  lemma {:induction false} JoinHasPart(parts: seq<string>, sep: string, i: int)
    requires 0 <= i < |parts|
    ensures Contains(Join(parts, sep), parts[i])
    decreases |parts|
  {
    var s := Join(parts, sep);
    if |parts| == 1 {
      assert OccursAt(s, parts[0], 0);
    } else {
      var rest := Join(parts[1..], sep);
      assert s == parts[0] + sep + rest;
      if i == 0 {
        assert s[..|parts[0]|] == parts[0];
        assert OccursAt(s, parts[0], 0);
      } else {
        JoinHasPart(parts[1..], sep, i - 1);
        var off :| OccursAt(rest, parts[1..][i - 1], off);
        var base := |parts[0]| + |sep|;
        assert s[base..] == rest;
        assert s[base + off..base + off + |parts[i]|] == rest[off..off + |parts[i]|];
        assert OccursAt(s, parts[i], base + off);
      }
    }
  }

  /** The combined length of the parts. */
  function TotalLength(parts: seq<string>): (r: nat)
    ensures |parts| > 0 ==> r >= |parts[0]|
  {
    if |parts| == 0 then 0 else |parts[0]| + TotalLength(parts[1..])
  }

  /** Joined text is the parts plus one separator between each neighbouring pair, and
      it ends with the last part. */
  lemma {:induction false} JoinLengthAndEnd(parts: seq<string>, sep: string)
    ensures |parts| > 0 ==> |Join(parts, sep)| == TotalLength(parts) + (|parts| - 1) * |sep|
    ensures |parts| > 0 ==> EndsWith(Join(parts, sep), parts[|parts| - 1])
    decreases |parts|
  {
    if |parts| > 1 {
      var tail := parts[1..];
      JoinLengthAndEnd(tail, sep);
      var rest := Join(tail, sep);
      var s := Join(parts, sep);
      assert s == parts[0] + sep + rest;
      assert TotalLength(parts) == |parts[0]| + TotalLength(tail);
      assert (|parts| - 1) * |sep| == (|tail| - 1) * |sep| + |sep|;
      var last := parts[|parts| - 1];
      assert tail[|tail| - 1] == last;
      assert s[|s| - |rest|..] == rest;
      assert s[|s| - |last|..] == rest[|rest| - |last|..];
    }
  }

  /** Text containing `a + b` contains `a`. */
  lemma ContainsPrefix(s: string, a: string, b: string)
    requires Contains(s, a + b)
    ensures Contains(s, a)
  {
    var off :| OccursAt(s, a + b, off);
    assert s[off..off + |a|] == (a + b)[..|a|];
    assert OccursAt(s, a, off);
  }

  /** The UTF-16 code units of one character: itself below U+10000, otherwise a
      surrogate pair (section 2.1 of RFC 2781). */
  function CharUnits(c: char): (r: seq<int>)
    ensures c as int < 0x10000 ==> r == [c as int]
    ensures c as int >= 0x10000 ==> && |r| == 2
                                    && 0xD800 <= r[0] < 0xDC00 && 0xDC00 <= r[1] < 0xE000
                                    && 0x10000 + (r[0] - 0xD800) * 0x400 + (r[1] - 0xDC00) == c as int
  {
    if c as int < 0x10000 then [c as int]
    else
      var v := c as int - 0x10000;
      [0xD800 + v / 0x400, 0xDC00 + v % 0x400]
  }

  /** The UTF-16 code units of a string: what JavaScript's `length`, indexing and
      default string comparison see. */
  function Utf16(s: string): (r: seq<int>)
    ensures |s| <= |r| <= 2 * |s|
    ensures (forall i :: 0 <= i < |s| ==> s[i] as int < 0x10000) ==>
              |r| == |s| && forall i :: 0 <= i < |s| ==> r[i] == s[i] as int
    ensures (forall i :: 0 <= i < |s| ==> s[i] as int >= 0x10000) ==> |r| == 2 * |s|
  {
    if |s| == 0 then []
    else
      var rest := Utf16(s[1..]);
      assert forall i :: 1 <= i < |s| ==> s[1..][i - 1] == s[i];
      CharUnits(s[0]) + rest
  }

  /** Decimal rendering of a natural number, as a template literal prints it. */
  function NatToString(n: nat): (r: string)
    ensures |r| >= 1
    ensures forall i :: 0 <= i < |r| ==> '0' <= r[i] <= '9'
  {
    var d := [(48 + n % 10) as char];
    if n < 10 then d else NatToString(n / 10) + d
  }

  /** Decimal rendering of an integer, with a leading '-' when negative. */
  function IntToString(n: int): (r: string)
    ensures |r| >= 1
    ensures n >= 0 ==> r == NatToString(n)
    ensures n < 0 ==> r == "-" + NatToString(-n)
  {
    if n >= 0 then NatToString(n) else "-" + NatToString(-n)
  }
}
